=== FILE: README.md ===
# Benchmarking hooks and log readers, modelled in Dafny

The repository instruments a batch-processing framework with four services
and reads their output with a handful of Python scripts.

**The services**
- The **memory-counter engine** (`src/MemoryCounter.cc`) measures each module's allocations per phase. It prints one `*MEMCOUNTER*` line when a module leaves a phase. Its older variant is `plugins/MemoryCounter.cc`.
- The **RSS sampler** (`plugins/CheckRSSService.cc`) prints the process's resident and virtual size around every phase.
- The **module timer** (`plugins/ModuleTimer.cc`) prints the CPU time of every module phase and of every event.
- The **dump trigger** (`src/IgprofDump.cc`) makes the profiler write a dump and renames that dump.

**The readers**
- `scripts/JobInfo.py` and `formatOutput.py` read the services' lines back into per-module records.
- The plotting scripts rank, filter and aggregate those records:
  - `JobInfoPlot.py`;
  - `moduleMemoryPlots.py`, whose plotting functions are a verbatim copy of those in `JobInfoPlot.py`;
  - `classMemoryPlots.py`;
  - `possibleMemoryLeaks.py`;
  - `singleModuleMemoryPlots.py`;
  - `memoryPlots.py`.

Each source file has one module here.

**How the services are modelled**
- Each service is a class. Its printed lines are a `seq<string>` field (`out`, `err`).
- Each framework hook is a method that takes the module description and the phase.
- The framework's clock, the `/proc` files, the file system and the counter factory become parameters.
- The memory-counter engine, the RSS sampler and the module timer are modelled in the signal era where run, luminosity-block and event phases are global. These are the `#else` branches.
- The dump trigger is the exception. It registers its automatic hooks only in the newer stream-based era (`src/IgprofDump.cc:123-127`). There they reach `checkWhetherToDump` through `checkWhetherToDumpWithStream` (`src/IgprofDump.cc:62-65`). `CheckWhetherToDump` and `PostEvent` model those hooks, taking the module description the stream context carries. In the `#else` era no hook is registered and only `DumpNow` is reachable.
- The memory counter of `external/memcounter/IMemoryCounter.h` is a class with the fields its accessors read.
- The counter's `Allocate` and `Release` methods stand for what the preloaded counting library records.
  - While disabled, the counter records no new allocation.
  - A release of a block it counted is always recorded, enabled or not, because `currentNumberOfAllocations` reports the allocations still outstanding (`IMemoryCounter.h:48-49`). The `counted` flag of `Release` stands for the library's knowledge of which blocks it counted.
  - So the trailing value of an exit line is what the module's counted blocks lost between two phases (`ExitThenReenter`).

**How the readers are modelled**
- The reading loops are methods. Each is proved equal to a fold over the lines (`ParseLines`, `ScanLines`, `Titles`, `Arguments`).
- The properties are lemmas about those folds:
  - the ordered, de-duplicated step and module lists;
  - the one-record-per-module invariant;
  - that the name check never fires;
  - that reading stops for good at the first exception.
- A Python dict whose iteration order matters is a `map` plus an explicit `order` sequence. The sequence lists each key once.

**Properties that link the two sides**
- `RoundTrip` proves that every line the engine or the timer prints is read by `scripts/JobInfo.py` without an exception. It also proves that the record then holds the printed numbers.
- Every `formatOutput.py` table row has as many comma-separated fields as the table's header.
- The rankings are permutations, sorted by score, and white-listing and truncation keep the order.
- The per-class aggregate holds exact sums and maxima.

**Edge cases the model reproduces**

The model keeps the source's behaviour even where it looks unintended:
- In `src/MemoryCounter.cc:186,206` the corrected baseline can equal the "unset" marker −1. The trailing fields are then dropped (`CorrectedBaselineCanLookUnset`).
- In `scripts/memoryPlots.py` the title `-t 2 a b` stores `a` under "2" and then overwrites it with `b` (`RepeatedTitleReplaces`).
- In `scripts/memoryPlots.py`, if the first sample carries the event number −999, `results[-1]` fails on the empty list (`FirstSampleWithoutEvent`).
- `scripts/singleModuleMemoryPlots.py` stores the program's own name as an input file (`ProgramNameIsAFile`).
- `max()` over a module without memory steps raises, so a job with a time-only module cannot be ranked. This is the `None` result of `OrderModulesByMaximumValue`.

## Model

| member | source | states |
|---|---|---|
| MemCounter.WithEnabled | external/memcounter/IMemoryCounter.h:35-38 | only the enabled flag changes, to the requested value |
| MemCounter.MaximumReset | external/memcounter/IMemoryCounter.h:41-42 | maxima become the current size and count; enabled flag and current values untouched; high-water mark not below current size |
| MemCounter.Allocated | external/memcounter/IMemoryCounter.h:41-52 | enabled: one more outstanding allocation of `size` bytes; disabled: nothing changes; the enabled flag is kept; the maximum becomes the larger of the old maximum and the new size; a moved maximum records the allocation count at that moment, an unmoved one keeps its count |
| MemCounter.Released | external/memcounter/IMemoryCounter.h:45-49 | a counted block's release leaves one allocation and `size` bytes fewer outstanding, enabled or not; an uncounted block changes nothing; maxima and the enabled flag untouched |
| MemCounter.DisabledCounterOnlyLosesReleases | external/memcounter/IMemoryCounter.h:48-49 | while disabled, any run of allocations and releases lowers the current size by exactly the sizes of the counted blocks released |
| MemCounter.MaximumAllocationsIsNotMaximumCount | external/memcounter/IMemoryCounter.h:51-52 | a concrete sequence where two allocations are outstanding but the count reported with the maximum is one |
| MemCounter.MaximumResetIdempotent | external/memcounter/IMemoryCounter.h:41-42 | resetting the maximum twice equals resetting once |
| MemCounter.MemoryCounter.constructor | external/memcounter/IMemoryCounter.h:20-33 | a fresh counter is disabled and has counted nothing |
| MemCounter.MemoryCounter.SetEnabled | external/memcounter/IMemoryCounter.h:35 | returns the state before the call and sets the new one |
| MemCounter.MemoryCounter.IsEnabled | external/memcounter/IMemoryCounter.h:36 | reports the enabled flag |
| MemCounter.MemoryCounter.Enable | external/memcounter/IMemoryCounter.h:37 | sets the enabled flag only |
| MemCounter.MemoryCounter.Disable | external/memcounter/IMemoryCounter.h:38 | clears the enabled flag only |
| MemCounter.MemoryCounter.ResetMaximum | external/memcounter/IMemoryCounter.h:41-42 | new state is `MaximumReset` of the old |
| MemCounter.MemoryCounter.Allocate | external/memcounter/IMemoryCounter.h:45-52 | new state is `Allocated` of the old; consistency kept |
| MemCounter.MemoryCounter.Release | external/memcounter/IMemoryCounter.h:45-49 | new state is `Released` of the old; consistency kept |
| MemCounter.MemoryCounter.Record | external/memcounter/IMemoryCounter.h:45-52 | the counter after a run of allocations and releases is `Applied` to the old state, one change at a time |
| MemCounter.CreateNew | external/memcounter/IMemoryCounter.h:23-33 | null when the factory symbol is absent, otherwise whatever the factory returns |
| Framework.ExitLabelHasNoComma | plugins/MemoryCounter.cc:143-145 | no step name a service prints contains a comma |
| MemoryCounterService.NewDetails | src/MemoryCounter.cc:36-37 | a new entry holds its counter and the unset marker −1 |
| MemoryCounterService.SameNumberedName | src/MemoryCounter.cc:143-159 | two names with the same stem are equal only for equal numbers |
| MemoryCounterService.MethodNameMarks | src/MemoryCounter.cc:143-162 | every method name starts with its phase's fixed text at the positions that tell phases apart |
| MemoryCounterService.MethodNameIdentifiesPhase | src/MemoryCounter.cc:143-162 | equal method names mean the same phase and the same event, run or block number |
| MemoryCounterService.ReportFields | src/MemoryCounter.cc:203-207 | seven fields (label, module label, type, sizes, counts), plus previous event and size exactly when a sample is recorded |
| MemoryCounterService.ReportLineFields | src/MemoryCounter.cc:203-208 | the exit line is the `*MEMCOUNTER*` prefix followed by exactly those fields when split on ',' |
| MemoryCounterService.CorrectedBaselineCanLookUnset | src/MemoryCounter.cc:186 | a correction that yields −1 makes the exit line lose its trailing pair |
| MemoryCounterService.MemoryCounterService.constructor | src/MemoryCounter.cc:82-171 | hooks registered iff the factory symbol is found; counters start at 1; allow-list and verbosity from the parameters; the warning lines printed |
| MemoryCounterService.MemoryCounterService.PreModuleConstruction | src/MemoryCounter.cc:215-231 | an entry only for an admitted label with a non-null counter, never replacing an existing one; the counter is reset and enabled; each refusal prints its line and changes nothing else |
| MemoryCounterService.MemoryCounterService.AddCounter | src/MemoryCounter.cc:223-226 | insertion without replacement, the new counter reset then enabled, the verbose line |
| MemoryCounterService.MemoryCounterService.EnableMemoryCounter | src/MemoryCounter.cc:178-191 | untracked label: nothing changes; tracked: maximum reset, baseline corrected unless unset, counter enabled, nothing else |
| MemoryCounterService.MemoryCounterService.DisableMemoryCounterAndPrint | src/MemoryCounter.cc:193-213 | untracked label: nothing; tracked: counter disabled, the report line printed, then the sample and its method name stored |
| MemoryCounterService.MemoryCounterService.ExitThenReenter | src/MemoryCounter.cc:178-211 | exit, any allocations and releases while disabled, then entry and exit of the next phase: the second line carries the first phase's name and the bytes the counted blocks lost in between, or drops both when the first size or that loss is the unset marker |
| MemoryCounterService.MemoryCounterService.ConstructedThenExit | src/MemoryCounter.cc:193-226 | the first exit after construction prints a seven-field line: nothing recorded before |
| MemoryCounterService.MemoryCounterService.ExitAndRecord | src/MemoryCounter.cc:193-211 | a phase exit followed by changes while disabled: the line, the stored sample, and a size lower by exactly the counted releases |
| MemoryCounterService.MemoryCounterService.EnterAndExit | src/MemoryCounter.cc:178-211 | entering then leaving a phase prints the line whose trailing value is the stored sample minus the size on entry |
| MemoryCounterService.MemoryCounterService.RecordFor | src/MemoryCounter.cc:193-197 | changes recorded on one module's counter bring it to `Applied` of its old state and keep every counter valid |
| MemoryCounterService.MemoryCounterService.PostProcessEvent | src/MemoryCounter.cc:151 | event number up by one |
| MemoryCounterService.MemoryCounterService.PostEndLumi | src/MemoryCounter.cc:155 | block number up by one |
| MemoryCounterService.MemoryCounterService.PostEndRun | src/MemoryCounter.cc:159 | run number up by one |
| MemoryCounterPlugin.ExitLineHasSevenFields | plugins/MemoryCounter.cc:143-145 | the older exit line splits into exactly seven fields |
| MemoryCounterPlugin.MemoryCounterPlugin.constructor | plugins/MemoryCounter.cc:36-91 | without the factory symbol no hook is registered and the error lines are written; otherwise allow-list and verbosity from the parameters, event number 1 |
| MemoryCounterPlugin.MemoryCounterPlugin.Copy | plugins/MemoryCounter.cc:98-104 | the copy holds the same table, counters and settings |
| MemoryCounterPlugin.MemoryCounterPlugin.Assign | plugins/MemoryCounter.cc:106-116 | the target takes the source's table and settings; self-assignment leaves it unchanged |
| MemoryCounterPlugin.MemoryCounterPlugin.PreModuleConstruction | plugins/MemoryCounter.cc:118-133 | same admission rule as the engine; the new counter is enabled without a maximum reset |
| MemoryCounterPlugin.MemoryCounterPlugin.PreModule | plugins/MemoryCounter.cc:151-159 | tracked label: counter enabled, the verbose line; untracked: no-op |
| MemoryCounterPlugin.MemoryCounterPlugin.PostModule | plugins/MemoryCounter.cc:239-253 | tracked label: disabled, seven-field line printed, maximum reset; untracked: no-op |
| MemoryCounterPlugin.MemoryCounterPlugin.PostProcessEvent | plugins/MemoryCounter.cc:255-258 | event number up by one |
| CheckRss.PageSizeInKiB | plugins/CheckRSSService.cc:101 | the page size divided by 1024, rounded down |
| CheckRss.StoIOfIntToString | plugins/CheckRSSService.cc:54 | `std::stoi` reads a printed `int` back, whatever follows it |
| CheckRss.GetMemoryUse | plugins/CheckRSSService.cc:39-55 | unopenable file and fewer than two columns raise their errors; otherwise rss is column 1 and size column 0, each times the page size |
| CheckRss.SplitCountsSeparators | plugins/CheckRSSService.cc:48-49 | splitting on ' ' yields two columns or more exactly when the text holds a space |
| CheckRss.GetMemoryUseOfStatm | plugins/CheckRSSService.cc:39-55 | a statm line `size rss …` yields rss·page and size·page |
| CheckRss.FirstColumnReads | plugins/CheckRSSService.cc:48-54 | the first column of a printed number followed by non-digits reads as that number |
| CheckRss.StartAndEndLabelsDiffer | plugins/CheckRSSService.cc:149-162 | no start label equals an end label |
| CheckRss.CheckRssService.constructor | plugins/CheckRSSService.cc:97-101 | counters at 0; process id text and page size in KiB stored |
| CheckRss.CheckRssService.DumpRss | plugins/CheckRSSService.cc:74-85 | the `*RSSDUMP*` line with label, module, rss, size and load, or the error the read raised |
| CheckRss.CheckRssService.PostProcessEvent | plugins/CheckRSSService.cc:145 | event number up by one |
| CheckRss.CheckRssService.PostEndLumi | plugins/CheckRSSService.cc:146 | block number up by one |
| CheckRss.CheckRssService.PostEndRun | plugins/CheckRSSService.cc:147 | run number up by one |
| ModuleTimer.Elapsed | plugins/ModuleTimer.cc:76 | start plus elapsed is now, per component |
| ModuleTimer.TimerLineFields | plugins/ModuleTimer.cc:77-78 | the timer line is its prefix and exactly six fields when split on ',' |
| ModuleTimer.ModuleTimerService.constructor | plugins/ModuleTimer.cc:17-31 | event number 1, no stamps, nothing printed |
| ModuleTimer.ModuleTimerService.PreModule | plugins/ModuleTimer.cc:117-120 | only the shared module stamp changes, to now |
| ModuleTimer.ModuleTimerService.PostModule | plugins/ModuleTimer.cc:122-127 | one line with the phase label and the time since the module stamp |
| ModuleTimer.ModuleTimerService.PreProcessEvent | plugins/ModuleTimer.cc:129-132 | only the event stamp changes |
| ModuleTimer.ModuleTimerService.PostProcessEvent | plugins/ModuleTimer.cc:134-140 | one `eventN,EVENT,EVENT` line with the time since the event stamp, then the number up by one |
| IgprofDump.Touched | src/IgprofDump.cc:79-80 | opening for append creates the file empty when absent and never changes any contents |
| IgprofDump.Renamed | src/IgprofDump.cc:86-88 | the target holds the source's contents, the source is gone, other files untouched |
| IgprofDump.DumpSuffixesDistinct | src/IgprofDump.cc:96-110 | two triggered dumps with the same name were taken at the same end of the same event, so no dump overwrites another |
| IgprofDump.UserDumpSuffixDistinct | src/IgprofDump.cc:137-139 | default names of different requests differ |
| IgprofDump.TriggeredDumpIsNotUserDump | src/IgprofDump.cc:96-110 | a triggered dump's name never equals a default user-requested name |
| IgprofDump.IgprofDumpService.constructor | src/IgprofDump.cc:112-121 | configuration stored; event and request counters at 0; 500 ms pause |
| IgprofDump.IgprofDumpService.TouchFileAndMoveDump | src/IgprofDump.cc:72-94 | touch, pause, rename to dump path + suffix; a refused operation logs the error and stops there, never escaping |
| IgprofDump.IgprofDumpService.CheckWhetherToDump | src/IgprofDump.cc:96-110 | no dump: nothing changes; otherwise the dump with the suffix `DumpSuffixFor` gives |
| IgprofDump.IgprofDumpService.PostEvent | src/IgprofDump.cc:126 | event number up by one |
| IgprofDump.IgprofDumpService.DumpNow | src/IgprofDump.cc:135-140 | every request counted; the given suffix, or `userDumpN` when empty |
| JobInfo.NewModuleInfo | scripts/JobInfo.py:21-27 | fewer than three columns raise; otherwise label and type from columns 1 and 2, no steps |
| JobInfo.NewMemoryLog | scripts/JobInfo.py:5-10 | succeeds exactly when both sizes are numbers; product size zero |
| JobInfo.CheckColumns | scripts/JobInfo.py:31-33 | passes exactly with enough columns and matching name and type |
| JobInfo.AddMemoryStep | scripts/JobInfo.py:30-41 | stores the step under column 0 (replacing), also when the product size then raises; nine or more columns set the product size of the step named in column 7, raising if it is absent; every other step keeps its value; a failed check leaves the record |
| JobInfo.NewTimeLog | scripts/JobInfo.py:15-18 | succeeds exactly when all three times are numbers |
| JobInfo.AddTimeStep | scripts/JobInfo.py:43-48 | checks six columns, name and type, then stores the time step under column 0 |
| JobInfo.Classify | scripts/JobInfo.py:77-92 | timer prefix, else memory prefix, decides the kind; the columns are the rest split on ',' |
| JobInfo.Listed | scripts/JobInfo.py:101-104 | a new step is appended once; an event step's module is appended once |
| JobInfo.LineSetsItsFlag | scripts/JobInfo.py:77-96 | after a line the time flag is set exactly when it was set or the line has the timer prefix; the memory flag exactly when it was set or the line has the memory prefix and not the timer prefix |
| JobInfo.AfterStepTouchesOneRecord | scripts/JobInfo.py:94-115 | a step files at most the record of its own module (column 1); every other record and the RSS samples stay as they were |
| JobInfo.AfterLineKeeps | scripts/JobInfo.py:77-115 | one line keeps steps and event modules distinct and every record under its own label; the old state is extended |
| JobInfo.AfterStepKeeps | scripts/JobInfo.py:94-115 | the same for one step |
| JobInfo.NameCheckNeverFires | scripts/JobInfo.py:32 | the wrong-module-name error is never raised: records are looked up by that very name |
| JobInfo.ParseLinesKeeps | scripts/JobInfo.py:71-75 | reading any lines keeps the invariant and extends the start state: no step, module or record is lost and a set flag stays set |
| JobInfo.ParseLinesStops | scripts/JobInfo.py:71-75 | after an exception later lines are not read |
| JobInfo.JobInfoReader.constructor | scripts/JobInfo.py:51-57 | empty collections, both flags false |
| JobInfo.JobInfoReader.List | scripts/JobInfo.py:98-104 | new state is `Listed` of the old |
| JobInfo.JobInfoReader.AddStep | scripts/JobInfo.py:94-115 | new state and exception are those of `AfterStep` |
| JobInfo.OtherLineRule | scripts/JobInfo.py:84-92 | a line with neither prefix changes only the RSS samples: 13 or 15 fields with `mem`, `kb`, `pid`, `node` at 6, 8, 9, 11 append field 7's number or raise `ValueError` when it is not one; any other line is ignored |
| JobInfo.JobInfoReader.AddFromLine | scripts/JobInfo.py:77-92 | new state and exception are those of `AfterLine` |
| JobInfo.JobInfoReader.ParseFile | scripts/JobInfo.py:71-75 | new state and exception are those of `ParseLines` |
| RoundTrip.PrefixesAgree | scripts/JobInfo.py:79-82 | the reader's prefixes are the ones the services print, and they exclude each other |
| RoundTrip.MemoryReportIsRead | scripts/JobInfo.py:79-82 | an engine exit line is read without exception into a memory step with the printed sizes and counts, and sets the product size of the previous step |
| RoundTrip.TimerLineIsRead | scripts/JobInfo.py:79-80 | a timer line is read into a time step holding the printed times |
| FormatOutput.StoreMemoryStep | formatOutput.py:39-44 | checks seven columns, name and type, then stores the step; no product size |
| FormatOutput.ScanColumns | formatOutput.py:126-146 | a single column stops the loop and changes nothing |
| FormatOutput.ScanLine | formatOutput.py:114-124 | lines of other services are skipped |
| FormatOutput.ScanLines | formatOutput.py:110-146 | the scan keeps steps and event modules distinct, records filed by label, no comma in any name |
| FormatOutput.ScanAgreesWithReader | formatOutput.py:129-146 | for two columns or more the loop does what the log reader's `addStep` does, up to the product size |
| FormatOutput.ScanLinesStops | formatOutput.py:127 | once the loop has stopped or raised, later lines are not read |
| FormatOutput.ScanLineFlags | formatOutput.py:114-124 | one pass sets the flag of the line's kind and clears none |
| FormatOutput.ScanSetsFlags | formatOutput.py:107-127 | after the loop the memory flag is set exactly when a memory-counter line was read, and the time flag exactly when a timer line was read, the line that ended the loop included |
| FormatOutput.MemoryCells | formatOutput.py:67-72 | one cell per step: the value, or empty when the step is missing |
| FormatOutput.MemoryRows | formatOutput.py:62-73 | at most one row per name of the order |
| FormatOutput.Shown | formatOutput.py:62-65 | a name is shown exactly when it is in the order and its module is not the event pseudo-module |
| FormatOutput.MemoryRowsAreShownModules | formatOutput.py:62-73 | the k-th memory row is the row of the k-th shown module, and there are no others |
| FormatOutput.DumpMemory | formatOutput.py:53-73 | title "Peak memory" or "Retained memory", then the header of steps |
| FormatOutput.TimeCells | formatOutput.py:89-99 | one cell per step: the time of the kind, or empty |
| FormatOutput.TimeRows | formatOutput.py:83-100 | one row per module of the order |
| FormatOutput.DumpTime | formatOutput.py:75-100 | the kind's name, the header, one row per module |
| FormatOutput.Format | formatOutput.py:11-158 | wrong argument count and a raised exception end the script without tables |
| FormatOutput.MemoryRowsAligned | formatOutput.py:57-73 | every memory row has as many fields as the header |
| FormatOutput.TimeRowsAligned | formatOutput.py:78-100 | every time row has as many fields as the header |
| FormatOutput.ReportIsRectangular | formatOutput.py:148-158 | every printed line other than a title or blank line has the header's width |
| FormatOutput.FormatPrintsWhatWasRead | formatOutput.py:148-158 | a successful run starts with the peak-memory table exactly when a memory-counter line was read; the real-time table follows the memory tables exactly when a timer line was read |
| FormatOutput.ReportSections | formatOutput.py:148-158 | the memory tables come first exactly when the memory flag is set; the time tables, starting with real time, follow exactly when the time flag is set |
| FormatOutput.TakeColumns | formatOutput.py:129-146 | the loop body agrees with `ScanColumns` |
| FormatOutput.ReadLine | formatOutput.py:110-146 | one pass agrees with `ScanLine` |
| FormatOutput.ReadLines | formatOutput.py:110-146 | the read loop ends in the state and stop reason `ScanLines` gives |
| FormatOutput.PrintTables | formatOutput.py:148-158 | prints `Report` of the collected state |
| FormatOutput.FormatLog | formatOutput.py:11-158 | the script's outcome is `Format` |
| JobInfoPlot.RetainedExcludingProductBins | scripts/classMemoryPlots.py:53 | with no zero product size the plot's bins are held minus product; with all product sizes zero every bin is zero |
| JobInfoPlot.MaximumIsMaximum | scripts/JobInfoPlot.py:78 | the maximum is attained at some step and bounds all steps |
| JobInfoPlot.ModuleMaximum | scripts/JobInfoPlot.py:77-79 | `None` exactly for a module without steps, otherwise its maximum |
| JobInfoPlot.RankDescendingSorts | scripts/JobInfoPlot.py:80 | the ranking is sorted by score, largest first, and a permutation |
| JobInfoPlot.RankDescendingKeepsNames | scripts/JobInfoPlot.py:80 | the ranked names are a permutation of the input names |
| JobInfoPlot.RankingOfMaxima | scripts/JobInfoPlot.py:75-80 | ranking the maxima lists every module once, by non-increasing maximum |
| JobInfoPlot.OrderModulesByMaximumValue | scripts/JobInfoPlot.py:65-80 | `None` exactly when some module has no step; otherwise a permutation of the modules ranked by maximum |
| JobInfoPlot.WhiteListed | scripts/JobInfoPlot.py:89-94 | no list keeps all; otherwise exactly the listed names |
| JobInfoPlot.WhiteListedKeepsRank | scripts/JobInfoPlot.py:89-94 | filtering keeps the ranked order |
| JobInfoPlot.SliceTo | scripts/JobInfoPlot.py:97 | a prefix of length min(n, length) for non-negative n |
| JobInfoPlot.Limited | scripts/JobInfoPlot.py:96-97 | truncation only when a number smaller than the length is given |
| JobInfoPlot.SubsetToPlot | scripts/JobInfoPlot.py:88-97 | the selection loop computes white-listing then limiting |
| JobInfoPlot.LimitedKeepsRank | scripts/JobInfoPlot.py:96-97 | a truncated ranking stays ranked |
| JobInfoPlot.BinsCarryForward | scripts/JobInfoPlot.py:33-43 | a bin holds the value of the latest step up to it the module has, 0 before any |
| JobInfoPlot.CarryForward | scripts/JobInfoPlot.py:33-43 | the inner loop computes `Bins` |
| JobInfoPlot.UniqueName | scripts/JobInfoPlot.py:22-26 | a given title with each space made an underscore and every other character kept; no title: `plots` followed by the random text |
| JobInfoPlot.CreatePlot | scripts/JobInfoPlot.py:28-45 | one histogram per named module in order, with its bins and labels; names pairwise distinct |
| JobInfoPlot.SelectionIsChosen | scripts/JobInfoPlot.py:87-97 | white-listing then limiting a ranking gives ranked, listed modules |
| JobInfoPlot.CreatePlotForMaximumModules | scripts/JobInfoPlot.py:82-99 | `None` exactly when ranking raises; otherwise at most n plots, laying out exactly the first n listed modules of a permutation of the order sorted by maximum |
| JobInfoPlot.TrimmedLabels | scripts/JobInfoPlot.py:138-139 | label i kept exactly when i is a multiple of the step |
| JobInfoPlot.TrimBinLabels | scripts/JobInfoPlot.py:136-139 | a zero step raises when any label exists; otherwise every plot's labels trimmed |
| ModuleMemoryPlots.SeriesOfJob | scripts/moduleMemoryPlots.py:74-77 | each module's name and memory steps, key for key |
| ModuleMemoryPlots.Run | scripts/moduleMemoryPlots.py:99-118 | exactly one argument or raise; the ranking raises exactly for a module without memory steps; at most 25 modules per plot |
| ClassMemoryPlots.Combine | scripts/classMemoryPlots.py:40-43 | sums held memory and product size, keeps the larger peak, leaves the allocation fields |
| ClassMemoryPlots.AddSteps | scripts/classMemoryPlots.py:32-43 | the inner loop adds every step of a module into its class |
| ClassMemoryPlots.AddOneMore | scripts/classMemoryPlots.py:33-43 | adding one step changes only that step's entry |
| ClassMemoryPlots.AggregateByClass | scripts/classMemoryPlots.py:22-43 | the outer loop computes `Aggregate` in dict order |
| ClassMemoryPlots.PeakFromZero | scripts/classMemoryPlots.py:43 | the largest peak or zero: bounds every peak, attained unless zero |
| ClassMemoryPlots.AggregateHasOneRecordPerType | scripts/classMemoryPlots.py:25-29 | one record exactly per module type present, named after the type |
| ClassMemoryPlots.AggregateSums | scripts/classMemoryPlots.py:32-43 | a class step exists exactly when a module of the type has it, and holds the sums, the largest peak and zero counts |
| ClassMemoryPlots.Run | scripts/classMemoryPlots.py:10-54 | exactly one argument or raise; raises for a class without steps; at most 25 per plot |
| PossibleMemoryLeaks.EventSteps | scripts/possibleMemoryLeaks.py:57-59 | exactly the steps whose name starts with "event" |
| PossibleMemoryLeaks.Candidates | scripts/possibleMemoryLeaks.py:54-60 | exactly the records with two event steps or more |
| PossibleMemoryLeaks.Slopes | scripts/possibleMemoryLeaks.py:54-65 | the candidates in order, each with its slope |
| PossibleMemoryLeaks.OrderModulesByRetainedSlope | scripts/possibleMemoryLeaks.py:52-66 | a permutation of the candidates, by non-increasing slope |
| PossibleMemoryLeaks.RankingOfSlopes | scripts/possibleMemoryLeaks.py:66 | ranking the pairs gives the candidates by non-increasing slope |
| PossibleMemoryLeaks.ToPlot | scripts/possibleMemoryLeaks.py:97 | the first 25 of the ranking, or all of it when shorter |
| SingleModulePlots.DefaultTitle | scripts/singleModuleMemoryPlots.py:29-32 | the title holds no '/' |
| SingleModulePlots.DefaultTitleStripsAffixes | scripts/singleModuleMemoryPlots.py:29-32 | `dir/output_NAME.log` is titled `NAME` |
| SingleModulePlots.SuffixesInUseBound | scripts/singleModuleMemoryPlots.py:33-36 | no more suffixed titles are in use than there are keys, so the search ends |
| SingleModulePlots.UniqueTitle | scripts/singleModuleMemoryPlots.py:33-36 | a free title is kept; otherwise the smallest free `_k` suffix; never an existing key |
| SingleModulePlots.FindUniqueTitle | scripts/singleModuleMemoryPlots.py:33-36 | the search loop computes `UniqueTitle` |
| SingleModulePlots.AddFileAddsOneEntry | scripts/singleModuleMemoryPlots.py:28-39 | each file adds exactly one new entry and resets the title |
| SingleModulePlots.ScanKeepsEntries | scripts/singleModuleMemoryPlots.py:18-40 | entries are never replaced during the scan |
| SingleModulePlots.ProgramNameIsAFile | scripts/singleModuleMemoryPlots.py:17-18 | the program's name is stored as an input file |
| SingleModulePlots.ScanArguments | scripts/singleModuleMemoryPlots.py:14-42 | the argument loop computes `Arguments`, including its option errors |
| SingleModulePlots.AccumulatedHolds | scripts/singleModuleMemoryPlots.py:45-56 | a record per title exactly when its file loads with the collection, renamed to the title |
| SingleModulePlots.Accumulate | scripts/singleModuleMemoryPlots.py:45-56 | the loading loop computes `Accumulated` |
| MemoryPlots.Truncate | scripts/memoryPlots.py:18-19 | `int(float)` truncates toward zero |
| MemoryPlots.ReadSample | scripts/memoryPlots.py:16-28 | skipped exactly unless three or four fields; three fields carry no load |
| MemoryPlots.ParseFile | scripts/memoryPlots.py:6-41 | the readline loop computes `ParseLines` |
| MemoryPlots.FailureStays | scripts/memoryPlots.py:7-41 | after an exception later lines do not matter |
| MemoryPlots.ParsedGroups | scripts/memoryPlots.py:30-36 | groups are maximal runs of one event; together they hold every sample's rss, size and load in order |
| MemoryPlots.FirstSampleWithoutEvent | scripts/memoryPlots.py:11-34 | a first sample with event −999 raises `IndexError` |
| MemoryPlots.AssignTitles | scripts/memoryPlots.py:158-171 | the argument loop computes `Titles`; no arguments selects the built-in list |
| MemoryPlots.UntitledFilesAreNumbered | scripts/memoryPlots.py:162-171 | without `-t` the files are stored under "1", "2", … in order |
| MemoryPlots.RepeatedTitleReplaces | scripts/memoryPlots.py:164-171 | `-t 2 a b` keeps only `b` under "2" |
| Text.NatToString | src/MemoryCounter.cc:149 | decimal digits without leading zero |
| Text.DigitsValueOfNatToString | src/MemoryCounter.cc:149 | the printed digits denote the number |
| Text.NatToStringInjective | src/MemoryCounter.cc:149 | different numbers print differently |
| Text.WithSuffixInjective | scripts/singleModuleMemoryPlots.py:35-36 | different suffix numbers give different titles |
| Text.ParseIntOfIntToString | scripts/JobInfo.py:6-7 | a printed integer parses back to itself |
| Text.Split | scripts/JobInfo.py:80 | the pieces between separators, none holding the separator |
| Text.SplitJoin | scripts/JobInfo.py:80 | splitting joined separator-free pieces gives them back |
| Text.JoinSplit | scripts/JobInfo.py:80 | joining the pieces restores the text |
| Text.Fields | scripts/JobInfo.py:87 | every piece non-empty and free of whitespace |
| Text.FieldsAreMaximalRuns | scripts/JobInfo.py:87 | each piece occurs in the text as a whole word, bounded by whitespace or an end, and consecutive pieces are separated by whitespace, in order |
| Text.FieldsCover | scripts/JobInfo.py:87 | the pieces concatenated are the text with every whitespace character removed |
| Text.ReplaceChar | scripts/JobInfoPlot.py:23 | every occurrence replaced, nothing else changed |

## Left out

**Framework and system I/O**
- Framework wiring is not modelled: the `dlsym` lookup, hook registration and `std::bind`. Each hook is a method, and whether the factory symbol was found is a constructor parameter.
- The newer stream-based signal era of the engine, the RSS sampler and the module timer is not modelled. The dump trigger's hooks exist only in that era; they are modelled as described above.
- Concurrent hook calls are not modelled. The services are modelled single-threaded.
- I/O is replaced by parameters and effect logs:
  - `/proc/<pid>/statm` contents are an `Option<string>`;
  - `getpid` and `sysconf` are constructor parameters;
  - clock reads are integer triples;
  - the file system is a map from path to contents;
  - standard output and error, and `LogError`, are sequences of lines.

**The counter library and the services**
- `dumpContents` and `reset` of the memory counter are not modelled. No hook calls them.
- The counting library itself is left out: it is not part of the repository.
- MemCounter.Released: which blocks the library counted is not tracked by address. Each release says whether its block was counted.
- The plugin in `plugins/MemoryCounter.cc` does not compile: its string literal at line 88 is unterminated. The model gives it the message the other variant prints.
- CheckRss.CheckRssService.DumpRss: the system load (`getSystemLoad`, `std::stof`) is taken as its printed text. The failure of `/proc/loadavg` is not modelled.
- CheckRss.GetMemoryUse: the `int` overflow of the page count times the page size is not modelled. The product is an unbounded integer, and the kernel writes page counts small enough to fit.
- IgprofDump.IgprofDumpService.CheckWhetherToDump: event numbers are naturals. The conversion between the `size_t` counter and the `int` list entries is not modelled.
- IgprofDump.IgprofDumpService.TouchFileAndMoveDump: the 500 ms sleep is only recorded as an effect.

**Numbers in the Python scripts**
- JobInfo.NewMemoryLog: the numeric columns are read as integer literals. Python's `float()` also accepts decimals, exponents, `inf` and `nan`, but the services print only integers.
- The MiB and second scaling of sizes and times (`float(x)/1024/1024`, `/1e12`) is left out. The model keeps the printed integers.
- `str(float)` cell texts are left out, for the same reason.
- FormatOutput.TimeCells: the unknown-`timeType` exception of `dumpTime` is not modelled, because the kind is an enumeration of the three names the script passes.
- The use of the globals `moduleOrder` and `info` inside `dumpTime` is not modelled separately. The script passes exactly those globals, so the result is the same.
- The RSS values of `JobInfo.addRSS` are kept as the column's text value without the `/1024.0` scaling.
- MemoryPlots.ReadSample: `float()` is an input function `parseFloat`. `int()` of an infinite or NaN value is not modelled.
- PossibleMemoryLeaks.OrderModulesByRetainedSlope: the least-squares slope (`stats.linregress`) is an input function from a record to a real.

**Plotting, loading and script entry points**
- ROOT histograms, canvases, legends, colours, `setDefaultPlotPlacement` and `drawTrendLine` are left out. A plot is modelled as its name, title, bin contents and bin labels.
- `createXYCoords`, `createXYTGraph`, `createTGraph` and `createMultiPlot` of `scripts/memoryPlots.py` are left out. They are floating-point and graphics work.
- `JobInfo.load`/`save` (pickle and gzip) are left out. A loaded job is an input: the job record, or a function from file name to record.
- JobInfoPlot.UniqueName: the random name used when no title is given is an input text.
- MemoryPlots.AssignTitles: the hard-coded file lists used when no argument is given are not part of this model (`None`).
- ModuleMemoryPlots.Run: the message printed when reading the file raises (`scripts/moduleMemoryPlots.py:107-108`) is not modelled. The reading stops as `ParseFile` states, and the printed text is console output only.
- SingleModulePlots.Accumulated: the "Unable to load" message printed when a file cannot be loaded (`scripts/singleModuleMemoryPlots.py:56`) is not modelled. Loading is an input function, and the message is console output only.
- ModuleMemoryPlots.Run: the exception from `open` is not modelled. The file's lines are an input, and an exception while reading ends the reading as `ParseFile` states.
- ModuleMemoryPlots.Run: states the argument check, the ranking failure and the 25-plot bound. What each plot holds is stated by `JobInfoPlot.CreatePlotForMaximumModules`, which it calls.
- ClassMemoryPlots.Run: likewise states only the argument check, the ranking failure and the 25-plot bound.
- The top level of `scripts/possibleMemoryLeaks.py` is not modelled: the argument check, the reading and the final plot call. Line 15 names an undefined `filename`, and line 97 passes a `binLabelEvery` keyword that `createPlot` does not take. Its aggregation loop is the one `ClassMemoryPlots` models, and its ranking and `[:25]` are modelled.
- The three plot calls at the end of `scripts/singleModuleMemoryPlots.py` (lines 61-63) are left out. They are `createPlotForMaximumModules` calls with the modelled selection, and the loaded records are inputs.

**Dict order and text**
- Python 2 dict iteration order is an input sequence listing each key once. The model proves what holds for every such order.
- The per-class records keep the allocation fields as the text "0". The script never adds to them.
- Trailing newlines are left out: lines are modelled without them, on the printing and on the reading side.
- Whitespace for `split()` is the ASCII set. Python's full Unicode whitespace set is not modelled.

=== FILE: check_rss.dfy ===
/** The resident-memory sampler (plugins/CheckRSSService.cc): around every
    module phase it reads `/proc/<pid>/statm`, scales the first two columns
    from pages to KiB and prints one `*RSSDUMP*` line. The file contents are
    an input (`None` when the file cannot be opened), as are the page size
    and the text of the system load. */
module CheckRss {
  import opened Wrappers
  import opened Text
  import opened Framework

  datatype MemoryUse = MemoryUse(rss: int, size: int)

  /** How reading the memory use can fail: the two runtime errors the
      service raises itself, and the two `std::stoi` raises. */
  datatype RssFailure = RuntimeError(message: string) | InvalidArgument | OutOfRange

  datatype Sample = Sampled(use: MemoryUse) | Failed(failure: RssFailure)

  const IntMin: int := -0x8000_0000
  const IntMax: int := 0x7fff_ffff

  /** Page size in bytes to whole KiB, rounding down. */
  function PageSizeInKiB(pageSizeBytes: nat): (kib: nat)
    ensures kib * 1024 <= pageSizeBytes < (kib + 1) * 1024
  {
    pageSizeBytes / 1024
  }

  /** The longest prefix made of decimal digits. */
  function LeadingDigits(s: string): (d: string)
    ensures |d| <= |s| && d == s[..|d|] && AllDigits(d)
    ensures |d| < |s| ==> !IsDigit(s[|d|])
    decreases |s|
  {
    if |s| == 0 || !IsDigit(s[0]) then "" else [s[0]] + LeadingDigits(s[1..])
  }

  /** Position of the first character that is not whitespace. */
  function SkipSpace(s: string): (k: nat)
    ensures k <= |s| && (k < |s| ==> !IsSpace(s[k]))
    ensures forall i :: 0 <= i < k ==> IsSpace(s[i])
    decreases |s|
  {
    if |s| == 0 || !IsSpace(s[0]) then 0 else 1 + SkipSpace(s[1..])
  }

  /** `std::stoi`: leading whitespace, an optional sign and at least one
      digit; whatever follows the digits is ignored. No digit raises
      `invalid_argument`, a value outside `int` raises `out_of_range`. */
  function StoI(s: string): (r: Result)
  {
    var t := s[SkipSpace(s)..];
    var negative := |t| > 0 && t[0] == '-';
    var u := if |t| > 0 && (t[0] == '-' || t[0] == '+') then t[1..] else t;
    var digits := LeadingDigits(u);
    if |digits| == 0 then Error(InvalidArgument)
    else
      var value := if negative then 0 - DigitsValue(digits) else DigitsValue(digits);
      if value < IntMin || value > IntMax then Error(OutOfRange) else Value(value)
  }

  datatype Result = Value(value: int) | Error(failure: RssFailure)

  lemma LeadingDigitsOfDigits(d: string, rest: string)
    requires AllDigits(d)
    requires |rest| == 0 || !IsDigit(rest[0])
    ensures LeadingDigits(d + rest) == d
    decreases |d|
  {
    if |d| > 0 {
      assert (d + rest)[0] == d[0];
      assert (d + rest)[1..] == d[1..] + rest;
      assert AllDigits(d[1..]) by {
        assert forall j :: 0 <= j < |d| - 1 ==> d[1..][j] == d[j + 1];
      }
      LeadingDigitsOfDigits(d[1..], rest);
      assert [d[0]] + d[1..] == d;
    } else {
      assert d + rest == rest;
    }
  }

  /** A number printed in `int` range reads back as itself, whatever
      non-digit text follows it (a space, a newline, the next column). */
  lemma StoIOfIntToString(i: int, rest: string)
    requires IntMin <= i <= IntMax
    requires |rest| == 0 || !IsDigit(rest[0])
    ensures StoI(IntToString(i) + rest) == Value(i)
  {
    var s := IntToString(i) + rest;
    var n: nat := if i < 0 then -i else i;
    var digits := NatToString(n);
    assert SkipSpace(s) == 0 by { assert s[0] == IntToString(i)[0]; }
    var t := s[SkipSpace(s)..];
    assert t == s;
    var negative := |t| > 0 && t[0] == '-';
    assert negative == (i < 0);
    var u := if |t| > 0 && (t[0] == '-' || t[0] == '+') then t[1..] else t;
    assert u == digits + rest by {
      if i < 0 {
        assert s == "-" + (digits + rest);
      } else {
        assert IsDigit(digits[0]);
      }
    }
    LeadingDigitsOfDigits(digits, rest);
    DigitsValueOfNatToString(n);
    assert (if negative then 0 - DigitsValue(digits) else DigitsValue(digits)) == i;
  }

  function OpenErrorMessage(pid: string): string {
    "Unable to open /proc/" + pid + "/statm"
  }

  function SplitErrorMessage(pid: string): string {
    "Unable to split the columns in /proc/" + pid + "/statm properly"
  }

  /** `getMemoryUse`: `statm` is the file's contents, `None` when it cannot
      be opened. The size is the first column, the resident size the second,
      both in pages scaled to KiB. */
  function GetMemoryUse(statm: Option<string>, pid: string, pageSizeInKiB: int): (r: Sample)
    ensures statm.None? ==> r == Failed(RuntimeError(OpenErrorMessage(pid)))
    ensures statm.Some? && ' ' !in statm.value ==> r == Failed(RuntimeError(SplitErrorMessage(pid)))
    ensures statm.Some? && ' ' in statm.value ==>
              var columns := Split(statm.value, ' ');
              |columns| >= 2
              && (r.Sampled? <==> StoI(columns[1]).Value? && StoI(columns[0]).Value?)
              && (r.Sampled? ==> r.use == MemoryUse(StoI(columns[1]).value * pageSizeInKiB,
                                                    StoI(columns[0]).value * pageSizeInKiB))
  {
    match statm
    case None => Failed(RuntimeError(OpenErrorMessage(pid)))
    case Some(contents) =>
      var columns := Split(contents, ' ');
      SplitCountsSeparators(contents, ' ');
      if |columns| < 2 then Failed(RuntimeError(SplitErrorMessage(pid)))
      else
        match StoI(columns[1])
        case Error(f) => Failed(f)
        case Value(rssPages) =>
          match StoI(columns[0])
          case Error(f) => Failed(f)
          case Value(sizePages) => Sampled(MemoryUse(rssPages * pageSizeInKiB, sizePages * pageSizeInKiB))
  }

  /** Splitting yields more than one column exactly when the separator
      occurs. */
  lemma {:induction false} SplitCountsSeparators(s: string, sep: char)
    ensures |Split(s, sep)| >= 2 <==> sep in s
    decreases |s|
  {
    if |s| > 0 {
      SplitCountsSeparators(s[1..], sep);
      assert sep in s <==> s[0] == sep || sep in s[1..];
    }
  }

  /** A statm line as the kernel writes it (the page counts separated by
      single spaces, ending in a newline) is read back as those counts. */
  lemma GetMemoryUseOfStatm(sizePages: nat, rssPages: nat, rest: string, pid: string, pageSizeInKiB: int)
    requires sizePages <= IntMax && rssPages <= IntMax
    requires |rest| == 0 || !IsDigit(rest[0])
    ensures GetMemoryUse(Some(NatToString(sizePages) + " " + NatToString(rssPages) + rest), pid, pageSizeInKiB)
              == Sampled(MemoryUse(rssPages * pageSizeInKiB, sizePages * pageSizeInKiB))
  {
    var size := NatToString(sizePages);
    var rssText := NatToString(rssPages) + rest;
    assert size + " " + NatToString(rssPages) + rest == size + [' '] + rssText;
    assert ' ' !in size by {
      assert forall j :: 0 <= j < |size| ==> IsDigit(size[j]);
    }
    SplitAfterPiece(size, rssText, ' ');
    assert size == size + "";
    StoIOfIntToString(sizePages, "");
    FirstColumnReads(rssPages, rest);
  }

  /** The text up to the first space of a number followed by non-digits
      reads back as the number. */
  lemma FirstColumnReads(n: nat, rest: string)
    requires n <= IntMax
    requires |rest| == 0 || !IsDigit(rest[0])
    ensures StoI(Split(NatToString(n) + rest, ' ')[0]) == Value(n)
  {
    var digits := NatToString(n);
    assert ' ' !in digits by {
      assert forall j :: 0 <= j < |digits| ==> IsDigit(digits[j]);
    }
    SplitFirstPieceAfter(digits, rest, ' ');
    var tail := Split(rest, ' ')[0];
    SplitFirstPiece(rest, ' ');
    assert |tail| > 0 ==> tail[0] == rest[0];
    StoIOfIntToString(n, tail);
  }

  /** The first piece of a split is the text up to the first separator. */
  lemma {:induction false} SplitFirstPiece(s: string, sep: char)
    ensures var p := Split(s, sep)[0];
            |p| <= |s| && p == s[..|p|] && (|p| < |s| ==> s[|p|] == sep)
    decreases |s|
  {
    if |s| > 0 && s[0] != sep {
      SplitFirstPiece(s[1..], sep);
    }
  }

  /** The phase name printed in a label, with the counter it carries if any. */
  function PhaseText(phase: Phase, eventNumber: nat, lumiNumber: nat, runNumber: nat): string {
    match phase
    case Construction => "Construction"
    case BeginJob => "BeginJob"
    case EndJob => "EndJob"
    case BeginRun => "BeginRun" + NatToString(runNumber)
    case BeginLumi => "BeginLumi" + NatToString(lumiNumber)
    case Event => "Event" + NatToString(eventNumber)
    case EndLumi => "EndLumi" + NatToString(lumiNumber)
    case EndRun => "EndRun" + NatToString(runNumber)
  }

  function RssLabel(isStart: bool, phase: Phase, eventNumber: nat, lumiNumber: nat, runNumber: nat): string {
    (if isStart then "Start_" else "End_") + PhaseText(phase, eventNumber, lumiNumber, runNumber)
  }

  function LinePrefix(methodName: string, d: ModuleDescription): string {
    " *RSSDUMP* " + methodName + " " + d.moduleLabel + " " + d.moduleName
  }

  /** The printed line; `load` is the text of the system load. */
  function DumpLine(prefix: string, use: MemoryUse, load: string): string {
    prefix + " RSS/KiB " + IntToString(use.rss) + " Size/KiB " + IntToString(use.size) + " Load " + load
  }

  /** Start and end samples of a phase are told apart by their first
      letter, so they are never confused. */
  lemma StartAndEndLabelsDiffer(phase: Phase, e1: nat, l1: nat, r1: nat, q: Phase, e2: nat, l2: nat, r2: nat)
    ensures RssLabel(true, phase, e1, l1, r1) != RssLabel(false, q, e2, l2, r2)
  {
    assert RssLabel(true, phase, e1, l1, r1)[0] == 'S';
    assert RssLabel(false, q, e2, l2, r2)[0] == 'E';
  }

  /** The service: counters of events, runs and luminosity blocks since the
      start, and the lines written to standard output. */
  class CheckRssService {
    var eventNumber: nat
    var runNumber: nat
    var lumiNumber: nat
    var pid: string
    var pageSizeInKiB: int
    var out: seq<string>

    /** `processId` and `pageSizeBytes` are what the system reports. */
    constructor (processId: nat, pageSizeBytes: nat)
      ensures eventNumber == 0 && runNumber == 0 && lumiNumber == 0
      ensures pid == NatToString(processId) && pageSizeInKiB == PageSizeInKiB(pageSizeBytes)
      ensures out == []
    {
      eventNumber, runNumber, lumiNumber := 0, 0, 0;
      pid := NatToString(processId);
      pageSizeInKiB := PageSizeInKiB(pageSizeBytes);
      out := [];
    }

    /** The pre (`isStart`) or post hook of `phase`. A failure to read the
        memory use is raised out of the hook and nothing is printed. */
    method DumpRss(isStart: bool, phase: Phase, d: ModuleDescription, statm: Option<string>, load: string)
      returns (raised: Option<RssFailure>)
      modifies this`out
      ensures var sample := GetMemoryUse(statm, pid, pageSizeInKiB);
              var prefix := LinePrefix(RssLabel(isStart, phase, eventNumber, lumiNumber, runNumber), d);
              && (sample.Failed? ==> raised == Some(sample.failure) && out == old(out))
              && (sample.Sampled? ==> raised == None && out == old(out) + [DumpLine(prefix, sample.use, load)])
    {
      var prefix := LinePrefix(RssLabel(isStart, phase, eventNumber, lumiNumber, runNumber), d);
      var sample := GetMemoryUse(statm, pid, pageSizeInKiB);
      match sample
      case Failed(f) =>
        raised := Some(f);
      case Sampled(use) =>
        out := out + [DumpLine(prefix, use, load)];
        raised := None;
    }

    method PostProcessEvent()
      modifies this`eventNumber
      ensures eventNumber == old(eventNumber) + 1
    {
      eventNumber := eventNumber + 1;
    }

    method PostEndLumi()
      modifies this`lumiNumber
      ensures lumiNumber == old(lumiNumber) + 1
    {
      lumiNumber := lumiNumber + 1;
    }

    method PostEndRun()
      modifies this`runNumber
      ensures runNumber == old(runNumber) + 1
    {
      runNumber := runNumber + 1;
    }
  }
}

=== FILE: class_memory_plots.dfy ===
/** Per-class accumulation (scripts/classMemoryPlots.py, repeated verbatim
    in scripts/possibleMemoryLeaks.py): every module's memory steps are
    added into one record per module type, summing the retained memory and
    the product sizes and keeping the largest peak. The class records are
    then plotted like modules. */
module ClassMemoryPlots {
  import opened Wrappers
  import opened Text
  import opened JobInfo
  import opened JobInfoPlot

  /** `MemoryLog(0,0,0,0)`: the record a step of a class starts from. The
      allocation counts are never added to and keep their zero. */
  const Zero: MemoryLog := MemoryLog(0, 0, "0", "0", 0)

  /** One module's step added into the class's step. */
  function Combine(acc: MemoryLog, log: MemoryLog): (r: MemoryLog)
    ensures r.heldMemory == acc.heldMemory + log.heldMemory
    ensures r.productSize == acc.productSize + log.productSize
    ensures r.peakMemory >= acc.peakMemory && r.peakMemory >= log.peakMemory
    ensures r.peakMemory == acc.peakMemory || r.peakMemory == log.peakMemory
    ensures r.heldAllocation == acc.heldAllocation && r.peakAllocation == acc.peakAllocation
  {
    acc.(heldMemory := acc.heldMemory + log.heldMemory,
         productSize := acc.productSize + log.productSize,
         peakMemory := if acc.peakMemory >= log.peakMemory then acc.peakMemory else log.peakMemory)
  }

  /** The class's steps after adding those of a module's steps named in
      `keys`. */
  function AddSome(acc: map<string, MemoryLog>, steps: map<string, MemoryLog>, keys: set<string>): map<string, MemoryLog>
    requires keys <= steps.Keys
  {
    map s | s in acc.Keys + keys :: if s in keys then Combine(if s in acc then acc[s] else Zero, steps[s]) else acc[s]
  }

  /** The class records after adding one module. The record is created
      even when the module has no memory step. */
  function AddModule(classes: map<string, Series>, m: ModuleInfo): map<string, Series> {
    var before := if m.moduleType in classes then classes[m.moduleType] else Series(m.moduleType, map[]);
    classes[m.moduleType := before.(steps := AddSome(before.steps, m.steps, m.steps.Keys))]
  }

  /** The class records after the modules in `order`, in that order. */
  function Aggregate(modules: map<string, ModuleInfo>, order: seq<string>): map<string, Series>
    requires forall k :: 0 <= k < |order| ==> order[k] in modules
    decreases |order|
  {
    if |order| == 0 then map[]
    else AddModule(Aggregate(modules, order[..|order| - 1]), modules[order[|order| - 1]])
  }

  // ---------------------------------------------------------------------
  // The accumulating loops.
  // ---------------------------------------------------------------------

  /** The inner loop: every step of one module added into its class. */
  method AddSteps(acc: map<string, MemoryLog>, steps: map<string, MemoryLog>) returns (r: map<string, MemoryLog>)
    ensures r == AddSome(acc, steps, steps.Keys)
  {
    r := acc;
    var remaining := steps.Keys;
    while remaining != {}
      invariant remaining <= steps.Keys
      invariant r == AddSome(acc, steps, steps.Keys - remaining)
      decreases remaining
    {
      var step :| step in remaining;
      var stepResult := if step in r then r[step] else Zero;
      ghost var visited := steps.Keys - remaining;
      AddOneMore(acc, steps, visited, step);
      r := r[step := Combine(stepResult, steps[step])];
      remaining := remaining - {step};
      assert steps.Keys - remaining == visited + {step};
    }
  }

  /** Adding one more step of the module to those already added. */
  lemma AddOneMore(acc: map<string, MemoryLog>, steps: map<string, MemoryLog>, visited: set<string>, step: string)
    requires visited <= steps.Keys && step in steps && step !in visited
    ensures var before := AddSome(acc, steps, visited);
            AddSome(acc, steps, visited + {step})
              == before[step := Combine(if step in before then before[step] else Zero, steps[step])]
  {
  }

  /** The outer loop over the job's modules, in the dict's order. */
  method AggregateByClass(modules: map<string, ModuleInfo>, order: seq<string>) returns (classes: map<string, Series>)
    requires forall k :: 0 <= k < |order| ==> order[k] in modules
    ensures classes == Aggregate(modules, order)
  {
    classes := map[];
    var i := 0;
    while i < |order|
      invariant 0 <= i <= |order|
      invariant classes == Aggregate(modules, order[..i])
    {
      assert order[..i + 1][..i] == order[..i];
      var m := modules[order[i]];
      var classResult := if m.moduleType in classes then classes[m.moduleType] else Series(m.moduleType, map[]);
      var steps := AddSteps(classResult.steps, m.steps);
      classes := classes[m.moduleType := classResult.(steps := steps)];
      i := i + 1;
    }
    assert order[..i] == order;
  }

  // ---------------------------------------------------------------------
  // What the records hold.
  // ---------------------------------------------------------------------

  /** Some module in `order` is of type `t`. */
  predicate HasType(modules: map<string, ModuleInfo>, order: seq<string>, t: string)
    requires forall k :: 0 <= k < |order| ==> order[k] in modules
  {
    exists k :: 0 <= k < |order| && modules[order[k]].moduleType == t
  }

  /** The logs of step `s` of the modules of type `t`, in order. */
  function Contributions(modules: map<string, ModuleInfo>, order: seq<string>, t: string, s: string): seq<MemoryLog>
    requires forall k :: 0 <= k < |order| ==> order[k] in modules
    decreases |order|
  {
    if |order| == 0 then []
    else
      var m := modules[order[|order| - 1]];
      Contributions(modules, order[..|order| - 1], t, s) + (if m.moduleType == t && s in m.steps then [m.steps[s]] else [])
  }

  function SumHeld(logs: seq<MemoryLog>): int
    decreases |logs|
  {
    if |logs| == 0 then 0 else SumHeld(logs[..|logs| - 1]) + logs[|logs| - 1].heldMemory
  }

  function SumProduct(logs: seq<MemoryLog>): int
    decreases |logs|
  {
    if |logs| == 0 then 0 else SumProduct(logs[..|logs| - 1]) + logs[|logs| - 1].productSize
  }

  /** What a class step holds for the logs of the modules contributing to
      it. */
  function Summary(logs: seq<MemoryLog>): MemoryLog {
    MemoryLog(SumHeld(logs), PeakFromZero(logs), "0", "0", SumProduct(logs))
  }

  /** The largest peak, or zero when that is larger. */
  function PeakFromZero(logs: seq<MemoryLog>): (p: int)
    ensures p >= 0 && forall k :: 0 <= k < |logs| ==> logs[k].peakMemory <= p
    ensures p == 0 || exists k :: 0 <= k < |logs| && logs[k].peakMemory == p
    decreases |logs|
  {
    if |logs| == 0 then 0
    else
      var before := PeakFromZero(logs[..|logs| - 1]);
      var last := logs[|logs| - 1].peakMemory;
      if before >= last then before else last
  }

  /** There is one record per module type, named after the type. */
  lemma {:induction false} AggregateHasOneRecordPerType(modules: map<string, ModuleInfo>, order: seq<string>)
    requires forall k :: 0 <= k < |order| ==> order[k] in modules
    ensures forall t :: t in Aggregate(modules, order) <==> HasType(modules, order, t)
    ensures forall t :: t in Aggregate(modules, order) ==> Aggregate(modules, order)[t].name == t
    decreases |order|
  {
    if |order| > 0 {
      var prefix := order[..|order| - 1];
      AggregateHasOneRecordPerType(modules, prefix);
      forall t
        ensures HasType(modules, order, t) <==> HasType(modules, prefix, t) || modules[order[|order| - 1]].moduleType == t
      {
        if HasType(modules, prefix, t) {
          var k :| 0 <= k < |prefix| && modules[prefix[k]].moduleType == t;
          assert order[k] == prefix[k];
        }
        if HasType(modules, order, t) {
          var k :| 0 <= k < |order| && modules[order[k]].moduleType == t;
          if k < |prefix| {
            assert prefix[k] == order[k];
          }
        }
      }
    }
  }

  /** Each step of a class holds the sums of the retained memory and of the
      product sizes over the modules of that type having the step, the
      largest of their peaks (or zero), and zero allocation counts; a class
      has exactly the steps some module of its type has. */
  lemma {:induction false} AggregateSums(modules: map<string, ModuleInfo>, order: seq<string>, t: string, s: string)
    requires forall k :: 0 <= k < |order| ==> order[k] in modules
    requires t in Aggregate(modules, order)
    ensures var logs := Contributions(modules, order, t, s);
            && (s in Aggregate(modules, order)[t].steps <==> |logs| > 0)
            && (s in Aggregate(modules, order)[t].steps ==>
                  Aggregate(modules, order)[t].steps[s] == Summary(logs))
    decreases |order|
  {
    var prefix := order[..|order| - 1];
    var m := modules[order[|order| - 1]];
    var before := Aggregate(modules, prefix);
    var logs := Contributions(modules, order, t, s);
    var earlier := Contributions(modules, prefix, t, s);
    var stepsBefore := if t in before then before[t].steps else map[];
    if t in before {
      AggregateSums(modules, prefix, t, s);
    } else {
      EmptyContributions(modules, prefix, t, s);
    }
    assert s in stepsBefore <==> |earlier| > 0;
    assert s in stepsBefore ==>
             stepsBefore[s] == Summary(earlier);
    AddModuleAt(before, m, t, s);
    if m.moduleType == t && s in m.steps {
      assert logs == earlier + [m.steps[s]];
      LogSummariesAppend(earlier, m.steps[s]);
    } else {
      assert logs == earlier;
    }
  }

  /** Step `s` of class `t` after adding module `m`. */
  lemma AddModuleAt(classes: map<string, Series>, m: ModuleInfo, t: string, s: string)
    requires m.moduleType == t || t in classes
    ensures var stepsBefore := if t in classes then classes[t].steps else map[];
            var after := AddModule(classes, m)[t].steps;
            && (m.moduleType != t ==> after == stepsBefore)
            && (m.moduleType == t ==> (s in after <==> s in stepsBefore || s in m.steps))
            && (m.moduleType == t && s in m.steps ==>
                  after[s] == Combine(if s in stepsBefore then stepsBefore[s] else Zero, m.steps[s]))
            && (m.moduleType == t && s !in m.steps && s in stepsBefore ==> after[s] == stepsBefore[s])
  {
  }

  lemma LogSummariesAppend(logs: seq<MemoryLog>, x: MemoryLog)
    ensures Combine(if |logs| == 0 then Zero else Summary(logs), x) == Summary(logs + [x])
  {
    SummariesAppend(logs, x);
    if |logs| == 0 {
      assert Summary(logs) == Zero;
    }
  }

  lemma SummariesAppend(logs: seq<MemoryLog>, x: MemoryLog)
    ensures SumHeld(logs + [x]) == SumHeld(logs) + x.heldMemory
    ensures SumProduct(logs + [x]) == SumProduct(logs) + x.productSize
    ensures PeakFromZero(logs + [x]) == if PeakFromZero(logs) >= x.peakMemory then PeakFromZero(logs) else x.peakMemory
  {
    var both := logs + [x];
    assert both[..|both| - 1] == logs;
  }

  /** A type no module in `order` has contributes nothing. */
  lemma {:induction false} EmptyContributions(modules: map<string, ModuleInfo>, order: seq<string>, t: string, s: string)
    requires forall k :: 0 <= k < |order| ==> order[k] in modules
    requires t !in Aggregate(modules, order)
    ensures Contributions(modules, order, t, s) == []
    decreases |order|
  {
    if |order| > 0 {
      EmptyContributions(modules, order[..|order| - 1], t, s);
    }
  }

  // ---------------------------------------------------------------------
  // The script.
  // ---------------------------------------------------------------------

  /** The four class plots the script draws. */
  datatype ClassPlots = ClassPlots(peak: seq<Histogram>, productSize: seq<Histogram>,
                                   retained: seq<Histogram>, retainedExcludingProduct: seq<Histogram>)

  datatype Outcome = Usage | NoMemoryStep | Plotted(plots: ClassPlots)

  const NumberOfModulesToPlot := 25

  /** The script: exactly one argument (the pickled job, given here as its
      record); the class records are ranked and plotted four ways, at most
      25 per plot. A class whose modules have no memory step makes the
      ranking raise. `classOrder` is the iteration order of the class
      dict. */
  method Run(argc: int, results: JobState, order: seq<string>, classOrder: seq<string>) returns (r: Outcome)
    requires forall k :: 0 <= k < |order| ==> order[k] in results.modules
    requires IsEnumeration(classOrder, Aggregate(results.modules, order))
    ensures argc != 2 <==> r == Usage
    ensures r.NoMemoryStep? <==>
              argc == 2 && exists k :: 0 <= k < |classOrder| &&
                             |Aggregate(results.modules, order)[classOrder[k]].steps| == 0
    ensures r.Plotted? ==>
              && |r.plots.peak| <= NumberOfModulesToPlot && |r.plots.productSize| <= NumberOfModulesToPlot
              && |r.plots.retained| <= NumberOfModulesToPlot
              && |r.plots.retainedExcludingProduct| <= NumberOfModulesToPlot
  {
    if argc != 2 {
      return Usage;
    }
    var classes := AggregateByClass(results.modules, order);
    var n := Some(NumberOfModulesToPlot);
    var peak := CreatePlotForMaximumModules(classes, classOrder, results.steps, Peak, "Peak memory", n, None, "");
    if peak.None? {
      return NoMemoryStep;
    }
    var product := CreatePlotForMaximumModules(classes, classOrder, results.steps, ProductSize, "Product size", n, None, "");
    var retained := CreatePlotForMaximumModules(classes, classOrder, results.steps, Held, "Retained memory", n, None, "");
    var excluding := CreatePlotForMaximumModules(classes, classOrder, results.steps, RetainedExcludingProduct,
                                                 "Retained memory excluding product", n, None, "");
    r := Plotted(ClassPlots(peak.value, product.value, retained.value, excluding.value));
  }
}

=== FILE: format_output.dfy ===
/** The spreadsheet formatter (formatOutput.py): it reads the timer and
    memory-counter lines of a job's output into per-module records, as the
    log reader does but without product sizes and stopping at the first
    such line that has no comma, and prints comma-separated tables: peak and
    retained memory per module and step, then real, user and system time.
    The job output's lines and the number of command-line words are inputs;
    the printed lines are the result. Values are printed as the integers
    read, unscaled. */
module FormatOutput {
  import opened Wrappers
  import opened Text
  import opened JobInfo

  /** Why the script ends with an exception: wrong arguments, or one of the
      reader's exceptions. */
  datatype Failure = Usage | Raised(error: PyError)

  /** The script's result: the printed lines, or the exception (nothing is
      printed before the whole input is read). */
  datatype Outcome = Printed(lines: seq<string>) | Failed(failure: Failure)

  /** The script's own `ModuleInfo.addStep`: as the reader's, but any
      columns after the seventh are ignored. */
  function StoreMemoryStep(m: ModuleInfo, columns: seq<string>): (r: Step<ModuleInfo>)
    ensures r.raised.None? <==>
              CheckColumns(m, columns, 7).None? && NewMemoryLog(columns[3], columns[4], columns[5], columns[6]).Ok?
    ensures r.raised.None? ==>
              r.after == m.(steps := m.steps[columns[0] := NewMemoryLog(columns[3], columns[4], columns[5], columns[6]).value])
    ensures r.raised.Some? ==> r.after == m
  {
    match CheckColumns(m, columns, 7)
    case Some(e) => Step(m, Some(e))
    case None =>
      match NewMemoryLog(columns[3], columns[4], columns[5], columns[6])
      case Raise(e) => Step(m, Some(e))
      case Ok(log) => Step(m.(steps := m.steps[columns[0] := log]), None)
  }

  /** Where the reading loop stands: still reading, left by the `break` on
      a line without a comma, or ended by an exception. */
  datatype Stop = Reading | Finished | Crashed(error: PyError)

  datatype Scan = Scan(state: JobState, stop: Stop)

  /** One timer or memory line's columns, the presence flag already set. */
  function ScanColumns(s: JobState, columns: seq<string>, inputIsTime: bool): (r: Scan)
    requires |columns| >= 1
    ensures |columns| == 1 <==> r.stop == Finished
    ensures |columns| == 1 ==> r.state == s
  {
    if |columns| == 1 then Scan(s, Finished)
    else
      var listed := Listed(s, columns[0], columns[1]);
      match CurrentModule(listed, columns)
      case Raise(e) => Scan(listed, Crashed(e))
      case Ok(m) =>
        var taken := if inputIsTime then AddTimeStep(m, columns) else StoreMemoryStep(m, columns);
        Scan(listed.(modules := listed.modules[columns[1] := taken.after]),
             if taken.raised.Some? then Crashed(taken.raised.value) else Reading)
  }

  /** One pass of the reading loop. Lines of other services are skipped. */
  function ScanLine(s: JobState, line: string): (r: Scan)
    ensures !Classify(line).TimeLine? && !Classify(line).MemoryLine? ==> r == Scan(s, Reading)
  {
    match Classify(line)
    case TimeLine(columns) => ScanColumns(s.(containsTime := true), columns, true)
    case MemoryLine(columns) => ScanColumns(s.(containsMemory := true), columns, false)
    case OtherLine(_) => Scan(s, Reading)
  }

  /** Every module in the event order has a record. */
  predicate Filed(s: JobState) {
    forall k :: 0 <= k < |s.runOrder| ==> s.runOrder[k] in s.modules
  }

  /** No step name, module label or module type holds a comma, as they all
      come from splitting on commas. */
  predicate CommaFree(s: JobState) {
    && (forall k :: 0 <= k < |s.steps| ==> ',' !in s.steps[k])
    && (forall n :: n in s.modules ==> ',' !in n && ',' !in s.modules[n].moduleType)
  }

  predicate ScanInvariant(r: Scan) {
    JobInvariant(r.state) && CommaFree(r.state) && (r.stop.Crashed? || Filed(r.state))
  }

  /** The loop over the lines, up to the end, a `break` or an exception.
      Unless it crashed, every module of the event order has a record; the
      lists hold no duplicates and nothing printed later holds a comma. */
  function ScanLines(lines: seq<string>): (r: Scan)
    ensures ScanInvariant(r)
    decreases |lines|
  {
    if |lines| == 0 then Scan(EmptyJob, Reading)
    else
      var before := ScanLines(lines[..|lines| - 1]);
      if before.stop != Reading then before
      else
        ScanLineKeeps(before.state, lines[|lines| - 1]);
        ScanLine(before.state, lines[|lines| - 1])
  }

  lemma ScanLineKeeps(s: JobState, line: string)
    requires ScanInvariant(Scan(s, Reading))
    ensures ScanInvariant(ScanLine(s, line))
  {
    match Classify(line)
    case TimeLine(columns) => ScanColumnsKeeps(s.(containsTime := true), columns, true);
    case MemoryLine(columns) => ScanColumnsKeeps(s.(containsMemory := true), columns, false);
    case OtherLine(_) =>
  }

  lemma ScanColumnsKeeps(s: JobState, columns: seq<string>, inputIsTime: bool)
    requires ScanInvariant(Scan(s, Reading)) && |columns| >= 1
    requires forall k :: 0 <= k < |columns| ==> ',' !in columns[k]
    ensures ScanInvariant(ScanColumns(s, columns, inputIsTime))
  {
    if |columns| >= 2 {
      var listed := Listed(s, columns[0], columns[1]);
      ListedKeeps(s, columns[0], columns[1]);
      match CurrentModule(listed, columns)
      case Raise(_) =>
      case Ok(m) =>
        var taken := if inputIsTime then AddTimeStep(m, columns) else StoreMemoryStep(m, columns);
        FiledKeeps(listed, columns[1], taken.after);
    }
  }

  /** The reading loop agrees with the log reader's: a line with at least
      two columns leaves the same records as the reader given the line's
      first eight columns (the reader's product-size columns dropped), and
      crashes exactly when the reader raises. */
  lemma ScanAgreesWithReader(s: JobState, columns: seq<string>, inputIsTime: bool)
    requires |columns| >= 2
    ensures var flagged := if inputIsTime then s.(containsTime := true) else s.(containsMemory := true);
            var r := ScanColumns(flagged, columns, inputIsTime);
            var q := AfterStep(s, Truncated(columns), inputIsTime);
            && r.state == q.after
            && (r.stop.Crashed? <==> q.raised.Some?)
            && (r.stop.Crashed? ==> r.stop.error == q.raised.value)
  {
    var flagged := if inputIsTime then s.(containsTime := true) else s.(containsMemory := true);
    var cut := Truncated(columns);
    var listed := Listed(flagged, columns[0], columns[1]);
    assert CurrentModule(listed, cut) == CurrentModule(listed, columns);
    match CurrentModule(listed, columns)
    case Raise(_) =>
    case Ok(m) =>
      if inputIsTime {
        assert AddTimeStep(m, cut) == AddTimeStep(m, columns);
      } else {
        assert AddMemoryStep(m, cut) == StoreMemoryStep(m, columns);
      }
  }

  /** At most the first eight columns. */
  function Truncated(columns: seq<string>): (r: seq<string>)
    ensures |r| == if |columns| < 8 then |columns| else 8
    ensures forall k :: 0 <= k < |r| ==> r[k] == columns[k]
  {
    if |columns| < 8 then columns else columns[..8]
  }

  /** Once the loop has stopped, later lines are not read. */
  lemma {:induction false} ScanLinesStops(lines: seq<string>, more: seq<string>)
    requires ScanLines(lines).stop != Reading
    ensures ScanLines(lines + more) == ScanLines(lines)
    decreases |more|
  {
    if |more| > 0 {
      ScanLinesStops(lines, more[..|more| - 1]);
      assert (lines + more)[..|lines + more| - 1] == lines + more[..|more| - 1];
    } else {
      assert lines + more == lines;
    }
  }

  /** The loop reads line `i`: every line before it left the loop
      running. The line that stops the loop is read too. */
  predicate ReadsLine(lines: seq<string>, i: int) {
    0 <= i < |lines| && ScanLines(lines[..i]).stop == Reading
  }

  /** Some line the loop read came from the memory counter. */
  predicate MemoryLineRead(lines: seq<string>) {
    exists i :: 0 <= i < |lines| && ReadsLine(lines, i) && Classify(lines[i]).MemoryLine?
  }

  /** Some line the loop read came from the module timer. */
  predicate TimerLineRead(lines: seq<string>) {
    exists i :: 0 <= i < |lines| && ReadsLine(lines, i) && Classify(lines[i]).TimeLine?
  }

  /** Taking a line's columns leaves both presence flags as they are. */
  lemma ScanColumnsFlags(s: JobState, columns: seq<string>, inputIsTime: bool)
    requires |columns| >= 1
    ensures ScanColumns(s, columns, inputIsTime).state.containsTime == s.containsTime
    ensures ScanColumns(s, columns, inputIsTime).state.containsMemory == s.containsMemory
  {
    if |columns| >= 2 {
      var listed := Listed(s, columns[0], columns[1]);
      match CurrentModule(listed, columns)
      case Raise(_) =>
      case Ok(m) =>
    }
  }

  /** One pass sets the flag of the line's kind and clears none. */
  lemma ScanLineFlags(s: JobState, line: string)
    ensures ScanLine(s, line).state.containsTime == (s.containsTime || Classify(line).TimeLine?)
    ensures ScanLine(s, line).state.containsMemory == (s.containsMemory || Classify(line).MemoryLine?)
  {
    match Classify(line)
    case TimeLine(columns) => ScanColumnsFlags(s.(containsTime := true), columns, true);
    case MemoryLine(columns) => ScanColumnsFlags(s.(containsMemory := true), columns, false);
    case OtherLine(_) =>
  }

  /** After the loop, the memory flag is set exactly when a memory-counter
      line was read and the time flag exactly when a timer line was read,
      counting the line without a comma that ended the loop. */
  lemma {:induction false} ScanSetsFlags(lines: seq<string>)
    ensures ScanLines(lines).state.containsMemory <==> MemoryLineRead(lines)
    ensures ScanLines(lines).state.containsTime <==> TimerLineRead(lines)
    decreases |lines|
  {
    if |lines| > 0 {
      var front, last := lines[..|lines| - 1], lines[|lines| - 1];
      ScanSetsFlags(front);
      MemoryReadStep(lines);
      TimerReadStep(lines);
      if ScanLines(front).stop == Reading {
        ScanLineFlags(ScanLines(front).state, last);
      }
    }
  }

  /** The lines the loop reads in `lines`: those it reads without the last
      line, and the last one when the loop was still running. */
  lemma ReadsLineOfPrefix(lines: seq<string>, i: int)
    requires |lines| > 0 && 0 <= i < |lines|
    ensures var front := lines[..|lines| - 1];
            ReadsLine(lines, i) <==> if i < |front| then ReadsLine(front, i) else ScanLines(front).stop == Reading
  {
    var front := lines[..|lines| - 1];
    if i < |front| {
      assert lines[..i] == front[..i];
    } else {
      assert lines[..i] == front;
    }
  }

  lemma MemoryReadStep(lines: seq<string>)
    requires |lines| > 0
    ensures var front := lines[..|lines| - 1];
            MemoryLineRead(lines) <==>
              MemoryLineRead(front) || (ScanLines(front).stop == Reading && Classify(lines[|lines| - 1]).MemoryLine?)
  {
    var front := lines[..|lines| - 1];
    if MemoryLineRead(lines) {
      var i :| 0 <= i < |lines| && ReadsLine(lines, i) && Classify(lines[i]).MemoryLine?;
      ReadsLineOfPrefix(lines, i);
      if i < |front| {
        assert front[i] == lines[i];
      }
    }
    if MemoryLineRead(front) {
      var i :| 0 <= i < |front| && ReadsLine(front, i) && Classify(front[i]).MemoryLine?;
      ReadsLineOfPrefix(lines, i);
      assert front[i] == lines[i];
    }
    if ScanLines(front).stop == Reading && Classify(lines[|lines| - 1]).MemoryLine? {
      ReadsLineOfPrefix(lines, |lines| - 1);
    }
  }

  lemma TimerReadStep(lines: seq<string>)
    requires |lines| > 0
    ensures var front := lines[..|lines| - 1];
            TimerLineRead(lines) <==>
              TimerLineRead(front) || (ScanLines(front).stop == Reading && Classify(lines[|lines| - 1]).TimeLine?)
  {
    var front := lines[..|lines| - 1];
    if TimerLineRead(lines) {
      var i :| 0 <= i < |lines| && ReadsLine(lines, i) && Classify(lines[i]).TimeLine?;
      ReadsLineOfPrefix(lines, i);
      if i < |front| {
        assert front[i] == lines[i];
      }
    }
    if TimerLineRead(front) {
      var i :| 0 <= i < |front| && ReadsLine(front, i) && Classify(front[i]).TimeLine?;
      ReadsLineOfPrefix(lines, i);
      assert front[i] == lines[i];
    }
    if ScanLines(front).stop == Reading && Classify(lines[|lines| - 1]).TimeLine? {
      ReadsLineOfPrefix(lines, |lines| - 1);
    }
  }

  // ---------------------------------------------------------------------
  // The tables.
  // ---------------------------------------------------------------------

  /** The parts, each followed by a comma. */
  function Terminated(parts: seq<string>): string
    decreases |parts|
  {
    if |parts| == 0 then "" else parts[0] + "," + Terminated(parts[1..])
  }

  /** A terminated row reads back as its parts and one empty trailing
      field, provided no part holds a comma. */
  lemma {:induction false} TerminatedFields(parts: seq<string>)
    requires forall k :: 0 <= k < |parts| ==> ',' !in parts[k]
    ensures Split(Terminated(parts), ',') == parts + [""]
    decreases |parts|
  {
    if |parts| == 0 {
      assert Terminated(parts) == "";
    } else {
      TerminatedFields(parts[1..]);
      SplitAfterPiece(parts[0], Terminated(parts[1..]), ',');
      assert parts[0] + "," + Terminated(parts[1..]) == parts[0] + [','] + Terminated(parts[1..]);
      assert [parts[0]] + (parts[1..] + [""]) == parts + [""];
    }
  }

  function HeaderLine(steps: seq<string>): string {
    Terminated(["Type", "Name"] + steps)
  }

  /** The pseudo-module under which whole events are timed. */
  predicate IsEventTotal(m: ModuleInfo) {
    m.name == "EVENT" && m.moduleType == "EVENT"
  }

  /** A module's peak (or retained) memory per step; empty where the
      module has no such step. */
  function MemoryCells(m: ModuleInfo, steps: seq<string>, peak: bool): (cells: seq<string>)
    ensures |cells| == |steps|
    ensures forall k :: 0 <= k < |steps| ==>
              cells[k] == if steps[k] !in m.steps then ""
                          else IntToString(if peak then m.steps[steps[k]].peakMemory else m.steps[steps[k]].heldMemory)
  {
    seq(|steps|, k requires 0 <= k < |steps| =>
          if steps[k] !in m.steps then ""
          else IntToString(if peak then m.steps[steps[k]].peakMemory else m.steps[steps[k]].heldMemory))
  }

  function MemoryRow(m: ModuleInfo, steps: seq<string>, peak: bool): string {
    Terminated([m.moduleType, m.name] + MemoryCells(m, steps, peak))
  }

  /** One row per module of the order, the event pseudo-module left out. */
  function MemoryRows(info: map<string, ModuleInfo>, order: seq<string>, steps: seq<string>, peak: bool): (rows: seq<string>)
    requires forall k :: 0 <= k < |order| ==> order[k] in info
    ensures |rows| <= |order|
    decreases |order|
  {
    if |order| == 0 then []
    else
      var m := info[order[|order| - 1]];
      MemoryRows(info, order[..|order| - 1], steps, peak) + (if IsEventTotal(m) then [] else [MemoryRow(m, steps, peak)])
  }

  /** The names of the order whose module is not the event pseudo-module,
      in their order. */
  function Shown(info: map<string, ModuleInfo>, order: seq<string>): (names: seq<string>)
    requires forall k :: 0 <= k < |order| ==> order[k] in info
    ensures forall k :: 0 <= k < |names| ==> names[k] in info
    ensures forall n :: n in names <==> n in order && !IsEventTotal(info[n])
    decreases |order|
  {
    if |order| == 0 then []
    else (if IsEventTotal(info[order[0]]) then [] else [order[0]]) + Shown(info, order[1..])
  }

  lemma {:induction false} ShownAppend(info: map<string, ModuleInfo>, order: seq<string>, n: string)
    requires forall k :: 0 <= k < |order| ==> order[k] in info
    requires n in info
    ensures Shown(info, order + [n]) == Shown(info, order) + (if IsEventTotal(info[n]) then [] else [n])
    decreases |order|
  {
    if |order| == 0 {
      assert order + [n] == [n];
    } else {
      assert (order + [n])[1..] == order[1..] + [n];
      ShownAppend(info, order[1..], n);
    }
  }

  /** The memory table holds exactly one row per shown module, in the
      order of the modules. */
  lemma {:induction false} MemoryRowsAreShownModules(info: map<string, ModuleInfo>, order: seq<string>, steps: seq<string>, peak: bool)
    requires forall k :: 0 <= k < |order| ==> order[k] in info
    ensures RowsOfNames(info, MemoryRows(info, order, steps, peak), Shown(info, order), steps, peak)
    decreases |order|
  {
    if |order| > 0 {
      var front, n := order[..|order| - 1], order[|order| - 1];
      MemoryRowsAreShownModules(info, front, steps, peak);
      var tail, rowTail := LastShown(info, order, steps, peak);
      RowsOfNamesConcat(info, MemoryRows(info, front, steps, peak), Shown(info, front), rowTail, tail, steps, peak);
    }
  }

  /** How the last module of the order adds to the rows and to the shown names. */
  lemma LastShown(info: map<string, ModuleInfo>, order: seq<string>, steps: seq<string>, peak: bool)
      returns (tail: seq<string>, rowTail: seq<string>)
    requires |order| > 0 && forall k :: 0 <= k < |order| ==> order[k] in info
    ensures RowsOfNames(info, rowTail, tail, steps, peak)
    ensures MemoryRows(info, order, steps, peak) == MemoryRows(info, order[..|order| - 1], steps, peak) + rowTail
    ensures Shown(info, order) == Shown(info, order[..|order| - 1]) + tail
  {
    var front, n := order[..|order| - 1], order[|order| - 1];
    ShownAppend(info, front, n);
    assert front + [n] == order;
    tail := if IsEventTotal(info[n]) then [] else [n];
    rowTail := if IsEventTotal(info[n]) then [] else [MemoryRow(info[n], steps, peak)];
  }

  predicate RowsOfNames(info: map<string, ModuleInfo>, rows: seq<string>, names: seq<string>, steps: seq<string>, peak: bool) {
    && |rows| == |names|
    && forall k :: 0 <= k < |rows| ==> names[k] in info && rows[k] == MemoryRow(info[names[k]], steps, peak)
  }

  lemma RowsOfNamesConcat(info: map<string, ModuleInfo>, rows0: seq<string>, names0: seq<string>, rows1: seq<string>, names1: seq<string>, steps: seq<string>, peak: bool)
    requires RowsOfNames(info, rows0, names0, steps, peak) && RowsOfNames(info, rows1, names1, steps, peak)
    ensures RowsOfNames(info, rows0 + rows1, names0 + names1, steps, peak)
  {
    var rows, names := rows0 + rows1, names0 + names1;
    forall k | 0 <= k < |rows|
      ensures names[k] in info && rows[k] == MemoryRow(info[names[k]], steps, peak)
    {
      if k < |rows0| {
        assert rows[k] == rows0[k] && names[k] == names0[k];
      } else {
        assert rows[k] == rows1[k - |rows0|] && names[k] == names1[k - |rows0|];
      }
    }
  }

  /** `dumpMemory`: the title, the header of step names, the rows. */
  function DumpMemory(info: map<string, ModuleInfo>, order: seq<string>, steps: seq<string>, peak: bool): (table: seq<string>)
    requires forall k :: 0 <= k < |order| ==> order[k] in info
    ensures |table| >= 2 && table[0] == (if peak then "Peak memory" else "Retained memory")
    ensures table[1] == HeaderLine(steps)
  {
    [if peak then "Peak memory" else "Retained memory", HeaderLine(steps)] + MemoryRows(info, order, steps, peak)
  }

  datatype TimeKind = Real | User | Sys

  function TimeKindName(kind: TimeKind): string {
    match kind
    case Real => "Real"
    case User => "User"
    case Sys => "Sys"
  }

  function TimeValue(t: TimeLog, kind: TimeKind): int {
    match kind
    case Real => t.wall
    case User => t.user
    case Sys => t.system
  }

  function TimeCells(m: ModuleInfo, steps: seq<string>, kind: TimeKind): (cells: seq<string>)
    ensures |cells| == |steps|
    ensures forall k :: 0 <= k < |steps| ==>
              cells[k] == if steps[k] !in m.timeSteps then "" else IntToString(TimeValue(m.timeSteps[steps[k]], kind))
  {
    seq(|steps|, k requires 0 <= k < |steps| =>
          if steps[k] !in m.timeSteps then "" else IntToString(TimeValue(m.timeSteps[steps[k]], kind)))
  }

  /** A time row; the event pseudo-module's row is titled "Event,Total". */
  function TimeRow(m: ModuleInfo, steps: seq<string>, kind: TimeKind): string {
    Terminated((if IsEventTotal(m) then ["Event", "Total"] else [m.moduleType, m.name]) + TimeCells(m, steps, kind))
  }

  function TimeRows(info: map<string, ModuleInfo>, order: seq<string>, steps: seq<string>, kind: TimeKind): (rows: seq<string>)
    requires forall k :: 0 <= k < |order| ==> order[k] in info
    ensures |rows| == |order|
    ensures forall k :: 0 <= k < |order| ==> rows[k] == TimeRow(info[order[k]], steps, kind)
  {
    seq(|order|, k requires 0 <= k < |order| => TimeRow(info[order[k]], steps, kind))
  }

  /** `dumpTime`: the kind of time, the header, one row per module. */
  function DumpTime(info: map<string, ModuleInfo>, order: seq<string>, steps: seq<string>, kind: TimeKind): (table: seq<string>)
    requires forall k :: 0 <= k < |order| ==> order[k] in info
    ensures |table| == |order| + 2 && table[0] == TimeKindName(kind) && table[1] == HeaderLine(steps)
  {
    [TimeKindName(kind), HeaderLine(steps)] + TimeRows(info, order, steps, kind)
  }

  /** The two memory tables, when memory lines were seen. */
  function MemorySection(s: JobState): seq<string>
    requires Filed(s)
  {
    if s.containsMemory
    then DumpMemory(s.modules, s.runOrder, s.steps, true) + [""] + DumpMemory(s.modules, s.runOrder, s.steps, false)
    else []
  }

  /** The three time tables, when timer lines were seen. */
  function TimeSection(s: JobState): seq<string>
    requires Filed(s)
  {
    if s.containsTime
    then DumpTime(s.modules, s.runOrder, s.steps, Real) + [""] + DumpTime(s.modules, s.runOrder, s.steps, User)
         + [""] + DumpTime(s.modules, s.runOrder, s.steps, Sys)
    else []
  }

  /** Everything printed after reading: the memory tables, then the time
      tables. */
  function Report(s: JobState): seq<string>
    requires Filed(s)
  {
    MemorySection(s) + TimeSection(s)
  }

  /** The whole script: `argc` words on the command line, `lines` the
      contents of the named file. */
  function Format(argc: nat, lines: seq<string>): (r: Outcome)
    ensures argc != 2 ==> r == Failed(Usage)
    ensures argc == 2 && ScanLines(lines).stop.Crashed? ==> r == Failed(Raised(ScanLines(lines).stop.error))
  {
    if argc != 2 then Failed(Usage)
    else
      var scan := ScanLines(lines);
      if scan.stop.Crashed? then Failed(Raised(scan.stop.error)) else Printed(Report(scan.state))
  }

  // ---------------------------------------------------------------------
  // The tables are rectangular.
  // ---------------------------------------------------------------------

  /** Every memory row has as many fields as the header. */
  lemma {:induction false} MemoryRowsAligned(info: map<string, ModuleInfo>, order: seq<string>, steps: seq<string>, peak: bool)
    requires forall k :: 0 <= k < |order| ==> order[k] in info
    requires forall n :: n in info ==> ',' !in n && ',' !in info[n].moduleType && info[n].name == n
    requires forall k :: 0 <= k < |steps| ==> ',' !in steps[k]
    ensures forall row :: row in MemoryRows(info, order, steps, peak) ==> |Split(row, ',')| == |steps| + 3
    decreases |order|
  {
    if |order| > 0 {
      MemoryRowsAligned(info, order[..|order| - 1], steps, peak);
      var m := info[order[|order| - 1]];
      var parts := [m.moduleType, m.name] + MemoryCells(m, steps, peak);
      forall k | 0 <= k < |parts|
        ensures ',' !in parts[k]
      {
        if k >= 2 {
          var c := parts[k];
          assert forall j :: 0 <= j < |c| ==> IsNumberChar(c[j]);
        }
      }
      TerminatedFields(parts);
    }
  }

  /** Every time row has as many fields as the header. */
  lemma TimeRowsAligned(info: map<string, ModuleInfo>, order: seq<string>, steps: seq<string>, kind: TimeKind)
    requires forall k :: 0 <= k < |order| ==> order[k] in info
    requires forall n :: n in info ==> ',' !in n && ',' !in info[n].moduleType && info[n].name == n
    requires forall k :: 0 <= k < |steps| ==> ',' !in steps[k]
    ensures forall k :: 0 <= k < |order| ==> |Split(TimeRows(info, order, steps, kind)[k], ',')| == |steps| + 3
  {
    forall k | 0 <= k < |order|
      ensures |Split(TimeRows(info, order, steps, kind)[k], ',')| == |steps| + 3
    {
      var m := info[order[k]];
      var parts := (if IsEventTotal(m) then ["Event", "Total"] else [m.moduleType, m.name]) + TimeCells(m, steps, kind);
      forall j | 0 <= j < |parts|
        ensures ',' !in parts[j]
      {
        if j >= 2 {
          var c := parts[j];
          assert forall i :: 0 <= i < |c| ==> IsNumberChar(c[i]);
        }
      }
      TerminatedFields(parts);
    }
  }

  /** The words a table line can be other than a header or a row. */
  const Titles: set<string> := {"", "Peak memory", "Retained memory", "Real", "User", "Sys"}

  /** Every line but the title splits into `width` fields. */
  predicate Rectangular(table: seq<string>, width: nat) {
    forall k :: 1 <= k < |table| ==> |Split(table[k], ',')| == width
  }

  /** Every line of a table is its title or splits into `width` fields. */
  predicate TitledOrWide(lines: seq<string>, width: nat) {
    forall line :: line in lines ==> line in Titles || |Split(line, ',')| == width
  }

  lemma TitledTable(table: seq<string>, width: nat)
    requires |table| >= 1 && table[0] in Titles && Rectangular(table, width)
    ensures TitledOrWide(table, width)
  {
  }

  lemma TitledOrWideJoined(a: seq<string>, b: seq<string>, width: nat)
    requires TitledOrWide(a, width) && TitledOrWide(b, width)
    ensures TitledOrWide(a + [""] + b, width) && TitledOrWide(a + b, width)
  {
  }

  /** What the state of a run that did not crash satisfies. */
  predicate Printable(s: JobState) {
    Filed(s) && CommaFree(s) && forall n :: n in s.modules ==> s.modules[n].name == n
  }

  lemma MemorySectionRectangular(s: JobState)
    requires Printable(s)
    ensures TitledOrWide(MemorySection(s), |s.steps| + 3)
  {
    if s.containsMemory {
      var width := |s.steps| + 3;
      TerminatedFields(["Type", "Name"] + s.steps);
      MemoryRowsAligned(s.modules, s.runOrder, s.steps, true);
      MemoryRowsAligned(s.modules, s.runOrder, s.steps, false);
      var peak := DumpMemory(s.modules, s.runOrder, s.steps, true);
      var held := DumpMemory(s.modules, s.runOrder, s.steps, false);
      TitledTable(peak, width);
      TitledTable(held, width);
      TitledOrWideJoined(peak, held, width);
    }
  }

  lemma TimeTableRectangular(s: JobState, kind: TimeKind)
    requires Printable(s)
    ensures TitledOrWide(DumpTime(s.modules, s.runOrder, s.steps, kind), |s.steps| + 3)
  {
    TerminatedFields(["Type", "Name"] + s.steps);
    TimeRowsAligned(s.modules, s.runOrder, s.steps, kind);
    TitledTable(DumpTime(s.modules, s.runOrder, s.steps, kind), |s.steps| + 3);
  }

  lemma TimeSectionRectangular(s: JobState)
    requires Printable(s)
    ensures TitledOrWide(TimeSection(s), |s.steps| + 3)
  {
    if s.containsTime {
      var width := |s.steps| + 3;
      var wall := DumpTime(s.modules, s.runOrder, s.steps, Real);
      var user := DumpTime(s.modules, s.runOrder, s.steps, User);
      var sys := DumpTime(s.modules, s.runOrder, s.steps, Sys);
      TimeTableRectangular(s, Real);
      TimeTableRectangular(s, User);
      TimeTableRectangular(s, Sys);
      TitledOrWideJoined(wall, user, width);
      TitledOrWideJoined(wall + [""] + user, sys, width);
    }
  }

  /** Every line of a successful run's output other than titles and blank
      separators has one field per step plus three: type, name and a
      trailing empty field. */
  lemma ReportIsRectangular(argc: nat, lines: seq<string>)
    requires Format(argc, lines).Printed?
    ensures TitledOrWide(Format(argc, lines).lines, |ScanLines(lines).state.steps| + 3)
  {
    var s := ScanLines(lines).state;
    assert Printable(s);
    MemorySectionRectangular(s);
    TimeSectionRectangular(s);
    TitledOrWideJoined(MemorySection(s), TimeSection(s), |s.steps| + 3);
  }

  /** A successful run prints the memory tables exactly when a
      memory-counter line was read, first, and the time tables, starting
      with real time, exactly when a timer line was read, after the
      `2 * shown + 5` lines of the memory tables. */
  lemma FormatPrintsWhatWasRead(lines: seq<string>)
    requires Format(2, lines).Printed?
    ensures var p, s := Format(2, lines).lines, ScanLines(lines).state;
            var m := if MemoryLineRead(lines) then 2 * |Shown(s.modules, s.runOrder)| + 5 else 0;
            && (MemoryLineRead(lines) <==> |p| > 0 && p[0] == "Peak memory")
            && |p| >= m
            && (TimerLineRead(lines) <==> |p| > m)
            && (TimerLineRead(lines) ==> p[m] == "Real")
  {
    var scan := ScanLines(lines);
    assert Format(2, lines) == Printed(Report(scan.state));
    ScanSetsFlags(lines);
    ReportSections(scan.state);
  }

  /** The report opens with the memory tables exactly when the memory flag
      is set, and the time tables follow them exactly when the time flag is. */
  lemma ReportSections(s: JobState)
    requires Filed(s)
    ensures var p := Report(s);
            var m := if s.containsMemory then 2 * |Shown(s.modules, s.runOrder)| + 5 else 0;
            && (s.containsMemory <==> |p| > 0 && p[0] == "Peak memory")
            && |p| >= m
            && (s.containsTime <==> |p| > m)
            && (s.containsTime ==> p[m] == "Real")
  {
    MemorySectionShape(s);
    var time := TimeSection(s);
    assert s.containsTime ==> |time| > 0 && time[0] == "Real";
    assert Report(s) == MemorySection(s) + time;
  }

  lemma MemorySectionShape(s: JobState)
    requires Filed(s)
    ensures s.containsMemory ==> |MemorySection(s)| == 2 * |Shown(s.modules, s.runOrder)| + 5
                                 && MemorySection(s)[0] == "Peak memory"
    ensures !s.containsMemory ==> MemorySection(s) == []
  {
    MemoryRowsAreShownModules(s.modules, s.runOrder, s.steps, true);
    MemoryRowsAreShownModules(s.modules, s.runOrder, s.steps, false);
  }

  // ---------------------------------------------------------------------
  // The script as it runs.
  // ---------------------------------------------------------------------

  /** The body of the reading loop for a line of at least two columns:
      list the step and the event module, find or create the module's
      record and let it take the step. The flags are only read. */
  method TakeColumns(info: map<string, ModuleInfo>, moduleOrder: seq<string>, steps: seq<string>,
                     containsTime: bool, containsMemory: bool, columns: seq<string>, inputIsTime: bool)
    returns (newInfo: map<string, ModuleInfo>, newOrder: seq<string>, newSteps: seq<string>, raised: Option<PyError>)
    requires |columns| >= 2
    ensures ScanColumns(JobState(info, moduleOrder, steps, containsTime, containsMemory, []), columns, inputIsTime)
            == Scan(JobState(newInfo, newOrder, newSteps, containsTime, containsMemory, []),
                    if raised.Some? then Crashed(raised.value) else Reading)
  {
    ghost var flagged := JobState(info, moduleOrder, steps, containsTime, containsMemory, []);
    newInfo, newOrder, newSteps := info, moduleOrder, steps;
    var moduleName := columns[1];
    var step := columns[0];
    if step !in newSteps {
      newSteps := newSteps + [step];
    }
    if StartsWith(step, "event") && moduleName !in newOrder {
      newOrder := newOrder + [moduleName];
    }
    ghost var listed := JobState(newInfo, newOrder, newSteps, containsTime, containsMemory, []);
    assert listed == Listed(flagged, step, moduleName);
    var currentModule: ModuleInfo;
    if moduleName in newInfo {
      currentModule := newInfo[moduleName];
    } else {
      match NewModuleInfo(columns)
      case Raise(e) =>
        return newInfo, newOrder, newSteps, Some(e);
      case Ok(m) =>
        currentModule := m;
        newInfo := newInfo[moduleName := currentModule];
    }
    assert CurrentModule(listed, columns) == Ok(currentModule);
    var taken := if inputIsTime then AddTimeStep(currentModule, columns) else StoreMemoryStep(currentModule, columns);
    ReplacedTwice(listed.modules, moduleName, currentModule, taken.after);
    newInfo := newInfo[moduleName := taken.after];
    raised := taken.raised;
  }

  /** One pass of the reading loop over `line`, with the collections and
      flags as they stand; `stop` says whether the loop goes on. */
  method ReadLine(info: map<string, ModuleInfo>, moduleOrder: seq<string>, steps: seq<string>,
                  containsTime: bool, containsMemory: bool, line: string)
    returns (newInfo: map<string, ModuleInfo>, newOrder: seq<string>, newSteps: seq<string>,
             newTime: bool, newMemory: bool, stop: Stop)
    ensures ScanLine(JobState(info, moduleOrder, steps, containsTime, containsMemory, []), line)
            == Scan(JobState(newInfo, newOrder, newSteps, newTime, newMemory, []), stop)
  {
    newInfo, newOrder, newSteps, newTime, newMemory, stop := info, moduleOrder, steps, containsTime, containsMemory, Reading;
    var kind := Classify(line);
    if kind.OtherLine? {
      return;
    }
    var inputIsTime := kind.TimeLine?;
    var columns := kind.columns;
    if inputIsTime {
      newTime := true;
    } else {
      newMemory := true;
    }
    if |columns| == 1 {
      stop := Finished;
      return;
    }
    var raised;
    newInfo, newOrder, newSteps, raised := TakeColumns(info, moduleOrder, steps, newTime, newMemory, columns, inputIsTime);
    if raised.Some? {
      stop := Crashed(raised.value);
    }
  }

  /** The loop reads one more line while it is still reading. */
  lemma ScanLinesLast(lines: seq<string>, i: nat)
    requires i < |lines| && ScanLines(lines[..i]).stop == Reading
    ensures ScanLines(lines[..i + 1]) == ScanLine(ScanLines(lines[..i]).state, lines[i])
  {
    assert lines[..i + 1][..i] == lines[..i];
  }

  /** The printing at the end of the script. */
  method PrintTables(info: map<string, ModuleInfo>, moduleOrder: seq<string>, steps: seq<string>,
                     containsTime: bool, containsMemory: bool) returns (printed: seq<string>)
    requires Filed(JobState(info, moduleOrder, steps, containsTime, containsMemory, []))
    ensures printed == Report(JobState(info, moduleOrder, steps, containsTime, containsMemory, []))
  {
    ghost var s := JobState(info, moduleOrder, steps, containsTime, containsMemory, []);
    var memoryTables: seq<string> := [];
    if containsMemory {
      memoryTables := DumpMemory(info, moduleOrder, steps, true) + [""] + DumpMemory(info, moduleOrder, steps, false);
    }
    assert memoryTables == MemorySection(s);
    var timeTables: seq<string> := [];
    if containsTime {
      timeTables := DumpTime(info, moduleOrder, steps, Real) + [""] + DumpTime(info, moduleOrder, steps, User)
                    + [""] + DumpTime(info, moduleOrder, steps, Sys);
    }
    assert timeTables == TimeSection(s);
    printed := memoryTables + timeTables;
  }

  /** The reading loop: line by line until the end or until a line stops
      it (an exception, or the end of the job report). */
  method ReadLines(lines: seq<string>)
    returns (info: map<string, ModuleInfo>, moduleOrder: seq<string>, steps: seq<string>,
             containsTime: bool, containsMemory: bool, stop: Stop)
    ensures ScanLines(lines) == Scan(JobState(info, moduleOrder, steps, containsTime, containsMemory, []), stop)
  {
    moduleOrder, steps, info := [], [], map[];
    containsTime, containsMemory := false, false;
    var i := 0;
    stop := Reading;
    while i < |lines| && stop == Reading
      invariant 0 <= i <= |lines|
      invariant ScanLines(lines[..i]) == Scan(JobState(info, moduleOrder, steps, containsTime, containsMemory, []), stop)
    {
      ScanLinesLast(lines, i);
      info, moduleOrder, steps, containsTime, containsMemory, stop :=
        ReadLine(info, moduleOrder, steps, containsTime, containsMemory, lines[i]);
      i := i + 1;
    }
    ReadToEnd(lines, i);
  }

  /** The loop's exit: all lines read, or the scan stopped. */
  lemma ReadToEnd(lines: seq<string>, i: nat)
    requires i <= |lines|
    requires i == |lines| || ScanLines(lines[..i]).stop != Reading
    ensures ScanLines(lines) == ScanLines(lines[..i])
  {
    if i == |lines| {
      assert lines[..i] == lines;
    } else {
      ScanLinesStops(lines[..i], lines[i..]);
      assert lines[..i] + lines[i..] == lines;
    }
  }

  /** The script: reads the lines into the three collections and two flags,
      then prints the tables. */
  method FormatLog(argc: nat, lines: seq<string>) returns (outcome: Outcome)
    ensures outcome == Format(argc, lines)
  {
    if argc != 2 {
      return Failed(Usage);
    }
    var info, moduleOrder, steps, outputContainsTime, outputContainsMemory, stop := ReadLines(lines);
    if stop.Crashed? {
      return Failed(Raised(stop.error));
    }
    ghost var s := JobState(info, moduleOrder, steps, outputContainsTime, outputContainsMemory, []);
    assert Filed(s);
    var printed := PrintTables(info, moduleOrder, steps, outputContainsTime, outputContainsMemory);
    outcome := Printed(printed);
  }
}

=== FILE: framework.dfy ===
/** What the processing framework hands to every service hook: the
    description of the module a hook is about and the phase it is in. */
module Framework {
  import opened Text

  /** The two parts of a module description the services read. */
  datatype ModuleDescription = ModuleDescription(moduleLabel: string, moduleName: string)

  /** The per-module phases that have a pre and a post hook, in the signal
      era where run, luminosity block and event phases are global. */
  datatype Phase = Construction | BeginJob | BeginRun | BeginLumi | Event | EndLumi | EndRun | EndJob

  /** The step name the older services print when a module leaves `phase`:
      only event steps carry a number. */
  function ExitLabel(phase: Phase, eventNumber: nat): string {
    match phase
    case Construction => "Construction"
    case BeginJob => "beginJob"
    case BeginRun => "beginRun"
    case BeginLumi => "beginLumi"
    case Event => "event" + NatToString(eventNumber)
    case EndLumi => "endLumi"
    case EndRun => "endRun"
    case EndJob => "endJob"
  }

  /** No step name contains a comma. */
  lemma ExitLabelHasNoComma(phase: Phase, eventNumber: nat)
    ensures ',' !in ExitLabel(phase, eventNumber)
  {
    if phase == Event {
      assert forall j :: 0 <= j < |NatToString(eventNumber)| ==> IsDigit(NatToString(eventNumber)[j]);
      assert ExitLabel(phase, eventNumber) == "event" + NatToString(eventNumber);
    }
  }
}

=== FILE: igprof_dump.dfy ===
/** The profiler-dump trigger (src/IgprofDump.cc). Touching a watch file
    makes the external profiler write a dump; the service then renames the
    dump so that the next one does not overwrite it. Dumps are triggered at
    the start or end of chosen events of one module, or on request. The
    file system is a map from path to contents plus a log of the operations
    performed; whether the operating system refuses a rename is an input. */
module IgprofDump {
  import opened Wrappers
  import opened Text
  import opened Framework

  const ErrorPrefix: string := "Unable to make igprof dump, got the exception: "

  /** One file-system effect, in the order performed. */
  datatype Effect = OpenForAppend(path: string) | Sleep(milliseconds: nat) | Rename(from: string, to: string)

  /** When to dump: the module and the event numbers at whose start or end
      it is dumped. */
  datatype ModuleDumpOptions = ModuleDumpOptions(moduleName: string, eventStartNumbers: seq<int>, eventEndNumbers: seq<int>)

  /** Opening a file for appending creates it when absent and never
      changes existing contents. */
  function Touched(files: map<string, string>, path: string): (r: map<string, string>)
    ensures path in r && r[path] == (if path in files then files[path] else "")
    ensures forall p :: p in files ==> p in r && r[p] == files[p]
    ensures forall p :: p in r ==> p in files || p == path
  {
    if path in files then files else files[path := ""]
  }

  /** A successful rename moves the contents to the new name, replacing any
      file there, and removes the old name. */
  function Renamed(files: map<string, string>, from: string, to: string): (r: map<string, string>)
    requires from in files
    ensures to in r && r[to] == files[from]
    ensures from != to ==> from !in r
    ensures forall p :: p != from && p != to ==> (p in r <==> p in files) && (p in r ==> r[p] == files[p])
  {
    (files - {from})[to := files[from]]
  }

  /** The suffix of the dump to make when `moduleLabel` starts or ends an
      event, if any. */
  function DumpSuffixFor(options: ModuleDumpOptions, moduleLabel: string, isEventStart: bool, eventNumber: nat): Option<string> {
    if moduleLabel != options.moduleName then None
    else if isEventStart then
      (if eventNumber in options.eventStartNumbers then Some("StartEvent" + NatToString(eventNumber)) else None)
    else
      (if eventNumber in options.eventEndNumbers then Some("EndEvent" + NatToString(eventNumber)) else None)
  }

  /** Different triggers name their dumps differently, so one renamed dump
      is never replaced by the dump of another event or of the other end of
      the same event. */
  lemma DumpSuffixesDistinct(options: ModuleDumpOptions, label1: string, start1: bool, n1: nat,
                             label2: string, start2: bool, n2: nat)
    requires DumpSuffixFor(options, label1, start1, n1).Some?
    requires DumpSuffixFor(options, label2, start2, n2) == DumpSuffixFor(options, label1, start1, n1)
    ensures start1 == start2 && n1 == n2
  {
    var x := DumpSuffixFor(options, label1, start1, n1).value;
    assert x[0] == (if start1 then 'S' else 'E') && x[0] == (if start2 then 'S' else 'E');
    var stem := if start1 then "StartEvent" else "EndEvent";
    assert NatToString(n1) == x[|stem|..] && NatToString(n2) == x[|stem|..];
    NatToStringInjective(n1, n2);
  }

  /** The suffix of a requested dump: the caller's when given, otherwise
      one numbered by the count of requests so far. */
  function UserDumpSuffix(suffix: string, userDumps: nat): string {
    if |suffix| > 0 then suffix else "userDump" + NatToString(userDumps)
  }

  /** Two requests without a suffix never produce the same name. */
  lemma UserDumpSuffixDistinct(m: nat, n: nat)
    requires m != n
    ensures UserDumpSuffix("", m) != UserDumpSuffix("", n)
  {
    var a := UserDumpSuffix("", m);
    var b := UserDumpSuffix("", n);
    if a == b {
      assert NatToString(m) == a[8..];
      assert NatToString(n) == b[8..];
      NatToStringInjective(m, n);
    }
  }


  /** A triggered dump and a requested dump without a suffix never share a
      name. */
  lemma TriggeredDumpIsNotUserDump(options: ModuleDumpOptions, moduleLabel: string, isEventStart: bool,
                                   eventNumber: nat, userDumps: nat)
    requires DumpSuffixFor(options, moduleLabel, isEventStart, eventNumber).Some?
    ensures DumpSuffixFor(options, moduleLabel, isEventStart, eventNumber).value != UserDumpSuffix("", userDumps)
  {
    var x := DumpSuffixFor(options, moduleLabel, isEventStart, eventNumber).value;
    assert x[0] != 'u';
    assert UserDumpSuffix("", userDumps)[0] == 'u';
  }

  class IgprofDumpService {
    var filenameToTouch: string
    var filenameOfIgprofDump: string
    var timeToSleepAfterTouch: nat
    var eventNumber: nat
    var userDumps: nat
    var dumpOptions: ModuleDumpOptions
    var files: map<string, string>
    var effects: seq<Effect>
    var errors: seq<string>

    /** The parameters are the service's configuration; `files` is the file
        system it starts with. */
    constructor (igprofWatchFile: string, igprofDump: string, moduleName: string,
                 eventStartNumbers: seq<int>, eventEndNumbers: seq<int>, files: map<string, string>)
      ensures filenameToTouch == igprofWatchFile && filenameOfIgprofDump == igprofDump
      ensures timeToSleepAfterTouch == 500 && eventNumber == 0 && userDumps == 0
      ensures dumpOptions == ModuleDumpOptions(moduleName, eventStartNumbers, eventEndNumbers)
      ensures this.files == files && effects == [] && errors == []
    {
      filenameToTouch := igprofWatchFile;
      filenameOfIgprofDump := igprofDump;
      timeToSleepAfterTouch := 500;
      eventNumber := 0;
      userDumps := 0;
      dumpOptions := ModuleDumpOptions(moduleName, eventStartNumbers, eventEndNumbers);
      this.files := files;
      effects := [];
      errors := [];
    }

    /** Touch the watch file, wait, then rename the dump to the dump path
        with `suffix` appended. The rename fails when there is no dump or the
        system refuses it (`refused`), with the message `what`; the failure
        is logged and goes no further. */
    method TouchFileAndMoveDump(suffix: string, refused: bool, what: string)
      modifies this`files, this`effects, this`errors
      ensures var touched := Touched(old(files), filenameToTouch);
              var moved := !refused && filenameOfIgprofDump in touched;
              && effects == old(effects) + [OpenForAppend(filenameToTouch), Sleep(timeToSleepAfterTouch)]
                            + (if moved then [Rename(filenameOfIgprofDump, filenameOfIgprofDump + suffix)] else [])
              && files == (if moved then Renamed(touched, filenameOfIgprofDump, filenameOfIgprofDump + suffix) else touched)
              && errors == old(errors) + (if moved then [] else [ErrorPrefix + what])
    {
      files := Touched(files, filenameToTouch);
      effects := effects + [OpenForAppend(filenameToTouch), Sleep(timeToSleepAfterTouch)];
      var newFilename := filenameOfIgprofDump + suffix;
      if !refused && filenameOfIgprofDump in files {
        files := Renamed(files, filenameOfIgprofDump, newFilename);
        effects := effects + [Rename(filenameOfIgprofDump, newFilename)];
      } else {
        errors := errors + [ErrorPrefix + what];
      }
    }

    /** The pre (`isEventStart`) and post module-event hook. */
    method CheckWhetherToDump(d: ModuleDescription, isEventStart: bool, refused: bool, what: string)
      modifies this`files, this`effects, this`errors
      ensures DumpSuffixFor(dumpOptions, d.moduleLabel, isEventStart, eventNumber).None? ==>
                files == old(files) && effects == old(effects) && errors == old(errors)
      ensures DumpSuffixFor(dumpOptions, d.moduleLabel, isEventStart, eventNumber).Some? ==>
                var suffix := DumpSuffixFor(dumpOptions, d.moduleLabel, isEventStart, eventNumber).value;
                var touched := Touched(old(files), filenameToTouch);
                var moved := !refused && filenameOfIgprofDump in touched;
                && effects == old(effects) + [OpenForAppend(filenameToTouch), Sleep(timeToSleepAfterTouch)]
                              + (if moved then [Rename(filenameOfIgprofDump, filenameOfIgprofDump + suffix)] else [])
                && files == (if moved then Renamed(touched, filenameOfIgprofDump, filenameOfIgprofDump + suffix) else touched)
                && errors == old(errors) + (if moved then [] else [ErrorPrefix + what])
    {
      match DumpSuffixFor(dumpOptions, d.moduleLabel, isEventStart, eventNumber)
      case Some(suffix) => TouchFileAndMoveDump(suffix, refused, what);
      case None =>
    }

    /** The post-event hook. */
    method PostEvent()
      modifies this`eventNumber
      ensures eventNumber == old(eventNumber) + 1
    {
      eventNumber := eventNumber + 1;
    }

    /** A dump requested by the user; every request is counted. */
    method DumpNow(suffix: string, refused: bool, what: string)
      modifies this`userDumps, this`files, this`effects, this`errors
      ensures userDumps == old(userDumps) + 1
      ensures var name := UserDumpSuffix(suffix, userDumps);
              var touched := Touched(old(files), filenameToTouch);
              var moved := !refused && filenameOfIgprofDump in touched;
              && effects == old(effects) + [OpenForAppend(filenameToTouch), Sleep(timeToSleepAfterTouch)]
                            + (if moved then [Rename(filenameOfIgprofDump, filenameOfIgprofDump + name)] else [])
              && files == (if moved then Renamed(touched, filenameOfIgprofDump, filenameOfIgprofDump + name) else touched)
              && errors == old(errors) + (if moved then [] else [ErrorPrefix + what])
    {
      userDumps := userDumps + 1;
      TouchFileAndMoveDump(UserDumpSuffix(suffix, userDumps), refused, what);
    }
  }
}

=== FILE: job_info.dfy ===
/** The log reader (scripts/JobInfo.py): it reads the `*MODULETIMER*` and
    `*MEMCOUNTER*` lines of a job's output into one record per module,
    keyed by module label, with an ordered list of step names and of the
    modules seen in events. Lines that look like a resident-memory dump are
    kept as a list of sizes. A Python exception is an error value: it stops
    the read, and whatever was updated before it stays updated.

    Numbers are read as integer literals and kept unscaled. */
module JobInfo {
  import opened Wrappers
  import opened Text

  const TimerPrefix: string := " *MODULETIMER* "
  const MemoryPrefix: string := " *MEMCOUNTER* "

  /** The exceptions the reader can raise. */
  datatype PyError =
    | NotEnoughColumns
    | WrongModuleName
    | WrongModuleType
    | KeyError(key: string)
    | ValueError(text: string)
    | IndexError

  /** A value, or the exception raised instead. */
  datatype Try<T> = Ok(value: T) | Raise(error: PyError)

  /** The state after an operation, and the exception that ended it, if
      any. */
  datatype Step<T> = Step(after: T, raised: Option<PyError>)

  /** Memory at the end of a step and its peak (bytes); the allocation
      counts kept as the text read; the size of the products made, which a
      later line may supply. */
  datatype MemoryLog = MemoryLog(heldMemory: int, peakMemory: int, heldAllocation: string,
                                 peakAllocation: string, productSize: int)

  datatype TimeLog = TimeLog(wall: int, user: int, system: int)

  datatype ModuleInfo = ModuleInfo(name: string, moduleType: string,
                                   steps: map<string, MemoryLog>, timeSteps: map<string, TimeLog>)

  /** Python's `float()` on the numbers the services print. */
  function ParseNumber(text: string): Option<int> {
    ParseInt(text)
  }

  /** `ModuleInfo(columns)`: the label is column 1 and the type column 2. */
  function NewModuleInfo(columns: seq<string>): (r: Try<ModuleInfo>)
    ensures r.Ok? <==> |columns| >= 3
    ensures r.Ok? ==> r.value == ModuleInfo(columns[1], columns[2], map[], map[])
  {
    if |columns| < 3 then Raise(NotEnoughColumns) else Ok(ModuleInfo(columns[1], columns[2], map[], map[]))
  }

  function NewMemoryLog(heldMemory: string, peakMemory: string, heldAllocation: string, peakAllocation: string): (r: Try<MemoryLog>)
    ensures r.Ok? <==> ParseNumber(heldMemory).Some? && ParseNumber(peakMemory).Some?
    ensures r.Ok? ==> r.value == MemoryLog(ParseNumber(heldMemory).value, ParseNumber(peakMemory).value,
                                           heldAllocation, peakAllocation, 0)
  {
    match ParseNumber(heldMemory)
    case None => Raise(ValueError(heldMemory))
    case Some(held) =>
      match ParseNumber(peakMemory)
      case None => Raise(ValueError(peakMemory))
      case Some(peak) => Ok(MemoryLog(held, peak, heldAllocation, peakAllocation, 0))
  }

  /** The checks a module record makes before taking a step. */
  function CheckColumns(m: ModuleInfo, columns: seq<string>, minimum: nat): (r: Option<PyError>)
    requires minimum >= 3
    ensures r.None? <==> |columns| >= minimum && columns[1] == m.name && columns[2] == m.moduleType
  {
    if |columns| < minimum then Some(NotEnoughColumns)
    else if m.name != columns[1] then Some(WrongModuleName)
    else if m.moduleType != columns[2] then Some(WrongModuleType)
    else None
  }

  /** `ModuleInfo.addStep`: store the memory step under its name; a line
      of nine or more columns also sets the product size of the step named
      in column 7 from column 8. */
  function AddMemoryStep(m: ModuleInfo, columns: seq<string>): (r: Step<ModuleInfo>)
    ensures r.after.name == m.name && r.after.moduleType == m.moduleType && r.after.timeSteps == m.timeSteps
    ensures r.raised.None? <==>
              && CheckColumns(m, columns, 7).None?
              && NewMemoryLog(columns[3], columns[4], columns[5], columns[6]).Ok?
              && (|columns| >= 9 ==> ParseNumber(columns[8]).Some? && (columns[7] in m.steps || columns[7] == columns[0]))
    ensures CheckColumns(m, columns, 7).None? && NewMemoryLog(columns[3], columns[4], columns[5], columns[6]).Ok? ==>
              var log := NewMemoryLog(columns[3], columns[4], columns[5], columns[6]).value;
              && r.after.steps.Keys == m.steps.Keys + {columns[0]}
              && (r.raised.None? && |columns| >= 9 ==>
                    r.after.steps[columns[7]] == (if columns[7] == columns[0] then log else m.steps[columns[7]])
                                                 .(productSize := ParseNumber(columns[8]).value))
              && (|columns| < 9 || columns[7] != columns[0] || r.raised.Some? ==> r.after.steps[columns[0]] == log)
              && (forall k :: k in m.steps && k != columns[0] && (|columns| < 9 || k != columns[7] || r.raised.Some?) ==>
                    r.after.steps[k] == m.steps[k])
    ensures r.raised.Some? && !(CheckColumns(m, columns, 7).None? && NewMemoryLog(columns[3], columns[4], columns[5], columns[6]).Ok?) ==>
              r.after == m
  {
    match CheckColumns(m, columns, 7)
    case Some(e) => Step(m, Some(e))
    case None =>
      match NewMemoryLog(columns[3], columns[4], columns[5], columns[6])
      case Raise(e) => Step(m, Some(e))
      case Ok(log) =>
        var stored := m.(steps := m.steps[columns[0] := log]);
        if |columns| < 9 then Step(stored, None)
        else if columns[7] !in stored.steps then Step(stored, Some(KeyError(columns[7])))
        else
          match ParseNumber(columns[8])
          case None => Step(stored, Some(ValueError(columns[8])))
          case Some(size) =>
            Step(stored.(steps := stored.steps[columns[7] := stored.steps[columns[7]].(productSize := size)]), None)
  }

  function NewTimeLog(wall: string, user: string, system: string): (r: Try<TimeLog>)
    ensures r.Ok? <==> ParseNumber(wall).Some? && ParseNumber(user).Some? && ParseNumber(system).Some?
    ensures r.Ok? ==> r.value == TimeLog(ParseNumber(wall).value, ParseNumber(user).value, ParseNumber(system).value)
  {
    match ParseNumber(wall)
    case None => Raise(ValueError(wall))
    case Some(w) =>
      match ParseNumber(user)
      case None => Raise(ValueError(user))
      case Some(u) =>
        match ParseNumber(system)
        case None => Raise(ValueError(system))
        case Some(s) => Ok(TimeLog(w, u, s))
  }

  /** `ModuleInfo.addTimeStep`: store the time step under its name. */
  function AddTimeStep(m: ModuleInfo, columns: seq<string>): (r: Step<ModuleInfo>)
    ensures r.raised.None? <==>
              CheckColumns(m, columns, 6).None? && NewTimeLog(columns[3], columns[4], columns[5]).Ok?
    ensures r.raised.None? ==>
              r.after == m.(timeSteps := m.timeSteps[columns[0] := NewTimeLog(columns[3], columns[4], columns[5]).value])
    ensures r.raised.Some? ==> r.after == m
  {
    match CheckColumns(m, columns, 6)
    case Some(e) => Step(m, Some(e))
    case None =>
      match NewTimeLog(columns[3], columns[4], columns[5])
      case Raise(e) => Step(m, Some(e))
      case Ok(log) => Step(m.(timeSteps := m.timeSteps[columns[0] := log]), None)
  }

  /** Everything the reader has collected. */
  datatype JobState = JobState(
    modules: map<string, ModuleInfo>,
    runOrder: seq<string>,
    steps: seq<string>,
    containsTime: bool,
    containsMemory: bool,
    rss: seq<int>)

  const EmptyJob: JobState := JobState(map[], [], [], false, false, [])

  /** How a line is read: the columns of a timer or memory line, or the
      whitespace-separated columns of any other line. */
  datatype LineKind = TimeLine(columns: seq<string>) | MemoryLine(columns: seq<string>) | OtherLine(fields: seq<string>)

  function Classify(line: string): (k: LineKind)
    ensures k.TimeLine? <==> StartsWith(line, TimerPrefix)
    ensures k.MemoryLine? <==> !StartsWith(line, TimerPrefix) && StartsWith(line, MemoryPrefix)
    ensures k.TimeLine? ==> k.columns == Split(line[|TimerPrefix|..], ',')
    ensures k.MemoryLine? ==> k.columns == Split(line[|MemoryPrefix|..], ',')
  {
    if StartsWith(line, TimerPrefix) then TimeLine(Split(line[|TimerPrefix|..], ','))
    else if StartsWith(line, MemoryPrefix) then MemoryLine(Split(line[|MemoryPrefix|..], ','))
    else OtherLine(Fields(line))
  }

  /** The shape of a resident-memory dump line. */
  predicate IsRssLine(columns: seq<string>) {
    (|columns| == 15 || |columns| == 13)
    && columns[6] == "mem" && columns[8] == "kb" && columns[9] == "pid" && columns[11] == "node"
  }

  /** The step and, for an event step, the module recorded in the lists,
      each only the first time it is seen. */
  function Listed(s: JobState, step: string, moduleName: string): (r: JobState)
    ensures r.modules == s.modules && r.rss == s.rss
    ensures r.containsTime == s.containsTime && r.containsMemory == s.containsMemory
    ensures r.steps == if step in s.steps then s.steps else s.steps + [step]
    ensures r.runOrder == if StartsWith(step, "event") && moduleName !in s.runOrder
                          then s.runOrder + [moduleName] else s.runOrder
  {
    var withStep := s.(steps := if step in s.steps then s.steps else s.steps + [step]);
    if StartsWith(step, "event") && moduleName !in withStep.runOrder
    then withStep.(runOrder := withStep.runOrder + [moduleName]) else withStep
  }

  /** The step in `columns` taken by module record `m`. */
  function TakeStep(m: ModuleInfo, columns: seq<string>, inputIsTime: bool): (r: Step<ModuleInfo>)
    ensures r.after.name == m.name && r.after.moduleType == m.moduleType
    ensures |columns| >= 2 && m.name == columns[1] ==> r.raised != Some(WrongModuleName)
  {
    if inputIsTime then AddTimeStep(m, columns) else AddMemoryStep(m, columns)
  }

  /** The record of module `moduleName` as the line finds it: the one
      already filed, or a new one built from the line. */
  function CurrentModule(s: JobState, columns: seq<string>): (r: Try<ModuleInfo>)
    requires |columns| >= 2
    ensures columns[1] in s.modules ==> r == Ok(s.modules[columns[1]])
    ensures columns[1] !in s.modules ==> r == NewModuleInfo(columns)
  {
    if columns[1] in s.modules then Ok(s.modules[columns[1]]) else NewModuleInfo(columns)
  }

  /** `JobInfo.addStep`: the presence flag is set first; then the lists are
      updated; then the module's record is found or created and filed, and
      takes the step. The record stays filed, updated as far as the step
      got, when the step raises. */
  function AfterStep(s: JobState, columns: seq<string>, inputIsTime: bool): (r: Step<JobState>)
    requires |columns| >= 1
  {
    var flagged := Flagged(s, inputIsTime);
    if |columns| < 2 then Step(flagged, Some(IndexError))
    else
      var listed := Listed(flagged, columns[0], columns[1]);
      match CurrentModule(listed, columns)
      case Raise(e) => Step(listed, Some(e))
      case Ok(m) =>
        var taken := TakeStep(m, columns, inputIsTime);
        Step(listed.(modules := listed.modules[columns[1] := taken.after]), taken.raised)
  }

  /** The presence flag of the kind of line read is set. */
  function Flagged(s: JobState, inputIsTime: bool): (r: JobState)
    ensures r.containsTime == (s.containsTime || inputIsTime)
    ensures r.containsMemory == (s.containsMemory || !inputIsTime)
    ensures r.(containsTime := s.containsTime, containsMemory := s.containsMemory) == s
  {
    if inputIsTime then s.(containsTime := true) else s.(containsMemory := true)
  }

  /** A step whose module record is found or made takes the step. */
  lemma AfterStepTakes(s: JobState, columns: seq<string>, inputIsTime: bool, m: ModuleInfo)
    requires |columns| >= 2
    requires CurrentModule(Listed(Flagged(s, inputIsTime), columns[0], columns[1]), columns) == Ok(m)
    ensures var listed := Listed(Flagged(s, inputIsTime), columns[0], columns[1]);
            var taken := TakeStep(m, columns, inputIsTime);
            AfterStep(s, columns, inputIsTime) == Step(listed.(modules := listed.modules[columns[1] := taken.after]), taken.raised)
  {
  }

  /** A step files at most the record of its own module, column 1: every
      other record stays as it was, and the RSS samples are untouched. */
  lemma AfterStepTouchesOneRecord(s: JobState, columns: seq<string>, inputIsTime: bool)
    requires |columns| >= 1
    ensures var r := AfterStep(s, columns, inputIsTime).after;
            && r.rss == s.rss
            && (|columns| < 2 ==> r.modules == s.modules)
            && (|columns| >= 2 ==> r.modules.Keys <= s.modules.Keys + {columns[1]})
            && forall n :: n in s.modules && (|columns| < 2 || n != columns[1]) ==>
                 n in r.modules && r.modules[n] == s.modules[n]
  {
    if |columns| >= 2 {
      var listed := Listed(Flagged(s, inputIsTime), columns[0], columns[1]);
      match CurrentModule(listed, columns)
      case Raise(_) =>
      case Ok(m) => AfterStepTakes(s, columns, inputIsTime, m);
    }
  }

  /** Filing a record twice under one name keeps the second. */
  lemma ReplacedTwice<K, V>(m: map<K, V>, k: K, first: V, second: V)
    ensures m[k := first][k := second] == m[k := second]
  {
  }

  /** `JobInfo.addFromLine`. */
  function AfterLine(s: JobState, line: string): Step<JobState> {
    match Classify(line)
    case TimeLine(columns) => AfterStep(s, columns, true)
    case MemoryLine(columns) => AfterStep(s, columns, false)
    case OtherLine(columns) =>
      if !IsRssLine(columns) then Step(s, None)
      else
        match ParseNumber(columns[7])
        case None => Step(s, Some(ValueError(columns[7])))
        case Some(kb) => Step(s.(rss := s.rss + [kb]), None)
  }

  /** A line with neither prefix changes nothing but the RSS samples. It
      is an RSS line when it has 13 or 15 whitespace-separated fields with
      `mem`, `kb`, `pid` and `node` at positions 6, 8, 9 and 11; then the
      number in field 7 is appended, or `ValueError` raised when it is not
      a number. Any other such line is ignored. */
  lemma OtherLineRule(s: JobState, line: string)
    requires !StartsWith(line, TimerPrefix) && !StartsWith(line, MemoryPrefix)
    ensures var f := Fields(line);
            var r := AfterLine(s, line);
            var isRss := (|f| == 13 || |f| == 15) && f[6] == "mem" && f[8] == "kb" && f[9] == "pid" && f[11] == "node";
            && r.after.(rss := s.rss) == s
            && (r.raised.Some? <==> isRss && ParseNumber(f[7]).None?)
            && r.after.rss == if isRss && ParseNumber(f[7]).Some? then s.rss + [ParseNumber(f[7]).value] else s.rss
  {
    assert Classify(line) == OtherLine(Fields(line));
  }

  /** A timer line sets the time flag and a memory line the memory flag,
      even when its step then raises; other lines set neither. */
  lemma LineSetsItsFlag(s: JobState, line: string)
    ensures AfterLine(s, line).after.containsTime == (s.containsTime || StartsWith(line, TimerPrefix))
    ensures AfterLine(s, line).after.containsMemory ==
              (s.containsMemory || (!StartsWith(line, TimerPrefix) && StartsWith(line, MemoryPrefix)))
  {
    match Classify(line)
    case OtherLine(_) =>
    case TimeLine(columns) => AfterStepFlags(s, columns, true);
    case MemoryLine(columns) => AfterStepFlags(s, columns, false);
  }

  lemma AfterStepFlags(s: JobState, columns: seq<string>, inputIsTime: bool)
    requires |columns| >= 1
    ensures AfterStep(s, columns, inputIsTime).after.containsTime == (s.containsTime || inputIsTime)
    ensures AfterStep(s, columns, inputIsTime).after.containsMemory == (s.containsMemory || !inputIsTime)
  {
    if |columns| >= 2 {
      var listed := Listed(Flagged(s, inputIsTime), columns[0], columns[1]);
      match CurrentModule(listed, columns)
      case Raise(_) =>
      case Ok(m) => AfterStepTakes(s, columns, inputIsTime, m);
    }
  }

  /** `JobInfo.parseFile`: the lines in order, up to the first exception. */
  function ParseLines(s: JobState, lines: seq<string>): Step<JobState>
    decreases |lines|
  {
    if |lines| == 0 then Step(s, None)
    else
      var before := ParseLines(s, lines[..|lines| - 1]);
      if before.raised.Some? then before else AfterLine(before.after, lines[|lines| - 1])
  }

  /** What stays true of the collected state: steps and event modules are
      listed once each, and every module record is filed under its label. */
  predicate JobInvariant(s: JobState) {
    && Distinct(s.steps)
    && Distinct(s.runOrder)
    && (forall n :: n in s.modules ==> s.modules[n].name == n)
  }

  /** What a later state keeps of an earlier one: the step and event-module
      lists only grow at the end, module records are never dropped and keep
      their label and type, and resident sizes are only appended. */
  predicate Extends(s: JobState, t: JobState) {
    && s.steps <= t.steps
    && s.runOrder <= t.runOrder
    && s.rss <= t.rss
    && (s.containsTime ==> t.containsTime)
    && (s.containsMemory ==> t.containsMemory)
    && (forall n :: n in s.modules ==> n in t.modules && t.modules[n].name == s.modules[n].name
                                          && t.modules[n].moduleType == s.modules[n].moduleType)
  }

  lemma ExtendsTransitive(s: JobState, t: JobState, u: JobState)
    requires Extends(s, t) && Extends(t, u)
    ensures Extends(s, u)
  {
  }

  /** One line keeps the invariant and extends the state. A line that
      changes the event-module list is a timer or memory line whose step
      starts with "event", and it appends that line's module label. */
  lemma AfterLineKeeps(s: JobState, line: string)
    requires JobInvariant(s)
    ensures JobInvariant(AfterLine(s, line).after)
    ensures Extends(s, AfterLine(s, line).after)
    ensures var t := AfterLine(s, line).after;
            t.runOrder == s.runOrder
            || (var k := Classify(line);
                !k.OtherLine? && |k.columns| >= 2 && StartsWith(k.columns[0], "event")
                && k.columns[1] !in s.runOrder && t.runOrder == s.runOrder + [k.columns[1]])
  {
    var t := AfterLine(s, line).after;
    match Classify(line)
    case OtherLine(_) =>
    case TimeLine(columns) => AfterStepKeeps(s, columns, true);
    case MemoryLine(columns) => AfterStepKeeps(s, columns, false);
  }

  lemma AfterStepKeeps(s: JobState, columns: seq<string>, inputIsTime: bool)
    requires JobInvariant(s) && |columns| >= 1
    ensures JobInvariant(AfterStep(s, columns, inputIsTime).after)
    ensures Extends(s, AfterStep(s, columns, inputIsTime).after)
    ensures var t := AfterStep(s, columns, inputIsTime).after;
            t.runOrder == s.runOrder
            || (|columns| >= 2 && StartsWith(columns[0], "event") && columns[1] !in s.runOrder
                && t.runOrder == s.runOrder + [columns[1]])
  {
    var flagged := if inputIsTime then s.(containsTime := true) else s.(containsMemory := true);
    if |columns| >= 2 {
      var listed := Listed(flagged, columns[0], columns[1]);
      ListedKeeps(flagged, columns[0], columns[1]);
      match CurrentModule(listed, columns)
      case Raise(_) =>
      case Ok(m) =>
        var taken := TakeStep(m, columns, inputIsTime);
        FiledKeeps(listed, columns[1], taken.after);
    }
  }

  lemma ListedKeeps(s: JobState, step: string, moduleName: string)
    requires JobInvariant(s)
    ensures JobInvariant(Listed(s, step, moduleName)) && Extends(s, Listed(s, step, moduleName))
  {
    if step !in s.steps {
      DistinctAppend(s.steps, step);
    }
    if StartsWith(step, "event") && moduleName !in s.runOrder {
      DistinctAppend(s.runOrder, moduleName);
    }
  }

  /** Filing a record under its own label, keeping the type of the one it
      replaces, keeps the invariant. */
  lemma FiledKeeps(s: JobState, moduleName: string, m: ModuleInfo)
    requires JobInvariant(s) && m.name == moduleName
    requires moduleName in s.modules ==> s.modules[moduleName].moduleType == m.moduleType
    ensures JobInvariant(s.(modules := s.modules[moduleName := m]))
    ensures Extends(s, s.(modules := s.modules[moduleName := m]))
  {
  }

  lemma DistinctAppend<T>(s: seq<T>, x: T)
    requires Distinct(s) && x !in s
    ensures Distinct(s + [x])
  {
  }

  /** The name check never fires: a module record is looked up by the very
      label it was made from. */
  lemma NameCheckNeverFires(s: JobState, line: string)
    requires JobInvariant(s)
    ensures AfterLine(s, line).raised != Some(WrongModuleName)
  {
  }

  /** Reading lines keeps the invariant, and the result extends the start. */
  lemma {:induction false} ParseLinesKeeps(s: JobState, lines: seq<string>)
    requires JobInvariant(s)
    ensures JobInvariant(ParseLines(s, lines).after)
    ensures Extends(s, ParseLines(s, lines).after)
    decreases |lines|
  {
    if |lines| > 0 {
      var prefix := lines[..|lines| - 1];
      ParseLinesKeeps(s, prefix);
      var before := ParseLines(s, prefix);
      if before.raised.None? {
        AfterLineKeeps(before.after, lines[|lines| - 1]);
        ExtendsTransitive(s, before.after, AfterLine(before.after, lines[|lines| - 1]).after);
      }
    }
  }

  /** Once a line raises, later lines are not read. */
  lemma {:induction false} ParseLinesStops(s: JobState, lines: seq<string>, more: seq<string>)
    requires ParseLines(s, lines).raised.Some?
    ensures ParseLines(s, lines + more) == ParseLines(s, lines)
    decreases |more|
  {
    if |more| > 0 {
      var shorter := more[..|more| - 1];
      ParseLinesStops(s, lines, shorter);
      assert (lines + more)[..|lines + more| - 1] == lines + shorter;
    } else {
      assert lines + more == lines;
    }
  }

  /** The reader object; its fields are the collected state. */
  class JobInfoReader {
    var modules: map<string, ModuleInfo>
    var runOrder: seq<string>
    var steps: seq<string>
    var containsTime: bool
    var containsMemory: bool
    var rss: seq<int>

    function State(): JobState
      reads this
    {
      JobState(modules, runOrder, steps, containsTime, containsMemory, rss)
    }

    constructor ()
      ensures State() == EmptyJob
    {
      modules := map[];
      runOrder := [];
      steps := [];
      containsTime := false;
      containsMemory := false;
      rss := [];
    }

    /** The step joins the list of steps, and on an event step the module
        joins the run order, each when not already there. */
    method List(step: string, moduleName: string)
      modifies this
      ensures State() == Listed(old(State()), step, moduleName)
    {
      if step !in steps {
        steps := steps + [step];
      }
      if StartsWith(step, "event") && moduleName !in runOrder {
        runOrder := runOrder + [moduleName];
      }
    }

    method AddStep(columns: seq<string>, inputIsTime: bool) returns (raised: Option<PyError>)
      requires |columns| >= 1
      modifies this
      ensures State() == AfterStep(old(State()), columns, inputIsTime).after
      ensures raised == AfterStep(old(State()), columns, inputIsTime).raised
    {
      ghost var start := State();
      if inputIsTime {
        containsTime := true;
      } else {
        containsMemory := true;
      }
      ghost var flagged := State();
      assert flagged == Flagged(start, inputIsTime);
      if |columns| < 2 {
        return Some(IndexError);
      }
      var moduleName := columns[1];
      var step := columns[0];
      List(step, moduleName);
      ghost var listed := State();
      var currentModule: ModuleInfo;
      if moduleName in modules {
        currentModule := modules[moduleName];
      } else {
        match NewModuleInfo(columns)
        case Raise(e) =>
          assert CurrentModule(listed, columns) == Raise(e);
          return Some(e);
        case Ok(m) =>
          currentModule := m;
          modules := modules[moduleName := currentModule];
      }
      assert CurrentModule(listed, columns) == Ok(currentModule);
      AfterStepTakes(start, columns, inputIsTime, currentModule);
      var taken := TakeStep(currentModule, columns, inputIsTime);
      ReplacedTwice(listed.modules, moduleName, currentModule, taken.after);
      modules := modules[moduleName := taken.after];
      raised := taken.raised;
    }

    method AddFromLine(line: string) returns (raised: Option<PyError>)
      modifies this
      ensures State() == AfterLine(old(State()), line).after
      ensures raised == AfterLine(old(State()), line).raised
    {
      match Classify(line)
      case TimeLine(columns) =>
        raised := AddStep(columns, true);
      case MemoryLine(columns) =>
        raised := AddStep(columns, false);
      case OtherLine(columns) =>
        raised := None;
        if IsRssLine(columns) {
          match ParseNumber(columns[7])
          case None =>
            raised := Some(ValueError(columns[7]));
          case Some(kb) =>
            rss := rss + [kb];
        }
    }

    /** Reads the lines in order and stops at the first exception. */
    method ParseFile(lines: seq<string>) returns (raised: Option<PyError>)
      modifies this
      ensures State() == ParseLines(old(State()), lines).after
      ensures raised == ParseLines(old(State()), lines).raised
    {
      var i := 0;
      raised := None;
      while i < |lines|
        invariant 0 <= i <= |lines|
        invariant ParseLines(old(State()), lines[..i]) == Step(State(), None) && raised.None?
      {
        assert lines[..i + 1][..i] == lines[..i];
        ghost var before := State();
        raised := AddFromLine(lines[i]);
        assert ParseLines(old(State()), lines[..i + 1]) == AfterLine(before, lines[i]);
        if raised.Some? {
          ParseLinesStops(old(State()), lines[..i + 1], lines[i + 1..]);
          assert lines[..i + 1] + lines[i + 1..] == lines;
          return;
        }
        i := i + 1;
      }
      assert lines[..i] == lines;
    }
  }
}

=== FILE: job_info_plot.dfy ===
/** The plotting helpers (scripts/JobInfoPlot.py, with verbatim copies in
    scripts/moduleMemoryPlots.py): rank modules by the largest value of a
    measure over their steps, keep a white-listed, truncated prefix of the
    ranking, and lay each chosen module out as one bin per step, a step the
    module lacks repeating the previous bin.

    Histograms are values here: a name, a title, the bin contents and the
    bin labels. A Python dict is iterated in an order the language does not
    fix; where that order matters it is an input, a list of the dict's keys
    each given once. */
module JobInfoPlot {
  import opened Wrappers
  import opened Text
  import opened JobInfo

  /** The functors the scripts pass: a step's peak, its retained memory,
      its product size, retained less product, and retained less product
      counted as zero for steps without a product. */
  datatype Measure = Peak | Held | ProductSize | HeldLessProduct | RetainedExcludingProduct

  function Value(measure: Measure, log: MemoryLog): int {
    match measure
    case Peak => log.peakMemory
    case Held => log.heldMemory
    case ProductSize => log.productSize
    case HeldLessProduct => log.heldMemory - log.productSize
    case RetainedExcludingProduct => if log.productSize == 0 then 0 else log.heldMemory - log.productSize
  }

  /** What the plotting functions read of a module record: its name and its
      memory steps. */
  datatype Series = Series(name: string, steps: map<string, MemoryLog>)

  function SeriesOf(m: ModuleInfo): Series {
    Series(m.name, m.steps)
  }

  /** `order` lists the keys of `modules`, each once. */
  predicate IsEnumeration<T>(order: seq<string>, modules: map<string, T>) {
    && Distinct(order)
    && (forall k :: 0 <= k < |order| ==> order[k] in modules)
    && (forall n :: n in modules ==> n in order)
  }

  // ---------------------------------------------------------------------
  // The largest value over a module's steps.
  // ---------------------------------------------------------------------

  /** `v` is the largest value of the measure over the steps in `keys`. */
  ghost predicate IsMaximumOver(v: int, keys: set<string>, s: Series, measure: Measure)
    requires keys <= s.steps.Keys
  {
    && (exists k :: k in keys && Value(measure, s.steps[k]) == v)
    && (forall k :: k in keys ==> Value(measure, s.steps[k]) <= v)
  }

  lemma {:induction false} MaximumExists(keys: set<string>, s: Series, measure: Measure)
    requires keys != {} && keys <= s.steps.Keys
    ensures exists v :: IsMaximumOver(v, keys, s, measure)
    decreases keys
  {
    var k :| k in keys;
    var here := Value(measure, s.steps[k]);
    if keys == {k} {
      assert IsMaximumOver(here, keys, s, measure);
    } else {
      MaximumExists(keys - {k}, s, measure);
      var v :| IsMaximumOver(v, keys - {k}, s, measure);
      if here <= v {
        assert IsMaximumOver(v, keys, s, measure);
      } else {
        assert IsMaximumOver(here, keys, s, measure);
      }
    }
  }

  lemma MaximumUnique(v: int, w: int, keys: set<string>, s: Series, measure: Measure)
    requires keys <= s.steps.Keys
    requires IsMaximumOver(v, keys, s, measure) && IsMaximumOver(w, keys, s, measure)
    ensures v == w
  {
  }

  /** The largest value of the measure over all of a module's steps. */
  ghost function Maximum(s: Series, measure: Measure): int
    requires |s.steps| > 0
  {
    MaximumExists(s.steps.Keys, s, measure);
    var v :| IsMaximumOver(v, s.steps.Keys, s, measure);
    v
  }

  lemma MaximumIsMaximum(s: Series, measure: Measure)
    requires |s.steps| > 0
    ensures IsMaximumOver(Maximum(s, measure), s.steps.Keys, s, measure)
  {
    MaximumExists(s.steps.Keys, s, measure);
  }

  /** `max(module.steps, key=...)` and the value at that step: `None` when
      the module has no memory step, where `max` raises. */
  method ModuleMaximum(s: Series, measure: Measure) returns (r: Option<int>)
    ensures r.None? <==> |s.steps| == 0
    ensures r.Some? ==> r.value == Maximum(s, measure)
  {
    if |s.steps| == 0 {
      return None;
    }
    var remaining := s.steps.Keys;
    var first :| first in remaining;
    var best := Value(measure, s.steps[first]);
    remaining := remaining - {first};
    while remaining != {}
      invariant remaining <= s.steps.Keys && first !in remaining
      invariant IsMaximumOver(best, s.steps.Keys - remaining, s, measure)
      decreases remaining
    {
      var k :| k in remaining;
      if Value(measure, s.steps[k]) > best {
        best := Value(measure, s.steps[k]);
      }
      remaining := remaining - {k};
    }
    MaximumIsMaximum(s, measure);
    MaximumUnique(best, Maximum(s, measure), s.steps.Keys, s, measure);
    r := Some(best);
  }

  // ---------------------------------------------------------------------
  // Ranking.
  // ---------------------------------------------------------------------

  /** A name with its score; the slope ranking scores with real numbers. */
  datatype Ranked = Ranked(name: string, score: real)

  predicate SortedDescending(r: seq<Ranked>) {
    forall i, j :: 0 <= i < j < |r| ==> r[i].score >= r[j].score
  }

  function Names(r: seq<Ranked>): (names: seq<string>)
    ensures |names| == |r| && forall k :: 0 <= k < |r| ==> names[k] == r[k].name
  {
    seq(|r|, k requires 0 <= k < |r| => r[k].name)
  }

  /** `x` placed after every entry scoring at least as much. */
  function Insert(x: Ranked, sorted: seq<Ranked>): seq<Ranked>
    decreases |sorted|
  {
    if |sorted| == 0 then [x]
    else if sorted[0].score >= x.score then [sorted[0]] + Insert(x, sorted[1..])
    else [x] + sorted
  }

  /** `sorted(pairs, key=score, reverse=True)`: a stable sort on the score,
      largest first. */
  function RankDescending(pairs: seq<Ranked>): seq<Ranked>
    decreases |pairs|
  {
    if |pairs| == 0 then []
    else Insert(pairs[|pairs| - 1], RankDescending(pairs[..|pairs| - 1]))
  }

  lemma {:induction false} InsertPermutes(x: Ranked, sorted: seq<Ranked>)
    ensures multiset(Insert(x, sorted)) == multiset(sorted) + multiset{x}
    decreases |sorted|
  {
    if |sorted| > 0 && sorted[0].score >= x.score {
      InsertPermutes(x, sorted[1..]);
      assert sorted == [sorted[0]] + sorted[1..];
    }
  }

  lemma {:induction false} InsertKeeps(x: Ranked, sorted: seq<Ranked>)
    requires SortedDescending(sorted)
    ensures SortedDescending(Insert(x, sorted))
    ensures multiset(Insert(x, sorted)) == multiset(sorted) + multiset{x}
    decreases |sorted|
  {
    InsertPermutes(x, sorted);
    if |sorted| > 0 && sorted[0].score >= x.score {
      var tail := sorted[1..];
      assert SortedDescending(tail);
      InsertKeeps(x, tail);
      var rest := Insert(x, tail);
      forall j | 0 <= j < |rest|
        ensures sorted[0].score >= rest[j].score
      {
        assert rest[j] in multiset(tail) + multiset{x};
        if rest[j] != x {
          assert rest[j] in tail;
        }
      }
      assert Insert(x, sorted) == [sorted[0]] + rest;
    }
  }

  /** Ranking sorts by score, largest first, and only rearranges. */
  lemma {:induction false} RankDescendingSorts(pairs: seq<Ranked>)
    ensures SortedDescending(RankDescending(pairs))
    ensures multiset(RankDescending(pairs)) == multiset(pairs)
    decreases |pairs|
  {
    if |pairs| > 0 {
      var prefix := pairs[..|pairs| - 1];
      RankDescendingSorts(prefix);
      InsertKeeps(pairs[|pairs| - 1], RankDescending(prefix));
      assert pairs == prefix + [pairs[|pairs| - 1]];
    }
  }

  lemma {:induction false} InsertKeepsNames(x: Ranked, sorted: seq<Ranked>)
    ensures multiset(Names(Insert(x, sorted))) == multiset(Names(sorted)) + multiset{x.name}
    decreases |sorted|
  {
    if |sorted| > 0 && sorted[0].score >= x.score {
      InsertKeepsNames(x, sorted[1..]);
      NamesInFront(sorted[0], Insert(x, sorted[1..]), sorted[1..], x.name);
      assert [sorted[0]] + sorted[1..] == sorted;
    } else {
      NamesOfCons(x, sorted);
    }
  }

  /** Putting the same entry in front of two lists keeps the difference of
      their names. */
  lemma NamesInFront(first: Ranked, longer: seq<Ranked>, shorter: seq<Ranked>, extra: string)
    requires multiset(Names(longer)) == multiset(Names(shorter)) + multiset{extra}
    ensures multiset(Names([first] + longer)) == multiset(Names([first] + shorter)) + multiset{extra}
  {
    NamesCons(first, longer);
    NamesCons(first, shorter);
  }

  lemma NamesOfCons(x: Ranked, r: seq<Ranked>)
    ensures multiset(Names([x] + r)) == multiset(Names(r)) + multiset{x.name}
  {
    NamesCons(x, r);
  }

  lemma NamesCons(x: Ranked, r: seq<Ranked>)
    ensures Names([x] + r) == [x.name] + Names(r)
  {
    var l := Names([x] + r);
    var m := [x.name] + Names(r);
    assert |l| == |m|;
    forall k | 0 <= k < |l|
      ensures l[k] == m[k]
    {
      if k > 0 {
        assert ([x] + r)[k] == r[k - 1];
      }
    }
  }

  lemma NamesAppend(a: seq<Ranked>, x: Ranked)
    ensures Names(a + [x]) == Names(a) + [x.name]
  {
    var l := Names(a + [x]);
    var r := Names(a) + [x.name];
    assert |l| == |r|;
    forall k | 0 <= k < |l|
      ensures l[k] == r[k]
    {
      assert (a + [x])[k] == if k < |a| then a[k] else x;
    }
  }

  /** Ranking rearranges the names and nothing else. */
  lemma {:induction false} RankDescendingKeepsNames(pairs: seq<Ranked>)
    ensures multiset(Names(RankDescending(pairs))) == multiset(Names(pairs))
    decreases |pairs|
  {
    if |pairs| > 0 {
      var prefix := pairs[..|pairs| - 1];
      var last := pairs[|pairs| - 1];
      RankDescendingKeepsNames(prefix);
      InsertKeepsNames(last, RankDescending(prefix));
      assert pairs == prefix + [last];
      NamesAppend(prefix, last);
    }
  }

  /** The modules listed in order of their largest value. */
  ghost predicate RankedBy(names: seq<string>, modules: map<string, Series>, measure: Measure) {
    && (forall k :: 0 <= k < |names| ==> names[k] in modules && |modules[names[k]].steps| > 0)
    && (forall i, j :: 0 <= i < j < |names| ==>
          Maximum(modules[names[i]], measure) >= Maximum(modules[names[j]], measure))
  }

  /** Ranking the pairs of each module and its largest value ranks the
      modules. */
  lemma RankingOfMaxima(maxima: seq<Ranked>, modules: map<string, Series>, order: seq<string>, measure: Measure)
    requires |maxima| == |order|
    requires forall k :: 0 <= k < |order| ==> order[k] in modules && |modules[order[k]].steps| > 0
    requires forall k :: 0 <= k < |order| ==> maxima[k] == Ranked(order[k], Maximum(modules[order[k]], measure) as real)
    ensures multiset(Names(RankDescending(maxima))) == multiset(order)
    ensures RankedBy(Names(RankDescending(maxima)), modules, measure)
  {
    var ranked := RankDescending(maxima);
    RankDescendingSorts(maxima);
    RankDescendingKeepsNames(maxima);
    assert Names(maxima) == order;
    forall k | 0 <= k < |ranked|
      ensures ranked[k].name in modules && |modules[ranked[k].name].steps| > 0
      ensures ranked[k].score == Maximum(modules[ranked[k].name], measure) as real
    {
      assert ranked[k] in multiset(maxima);
      var j :| 0 <= j < |maxima| && maxima[j] == ranked[k];
    }
    ScoresRank(ranked, modules, measure);
  }

  lemma ScoresRank(ranked: seq<Ranked>, modules: map<string, Series>, measure: Measure)
    requires SortedDescending(ranked)
    requires forall k :: 0 <= k < |ranked| ==> ranked[k].name in modules && |modules[ranked[k].name].steps| > 0
    requires forall k :: 0 <= k < |ranked| ==> ranked[k].score == Maximum(modules[ranked[k].name], measure) as real
    ensures RankedBy(Names(ranked), modules, measure)
  {
    var names := Names(ranked);
    forall i, j | 0 <= i < j < |names|
      ensures Maximum(modules[names[i]], measure) >= Maximum(modules[names[j]], measure)
    {
      assert names[i] == ranked[i].name && names[j] == ranked[j].name;
      assert ranked[i].score >= ranked[j].score;
    }
  }

  /** `orderModulesByMaximumValue`: every module, largest maximum first;
      `None` when a module has no memory step (`max` raises). `order` is the
      dict's iteration order. */
  method OrderModulesByMaximumValue(modules: map<string, Series>, order: seq<string>, measure: Measure)
    returns (r: Option<seq<string>>)
    requires IsEnumeration(order, modules)
    ensures r.None? <==> exists k :: 0 <= k < |order| && |modules[order[k]].steps| == 0
    ensures r.Some? ==> multiset(r.value) == multiset(order) && RankedBy(r.value, modules, measure)
  {
    var maximaForModules: seq<Ranked> := [];
    var i := 0;
    while i < |order|
      invariant 0 <= i <= |order| && |maximaForModules| == i
      invariant forall k :: 0 <= k < i ==> |modules[order[k]].steps| > 0
      invariant forall k :: 0 <= k < i ==> maximaForModules[k] == Ranked(order[k], Maximum(modules[order[k]], measure) as real)
    {
      var m := ModuleMaximum(modules[order[i]], measure);
      if m.None? {
        return None;
      }
      maximaForModules := maximaForModules + [Ranked(order[i], m.value as real)];
      i := i + 1;
    }
    RankingOfMaxima(maximaForModules, modules, order, measure);
    r := Some(Names(RankDescending(maximaForModules)));
  }

  // ---------------------------------------------------------------------
  // Choosing the modules to plot.
  // ---------------------------------------------------------------------

  /** The names that are on the white list, in their order; all of them
      when there is no list. */
  function WhiteListed(names: seq<string>, whiteList: Option<seq<string>>): (r: seq<string>)
    ensures whiteList.None? ==> r == names
    ensures whiteList.Some? ==> forall x :: x in r <==> x in names && x in whiteList.value
    ensures |r| <= |names|
    decreases |names|
  {
    if whiteList.None? || |names| == 0 then names
    else
      var rest := WhiteListed(names[..|names| - 1], whiteList);
      if names[|names| - 1] in whiteList.value then rest + [names[|names| - 1]] else rest
  }

  /** Filtering keeps the ranking. */
  lemma {:induction false} WhiteListedKeepsRank(names: seq<string>, whiteList: Option<seq<string>>,
                                                modules: map<string, Series>, measure: Measure)
    requires RankedBy(names, modules, measure)
    ensures RankedBy(WhiteListed(names, whiteList), modules, measure)
    decreases |names|
  {
    if whiteList.Some? && |names| > 0 {
      var prefix := names[..|names| - 1];
      assert RankedBy(prefix, modules, measure);
      WhiteListedKeepsRank(prefix, whiteList, modules, measure);
      var rest := WhiteListed(prefix, whiteList);
      var last := names[|names| - 1];
      if last in whiteList.value {
        forall i | 0 <= i < |rest|
          ensures Maximum(modules[rest[i]], measure) >= Maximum(modules[last], measure)
        {
          assert rest[i] in prefix;
        }
      }
    }
  }

  /** Python's `s[:n]`: a negative `n` counts from the end. */
  function SliceTo(s: seq<string>, n: int): (r: seq<string>)
    ensures |r| <= |s| && r == s[..|r|]
    ensures 0 <= n ==> |r| == if n < |s| then n else |s|
  {
    if n >= 0 then (if n < |s| then s[..n] else s)
    else if |s| + n >= 0 then s[..|s| + n] else []
  }

  /** The limit is applied only when a number is given and it is smaller
      than the list. */
  function Limited(s: seq<string>, numberToPlot: Option<int>): (r: seq<string>)
    ensures numberToPlot.None? ==> r == s
    ensures numberToPlot.Some? && 0 <= numberToPlot.value ==>
              r == s[..if numberToPlot.value < |s| then numberToPlot.value else |s|]
  {
    if numberToPlot.Some? && numberToPlot.value < |s| then SliceTo(s, numberToPlot.value) else s
  }

  /** The selection part of `createPlotForMaximumModules`. */
  method SubsetToPlot(moduleNames: seq<string>, whiteList: Option<seq<string>>, numberToPlot: Option<int>)
    returns (subset: seq<string>)
    ensures subset == Limited(WhiteListed(moduleNames, whiteList), numberToPlot)
  {
    if whiteList.None? {
      subset := moduleNames;
    } else {
      subset := [];
      var i := 0;
      while i < |moduleNames|
        invariant 0 <= i <= |moduleNames|
        invariant subset == WhiteListed(moduleNames[..i], whiteList)
      {
        assert moduleNames[..i + 1][..i] == moduleNames[..i];
        if moduleNames[i] in whiteList.value {
          subset := subset + [moduleNames[i]];
        }
        i := i + 1;
      }
      assert moduleNames[..i] == moduleNames;
    }
    if numberToPlot.Some? && numberToPlot.value < |subset| {
      subset := SliceTo(subset, numberToPlot.value);
    }
  }

  /** A prefix of a ranking is ranked. */
  lemma LimitedKeepsRank(names: seq<string>, numberToPlot: Option<int>, modules: map<string, Series>, measure: Measure)
    requires RankedBy(names, modules, measure)
    ensures RankedBy(Limited(names, numberToPlot), modules, measure)
  {
    var r := Limited(names, numberToPlot);
    assert r == names[..|r|];
  }

  // ---------------------------------------------------------------------
  // Laying out one module.
  // ---------------------------------------------------------------------

  /** The bin contents for one module over the job's steps: the module's
      value where it has the step, otherwise the previous bin's, zero
      before the first. */
  function Bins(s: Series, steps: seq<string>, measure: Measure): (bins: seq<int>)
    ensures |bins| == |steps|
    decreases |steps|
  {
    if |steps| == 0 then []
    else
      var before := Bins(s, steps[..|steps| - 1], measure);
      var last := steps[|steps| - 1];
      before + [if last in s.steps then Value(measure, s.steps[last])
                else if |before| == 0 then 0 else before[|before| - 1]]
  }

  /** Each bin holds the value of the latest step up to it that the module
      has, or zero when it has none of them. */
  lemma {:induction false} BinsCarryForward(s: Series, steps: seq<string>, measure: Measure)
    ensures forall i, j :: 0 <= j <= i < |steps| && steps[j] in s.steps
                           && (forall k :: j < k <= i ==> steps[k] !in s.steps) ==>
              Bins(s, steps, measure)[i] == Value(measure, s.steps[steps[j]])
    ensures forall i :: 0 <= i < |steps| && (forall k :: 0 <= k <= i ==> steps[k] !in s.steps) ==>
              Bins(s, steps, measure)[i] == 0
    decreases |steps|
  {
    if |steps| > 0 {
      var prefix := steps[..|steps| - 1];
      BinsCarryForward(s, prefix, measure);
      var bins := Bins(s, steps, measure);
      var before := Bins(s, prefix, measure);
      assert forall i :: 0 <= i < |prefix| ==> bins[i] == before[i];
      assert forall k :: 0 <= k < |prefix| ==> prefix[k] == steps[k];
    }
  }

  /** The retained-excluding-product plot of a module whose every step
      recorded a product is its retained-less-product plot; for a module
      none of whose steps recorded one, every bin is zero. */
  lemma {:induction false} RetainedExcludingProductBins(s: Series, steps: seq<string>)
    ensures (forall k :: k in s.steps ==> s.steps[k].productSize != 0) ==>
              Bins(s, steps, RetainedExcludingProduct) == Bins(s, steps, HeldLessProduct)
    ensures (forall k :: k in s.steps ==> s.steps[k].productSize == 0) ==>
              forall i :: 0 <= i < |steps| ==> Bins(s, steps, RetainedExcludingProduct)[i] == 0
    decreases |steps|
  {
    if |steps| > 0 {
      RetainedExcludingProductBins(s, steps[..|steps| - 1]);
    }
  }

  /** The inner loop of `createPlot`, carrying `lastValue`. */
  method CarryForward(s: Series, steps: seq<string>, measure: Measure) returns (bins: seq<int>)
    ensures bins == Bins(s, steps, measure)
  {
    bins := [];
    var lastValue := 0;
    var index := 0;
    while index < |steps|
      invariant 0 <= index <= |steps|
      invariant bins == Bins(s, steps[..index], measure)
      invariant lastValue == if index == 0 then 0 else bins[index - 1]
    {
      assert steps[..index + 1][..index] == steps[..index];
      var stepName := steps[index];
      if stepName in s.steps {
        bins := bins + [Value(measure, s.steps[stepName])];
        lastValue := Value(measure, s.steps[stepName]);
      } else {
        bins := bins + [lastValue];
      }
      index := index + 1;
    }
    assert steps[..index] == steps;
  }

  /** One histogram: its name, its title, and per bin a content and a
      label. */
  datatype Histogram = Histogram(name: string, title: string, contents: seq<int>, labels: seq<string>)

  /** The name prefix of a plot's histograms: the title with spaces made
      underscores, or the random text when there is no title. */
  function UniqueName(title: string, randomText: string): (u: string)
    ensures title != "" ==> |u| == |title| && ' ' !in u
    ensures title != "" ==> forall i :: 0 <= i < |u| ==> u[i] == if title[i] == ' ' then '_' else title[i]
    ensures title == "" ==> u == "plots" + randomText
  {
    if title != "" then ReplaceChar(title, ' ', '_') else "plots" + randomText
  }

  /** The histogram `createPlot` fills for the module at `index`: every bin
      is labelled with its step. */
  function HistogramFor(s: Series, steps: seq<string>, measure: Measure, uniqueName: string, index: nat): Histogram {
    Histogram(WithSuffix(uniqueName, index), s.name, Bins(s, steps, measure), steps)
  }

  /** `createPlot`: one histogram per named module, in order. */
  method CreatePlot(modules: map<string, Series>, steps: seq<string>, moduleNames: seq<string>,
                    measure: Measure, title: string, randomText: string)
    returns (plots: seq<Histogram>)
    requires forall k :: 0 <= k < |moduleNames| ==> moduleNames[k] in modules
    ensures |plots| == |moduleNames|
    ensures forall k :: 0 <= k < |moduleNames| ==>
              plots[k] == HistogramFor(modules[moduleNames[k]], steps, measure, UniqueName(title, randomText), k)
    ensures forall i, j :: 0 <= i < j < |plots| ==> plots[i].name != plots[j].name
  {
    var uniqueName := UniqueName(title, randomText);
    plots := [];
    var moduleIndex := 0;
    while moduleIndex < |moduleNames|
      invariant 0 <= moduleIndex <= |moduleNames| && |plots| == moduleIndex
      invariant forall k :: 0 <= k < moduleIndex ==>
                  plots[k] == HistogramFor(modules[moduleNames[k]], steps, measure, uniqueName, k)
    {
      var series := modules[moduleNames[moduleIndex]];
      var contents := CarryForward(series, steps, measure);
      plots := plots + [Histogram(WithSuffix(uniqueName, |plots|), series.name, contents, steps)];
      moduleIndex := moduleIndex + 1;
    }
    forall i, j | 0 <= i < j < |plots|
      ensures plots[i].name != plots[j].name
    {
      WithSuffixInjective(uniqueName, i, j);
    }
  }

  /** `chosen` is ranked by the largest value and, when a white list is
      given, holds only names on it. */
  ghost predicate Chosen(chosen: seq<string>, modules: map<string, Series>, measure: Measure,
                         whiteList: Option<seq<string>>)
  {
    && RankedBy(chosen, modules, measure)
    && (whiteList.Some? ==> forall x :: x in chosen ==> x in whiteList.value)
  }

  /** White-listing and then limiting a ranking chooses modules. */
  lemma SelectionIsChosen(names: seq<string>, whiteList: Option<seq<string>>, numberToPlot: Option<int>,
                          modules: map<string, Series>, measure: Measure)
    requires RankedBy(names, modules, measure)
    ensures Chosen(Limited(WhiteListed(names, whiteList), numberToPlot), modules, measure, whiteList)
  {
    var filtered := WhiteListed(names, whiteList);
    WhiteListedKeepsRank(names, whiteList, modules, measure);
    LimitedKeepsRank(filtered, numberToPlot, modules, measure);
    var subset := Limited(filtered, numberToPlot);
    assert subset == filtered[..|subset|];
    assert forall x :: x in subset ==> x in filtered;
  }

  /** `plots` lays out the `chosen` modules in order. */
  ghost predicate LaysOut(plots: seq<Histogram>, chosen: seq<string>, modules: map<string, Series>,
                          steps: seq<string>, measure: Measure, uniqueName: string)
  {
    && |plots| == |chosen|
    && forall k :: 0 <= k < |chosen| ==>
         chosen[k] in modules && plots[k] == HistogramFor(modules[chosen[k]], steps, measure, uniqueName, k)
  }

  /** `createPlotForMaximumModules`: rank, select, lay out. `None` when the
      ranking raises. */
  method CreatePlotForMaximumModules(modules: map<string, Series>, order: seq<string>, steps: seq<string>,
                                     measure: Measure, title: string, numberToPlot: Option<int>,
                                     whiteList: Option<seq<string>>, randomText: string)
    returns (r: Option<seq<Histogram>>)
    requires IsEnumeration(order, modules)
    ensures r.None? <==> exists k :: 0 <= k < |order| && |modules[order[k]].steps| == 0
    ensures r.Some? && numberToPlot.Some? && numberToPlot.value >= 0 ==> |r.value| <= numberToPlot.value
    ensures r.Some? ==>
              exists chosen: seq<string> ::
                Chosen(chosen, modules, measure, whiteList)
                && LaysOut(r.value, chosen, modules, steps, measure, UniqueName(title, randomText))
    ensures r.Some? ==>
              exists ranking: seq<string> ::
                && multiset(ranking) == multiset(order) && RankedBy(ranking, modules, measure)
                && LaysOut(r.value, Limited(WhiteListed(ranking, whiteList), numberToPlot), modules, steps, measure,
                           UniqueName(title, randomText))
  {
    var moduleNames := OrderModulesByMaximumValue(modules, order, measure);
    if moduleNames.None? {
      return None;
    }
    var subset := SubsetToPlot(moduleNames.value, whiteList, numberToPlot);
    SelectionIsChosen(moduleNames.value, whiteList, numberToPlot, modules, measure);
    var plots := CreatePlot(modules, steps, subset, measure, title, randomText);
    assert LaysOut(plots, subset, modules, steps, measure, UniqueName(title, randomText));
    r := Some(plots);
  }

  /** The labels of one histogram after trimming. */
  function TrimmedLabels(labels: seq<string>, binLabelEvery: int): (r: seq<string>)
    requires binLabelEvery != 0
    ensures |r| == |labels|
    ensures forall i :: 0 <= i < |labels| ==> r[i] == if i % binLabelEvery == 0 then labels[i] else ""
  {
    seq(|labels|, i requires 0 <= i < |labels| => if i % binLabelEvery == 0 then labels[i] else "")
  }

  /** `trimBinLabels`: only every `binLabelEvery`-th label is kept, counting
      from the first bin; nothing but the labels changes. A zero step
      raises on the first bin there is (`None`). */
  function TrimBinLabels(plots: seq<Histogram>, binLabelEvery: int): (r: Option<seq<Histogram>>)
    ensures r.None? <==> binLabelEvery == 0 && exists p :: 0 <= p < |plots| && |plots[p].labels| > 0
    ensures r.Some? ==> |r.value| == |plots|
    ensures r.Some? ==>
              forall p :: 0 <= p < |plots| ==>
                && r.value[p].name == plots[p].name && r.value[p].title == plots[p].title
                && r.value[p].contents == plots[p].contents
                && |r.value[p].labels| == |plots[p].labels|
                && forall i :: 0 <= i < |plots[p].labels| ==>
                     r.value[p].labels[i] == if binLabelEvery != 0 && i % binLabelEvery == 0 then plots[p].labels[i] else ""
  {
    if binLabelEvery == 0 then
      if exists p :: 0 <= p < |plots| && |plots[p].labels| > 0 then None else Some(plots)
    else
      Some(seq(|plots|, p requires 0 <= p < |plots| =>
                 plots[p].(labels := TrimmedLabels(plots[p].labels, binLabelEvery))))
  }
}

=== FILE: memcounter.dfy ===
/** The external memory counter (external/memcounter/IMemoryCounter.h): an
    object that, while enabled, tracks the size and number of the memory
    blocks allocated, and the high-water mark of the size since the last
    `resetMaximum`. The counting itself happens in a preloaded library that
    is not part of this model; `Allocate` and `Release` stand for what that
    library records, as the header documents it. */
module MemCounter {
  import opened Wrappers

  /** Everything a counter reports. */
  datatype CounterState = CounterState(
    enabled: bool,
    currentSize: int,
    maximumSize: int,
    currentNumberOfAllocations: int,
    maximumNumberOfAllocations: int)

  /** The high-water mark is never below the current size. */
  predicate Consistent(s: CounterState) {
    s.currentSize <= s.maximumSize
  }

  function WithEnabled(s: CounterState, enable: bool): (r: CounterState)
    ensures r.enabled == enable
    ensures r.(enabled := s.enabled) == s
  {
    s.(enabled := enable)
  }

  /** Sets the maxima to the current values and leaves everything else intact. */
  function MaximumReset(s: CounterState): (r: CounterState)
    ensures r.maximumSize == s.currentSize
    ensures r.maximumNumberOfAllocations == s.currentNumberOfAllocations
    ensures r.enabled == s.enabled && r.currentSize == s.currentSize
    ensures r.currentNumberOfAllocations == s.currentNumberOfAllocations
    ensures Consistent(r)
  {
    s.(maximumSize := s.currentSize, maximumNumberOfAllocations := s.currentNumberOfAllocations)
  }

  /** One allocation of `size` bytes. While enabled it is one more outstanding
      allocation; when the size passes the high-water mark, the mark moves and
      the allocation count at that moment is remembered. A disabled counter
      records nothing. */
  function Allocated(s: CounterState, size: nat): (r: CounterState)
    requires Consistent(s)
    ensures Consistent(r)
    ensures !s.enabled ==> r == s
    ensures s.enabled ==>
              r.currentSize == s.currentSize + size && r.currentNumberOfAllocations == s.currentNumberOfAllocations + 1
    ensures r.enabled == s.enabled
    ensures r.maximumSize == if r.currentSize > s.maximumSize then r.currentSize else s.maximumSize
    ensures r.maximumSize != s.maximumSize ==>
              r.maximumSize == r.currentSize && r.maximumNumberOfAllocations == r.currentNumberOfAllocations
    ensures r.maximumSize == s.maximumSize ==> r.maximumNumberOfAllocations == s.maximumNumberOfAllocations
  {
    if !s.enabled then s
    else
      var cur := s.currentSize + size;
      var allocs := s.currentNumberOfAllocations + 1;
      if cur > s.maximumSize then
        s.(currentSize := cur, currentNumberOfAllocations := allocs,
           maximumSize := cur, maximumNumberOfAllocations := allocs)
      else
        s.(currentSize := cur, currentNumberOfAllocations := allocs)
  }

  /** Release of a block of `size` bytes. A block the counter counted
      stops being outstanding whether or not the counter is enabled at the
      time it is freed; a block it never counted (allocated while it was
      disabled) leaves it unchanged. The high-water mark is untouched. */
  function Released(s: CounterState, size: nat, counted: bool): (r: CounterState)
    requires Consistent(s)
    ensures Consistent(r)
    ensures r.enabled == s.enabled
    ensures r.maximumSize == s.maximumSize && r.maximumNumberOfAllocations == s.maximumNumberOfAllocations
    ensures counted ==>
              r.currentSize == s.currentSize - size && r.currentNumberOfAllocations == s.currentNumberOfAllocations - 1
    ensures !counted ==> r == s
  {
    if !counted then s
    else s.(currentSize := s.currentSize - size,
            currentNumberOfAllocations := s.currentNumberOfAllocations - 1)
  }

  /** One thing the counting library can record between two reads. */
  datatype Change = AllocationOf(size: nat) | ReleaseOf(size: nat, counted: bool)

  function AfterChange(s: CounterState, c: Change): CounterState
    requires Consistent(s)
  {
    match c
    case AllocationOf(size) => Allocated(s, size)
    case ReleaseOf(size, counted) => Released(s, size, counted)
  }

  /** The state after `changes`, oldest first. */
  function Applied(s: CounterState, changes: seq<Change>): (r: CounterState)
    requires Consistent(s)
    ensures Consistent(r) && r.enabled == s.enabled
    decreases |changes|
  {
    if |changes| == 0 then s
    else AfterChange(Applied(s, changes[..|changes| - 1]), changes[|changes| - 1])
  }

  /** The bytes of counted blocks released by `changes`. */
  function CountedFreed(changes: seq<Change>): int
    decreases |changes|
  {
    if |changes| == 0 then 0
    else
      var c := changes[|changes| - 1];
      CountedFreed(changes[..|changes| - 1]) + (if c.ReleaseOf? && c.counted then c.size else 0)
  }

  /** While a counter is disabled its size only goes down, by exactly the
      counted blocks released: allocations are not attributed to it. */
  lemma {:induction false} DisabledCounterOnlyLosesReleases(s: CounterState, changes: seq<Change>)
    requires Consistent(s) && !s.enabled
    ensures Applied(s, changes).currentSize == s.currentSize - CountedFreed(changes)
    decreases |changes|
  {
    if |changes| > 0 {
      DisabledCounterOnlyLosesReleases(s, changes[..|changes| - 1]);
    }
  }

  /** The allocation count reported with the maximum is the count at the
      moment of the maximum size, not the largest count seen: after one
      100-byte block is freed and two 10-byte blocks are allocated, two
      allocations are outstanding but the maximum still reports one. */
  lemma MaximumAllocationsIsNotMaximumCount()
    ensures var s0 := CounterState(true, 0, 0, 0, 0);
            var s := Allocated(Allocated(Released(Allocated(s0, 100), 100, true), 10), 10);
            s.currentNumberOfAllocations == 2 && s.maximumNumberOfAllocations == 1
            && s.maximumSize == 100 && s.currentSize == 20
  {
  }

  /** Resetting the maximum twice is the same as resetting it once. */
  lemma MaximumResetIdempotent(s: CounterState)
    ensures MaximumReset(MaximumReset(s)) == MaximumReset(s)
  {
  }

  /** A counter handle (`IMemoryCounter`). The fields are what its read
      accessors return. */
  class MemoryCounter {
    var enabled: bool
    var currentSize: int
    var maximumSize: int
    var currentNumberOfAllocations: int
    var maximumNumberOfAllocations: int

    function State(): CounterState
      reads this
    {
      CounterState(enabled, currentSize, maximumSize, currentNumberOfAllocations, maximumNumberOfAllocations)
    }

    ghost predicate Valid()
      reads this
    {
      Consistent(State())
    }

    /** A counter as the model starts one: disabled, nothing counted. */
    constructor ()
      ensures Valid() && State() == CounterState(false, 0, 0, 0, 0)
    {
      enabled, currentSize, maximumSize := false, 0, 0;
      currentNumberOfAllocations, maximumNumberOfAllocations := 0, 0;
    }

    /** Returns the state before the call. */
    method SetEnabled(enable: bool) returns (wasEnabled: bool)
      requires Valid()
      modifies this
      ensures Valid() && wasEnabled == old(enabled)
      ensures State() == WithEnabled(old(State()), enable)
    {
      wasEnabled := enabled;
      enabled := enable;
    }

    method IsEnabled() returns (r: bool)
      ensures r == enabled
    {
      r := enabled;
    }

    method Enable()
      requires Valid()
      modifies this
      ensures Valid() && State() == WithEnabled(old(State()), true)
    {
      enabled := true;
    }

    method Disable()
      requires Valid()
      modifies this
      ensures Valid() && State() == WithEnabled(old(State()), false)
    {
      enabled := false;
    }

    method ResetMaximum()
      requires Valid()
      modifies this
      ensures Valid() && State() == MaximumReset(old(State()))
    {
      maximumSize := currentSize;
      maximumNumberOfAllocations := currentNumberOfAllocations;
    }

    /** What the counting library records for one allocation. */
    method Allocate(size: nat)
      requires Valid()
      modifies this
      ensures Valid() && State() == Allocated(old(State()), size)
    {
      if enabled {
        currentSize := currentSize + size;
        currentNumberOfAllocations := currentNumberOfAllocations + 1;
        if currentSize > maximumSize {
          maximumSize := currentSize;
          maximumNumberOfAllocations := currentNumberOfAllocations;
        }
      }
    }

    /** What the counting library records for one release; `counted` says
        whether the block was counted by this counter. */
    method Release(size: nat, counted: bool)
      requires Valid()
      modifies this
      ensures Valid() && State() == Released(old(State()), size, counted)
    {
      if counted {
        currentSize := currentSize - size;
        currentNumberOfAllocations := currentNumberOfAllocations - 1;
      }
    }

    /** What the counting library records for `changes`, oldest first. */
    method Record(changes: seq<Change>)
      requires Valid()
      modifies this
      ensures Valid() && State() == Applied(old(State()), changes)
    {
      var i := 0;
      while i < |changes|
        invariant 0 <= i <= |changes|
        invariant Valid() && State() == Applied(old(State()), changes[..i])
      {
        assert changes[..i + 1][..i] == changes[..i];
        match changes[i] {
          case AllocationOf(size) => Allocate(size);
          case ReleaseOf(size, counted) => Release(size, counted);
        }
        i := i + 1;
      }
      assert changes[..i] == changes;
    }
  }

  /** `IMemoryCounter::createNew`: `symbolFactory` is what the lookup of the
      `createNewMemoryCounter` symbol yields (`None` when the symbol is
      absent) and, when present, the counter that factory returns, which may
      itself be null. */
  method CreateNew(symbolFactory: Option<MemoryCounter?>) returns (counter: MemoryCounter?)
    ensures symbolFactory.None? ==> counter == null
    ensures symbolFactory.Some? ==> counter == symbolFactory.value
  {
    counter := null;
    if symbolFactory.Some? {
      counter := symbolFactory.value;
    }
  }
}

=== FILE: memory_counter_plugin.dfy ===
/** The older memory-counter service (plugins/MemoryCounter.cc): one counter
    per admitted module, enabled on entering a phase, and on leaving it
    disabled, reported in a seven-field `*MEMCOUNTER*` line and given a fresh
    maximum. It keeps no previous sample and counts only events. */
module MemoryCounterPlugin {
  import opened Wrappers
  import opened Text
  import opened MemCounter
  import opened Framework
  import opened MemoryCounterService

  /** The method name in the verbose message on entering `phase`. */
  function EntryWord(phase: Phase): string
    requires phase != Construction
  {
    match phase
    case BeginJob => "beginJob"
    case BeginRun => "beginRun"
    case BeginLumi => "beginLuminosityBlock"
    case Event => "analyze"
    case EndLumi => "endLuminosityBlock"
    case EndRun => "endRun"
    case EndJob => "endJob"
  }

  /** The exit line: the engine's line without a previous sample. */
  function ExitLine(phase: Phase, eventNumber: nat, d: ModuleDescription, s: CounterState): string {
    ReportLine(ExitLabel(phase, eventNumber), d, s, "", Unset)
  }

  /** Every exit line of this service has exactly the seven leading fields
      of the engine's line, whatever the counter reads. */
  lemma ExitLineHasSevenFields(phase: Phase, eventNumber: nat, d: ModuleDescription, s: CounterState)
    requires NoComma(d.moduleLabel) && NoComma(d.moduleName)
    ensures var line := ExitLine(phase, eventNumber, d, s);
            StartsWith(line, ReportPrefix) && |Split(line[|ReportPrefix|..], ',')| == 7
  {
    ExitLabelHasNoComma(phase, eventNumber);
    ReportLineFields(ExitLabel(phase, eventNumber), d, s, "", Unset);
  }

  class MemoryCounterPlugin {
    var hooksRegistered: bool
    var memoryCounters: map<string, MemoryCounter>
    var eventNumber: nat
    var modulesToAnalyse: seq<string>
    var verbose: bool
    var out: seq<string>
    var err: seq<string>
    ghost var Repr: set<MemoryCounter>

    ghost predicate Valid()
      reads this, Repr
    {
      && (forall l :: l in memoryCounters ==> memoryCounters[l] in Repr)
      && (forall c :: c in Repr ==> c.Valid())
      && (forall l, m :: l in memoryCounters && m in memoryCounters && l != m ==> memoryCounters[l] != memoryCounters[m])
      && eventNumber >= 1
    }

    function CounterOf(moduleLabel: string): set<MemoryCounter>
      reads this
    {
      if moduleLabel in memoryCounters then {memoryCounters[moduleLabel]} else {}
    }

    /** As for the engine: `symbolFound` decides whether any hook is
        registered. */
    constructor (symbolFound: bool, modulesToAnalyseParameter: Option<seq<string>>, verboseParameter: Option<bool>)
      ensures Valid() && Repr == {}
      ensures hooksRegistered == symbolFound && memoryCounters == map[] && eventNumber == 1
      ensures modulesToAnalyse == (if symbolFound then modulesToAnalyseParameter.GetOr([]) else [])
      ensures verbose == (symbolFound && verboseParameter == Some(true))
      ensures out == (if symbolFound && modulesToAnalyseParameter.None? then [AllModulesLine] else [])
      ensures err == (if symbolFound then [] else MissingSymbolLines)
    {
      hooksRegistered := symbolFound;
      memoryCounters := map[];
      eventNumber := 1;
      modulesToAnalyse := [];
      verbose := false;
      out, err := [], [];
      Repr := {};
      if symbolFound {
        if modulesToAnalyseParameter.Some? {
          modulesToAnalyse := modulesToAnalyseParameter.value;
        } else {
          out := out + [AllModulesLine];
        }
        if verboseParameter.Some? {
          verbose := verboseParameter.value;
        }
      } else {
        err := MissingSymbolLines;
      }
    }

    /** The copy constructor: the same table (sharing its counters), counter
        and settings. The copy is not registered with the framework. */
    constructor Copy(other: MemoryCounterPlugin)
      requires other.Valid()
      ensures Valid() && Repr == other.Repr
      ensures !hooksRegistered && out == [] && err == []
      ensures memoryCounters == other.memoryCounters && eventNumber == other.eventNumber
      ensures modulesToAnalyse == other.modulesToAnalyse && verbose == other.verbose
    {
      hooksRegistered := false;
      memoryCounters := other.memoryCounters;
      eventNumber := other.eventNumber;
      modulesToAnalyse := other.modulesToAnalyse;
      verbose := other.verbose;
      out, err := [], [];
      Repr := other.Repr;
    }

    /** Assignment copies the other service's state; assigning a service to
        itself therefore leaves it as it was. */
    method Assign(other: MemoryCounterPlugin)
      requires Valid() && other.Valid()
      modifies this`memoryCounters, this`eventNumber, this`modulesToAnalyse, this`verbose, this`Repr
      ensures Valid()
      ensures memoryCounters == old(other.memoryCounters) && eventNumber == old(other.eventNumber)
      ensures modulesToAnalyse == old(other.modulesToAnalyse) && verbose == old(other.verbose)
      ensures Repr == old(other.Repr)
    {
      if other == this {
        return;
      }
      memoryCounters := other.memoryCounters;
      eventNumber := other.eventNumber;
      modulesToAnalyse := other.modulesToAnalyse;
      verbose := other.verbose;
      Repr := other.Repr;
    }

    /** The pre-construction hook: the same admission rule as the engine,
        but the new counter is enabled without resetting its maximum. */
    method PreModuleConstruction(d: ModuleDescription, created: MemoryCounter?)
      requires Valid()
      requires created != null ==> created !in Repr && created.Valid()
      modifies this`memoryCounters, this`out, this`Repr, if created != null then {created} else {}
      ensures Valid()
      ensures !hooksRegistered ==> memoryCounters == old(memoryCounters) && out == old(out)
      ensures hooksRegistered && !Admitted(modulesToAnalyse, d.moduleLabel) ==>
                memoryCounters == old(memoryCounters) && out == old(out) + [NotEnabledLine(d.moduleLabel)]
      ensures hooksRegistered && Admitted(modulesToAnalyse, d.moduleLabel) && created == null ==>
                memoryCounters == old(memoryCounters) && out == old(out) + [NoPointerLine(d.moduleLabel)]
      ensures hooksRegistered && Admitted(modulesToAnalyse, d.moduleLabel) && created != null ==>
                && memoryCounters == (if d.moduleLabel in old(memoryCounters) then old(memoryCounters)
                                      else old(memoryCounters)[d.moduleLabel := created])
                && out == old(out) + (if verbose then [EnablingOfTypeLine(d)] else [])
                && created.State() == WithEnabled(old(created.State()), true)
    {
      if !hooksRegistered {
        return;
      }
      if Admitted(modulesToAnalyse, d.moduleLabel) {
        if created != null {
          if d.moduleLabel !in memoryCounters {
            memoryCounters := memoryCounters[d.moduleLabel := created];
            Repr := Repr + {created};
          }
          if verbose {
            out := out + [EnablingOfTypeLine(d)];
          }
          created.Enable();
        } else {
          out := out + [NoPointerLine(d.moduleLabel)];
        }
      } else {
        out := out + [NotEnabledLine(d.moduleLabel)];
      }
    }

    /** The pre hook of every phase but construction: only enables. */
    method PreModule(d: ModuleDescription, phase: Phase)
      requires Valid() && phase != Construction
      modifies this`out, CounterOf(d.moduleLabel)
      ensures Valid()
      ensures !(hooksRegistered && d.moduleLabel in memoryCounters) ==> out == old(out)
      ensures hooksRegistered && d.moduleLabel in memoryCounters ==>
                var c := memoryCounters[d.moduleLabel];
                && c.State() == WithEnabled(old(c.State()), true)
                && out == old(out) + (if verbose then [EnablingInMethodLine(d.moduleLabel, EntryWord(phase))] else [])
    {
      if hooksRegistered && d.moduleLabel in memoryCounters {
        var c := memoryCounters[d.moduleLabel];
        if verbose {
          out := out + [EnablingInMethodLine(d.moduleLabel, EntryWord(phase))];
        }
        c.Enable();
      }
    }

    /** The post hook of every phase: disable, report, reset the maximum. */
    method PostModule(d: ModuleDescription, phase: Phase)
      requires Valid()
      modifies this`out, CounterOf(d.moduleLabel)
      ensures Valid()
      ensures !(hooksRegistered && d.moduleLabel in memoryCounters) ==> out == old(out)
      ensures hooksRegistered && d.moduleLabel in memoryCounters ==>
                var c := memoryCounters[d.moduleLabel];
                var disabled := WithEnabled(old(c.State()), false);
                && out == old(out) + [ExitLine(phase, eventNumber, d, disabled)]
                && c.State() == MaximumReset(disabled)
    {
      if hooksRegistered && d.moduleLabel in memoryCounters {
        var c := memoryCounters[d.moduleLabel];
        c.Disable();
        out := out + [ExitLine(phase, eventNumber, d, c.State())];
        c.ResetMaximum();
      }
    }

    method PostProcessEvent()
      requires Valid()
      modifies this`eventNumber
      ensures Valid() && eventNumber == old(eventNumber) + (if hooksRegistered then 1 else 0)
    {
      if hooksRegistered {
        eventNumber := eventNumber + 1;
      }
    }
  }
}

=== FILE: memory_counter_service.dfy ===
/** The memory-counter phase engine (src/MemoryCounter.cc): a table from
    module label to the counter measuring that module plus the size it had
    when it was last sampled. Entering a phase resets the counter's maximum,
    corrects the stored sample by the size now outstanding and enables the
    counter; leaving it disables the counter, prints one `*MEMCOUNTER*` line
    and stores the new sample. */
module MemoryCounterService {
  import opened Wrappers
  import opened Text
  import opened MemCounter
  import opened Framework

  /** The marker for "no sample recorded yet". */
  const Unset: int := -1

  const ReportPrefix: string := " *MEMCOUNTER* "

  /** One table entry: the counter, the size at the previous exit and the
      method name of that exit. */
  datatype ModuleDetails = ModuleDetails(counter: MemoryCounter, previousRecordedSize: int, previousEvent: string)

  /** A freshly created entry has no sample. */
  function NewDetails(counter: MemoryCounter): (e: ModuleDetails)
    ensures e.counter == counter && e.previousRecordedSize == Unset
  {
    ModuleDetails(counter, Unset, "")
  }

  /** A module is measured when no allow-list is given or the list names it. */
  predicate Admitted(modulesToAnalyse: seq<string>, moduleLabel: string) {
    |modulesToAnalyse| == 0 || moduleLabel in modulesToAnalyse
  }

  /** The method name a hook of `phase` reports, from the global counters. */
  function MethodName(phase: Phase, eventNumber: nat, lumiNumber: nat, runNumber: nat): string {
    match phase
    case Construction => "Construction"
    case BeginJob => "beginJob"
    case BeginRun => "beginRun" + NatToString(runNumber)
    case BeginLumi => "beginLumi" + NatToString(lumiNumber)
    case Event => "event" + NatToString(eventNumber)
    case EndLumi => "endLumi" + NatToString(lumiNumber)
    case EndRun => "endRun" + NatToString(runNumber)
    case EndJob => "endJob"
  }

  /** The number a phase's method name carries, if any. */
  function PhaseNumber(phase: Phase, eventNumber: nat, lumiNumber: nat, runNumber: nat): int {
    match phase
    case BeginRun => runNumber
    case EndRun => runNumber
    case BeginLumi => lumiNumber
    case EndLumi => lumiNumber
    case Event => eventNumber
    case _ => -1
  }

  lemma SameNumberedName(a: string, m: nat, n: nat)
    requires a + NatToString(m) == a + NatToString(n)
    ensures m == n
  {
    assert NatToString(m) == (a + NatToString(m))[|a|..];
    assert NatToString(n) == (a + NatToString(n))[|a|..];
    NatToStringInjective(m, n);
  }

  /** The fixed text a phase's method name starts with. */
  function FixedPrefix(phase: Phase): string {
    match phase
    case Construction => "Construction"
    case BeginJob => "beginJob"
    case BeginRun => "beginRun"
    case BeginLumi => "beginLumi"
    case Event => "event"
    case EndLumi => "endLumi"
    case EndRun => "endRun"
    case EndJob => "endJob"
  }

  lemma MethodNameMarks(phase: Phase, eventNumber: nat, lumiNumber: nat, runNumber: nat)
    ensures var s := MethodName(phase, eventNumber, lumiNumber, runNumber);
            var f := FixedPrefix(phase);
            |s| >= 6 && |f| >= 5 && s[0] == f[0] && s[1] == f[1] && s[3] == f[3]
            && (|f| > 5 ==> s[5] == f[5])
  {
  }

  /** Method names identify the phase and the counter value it carries, so
      two exits of one module are stored under different step names unless
      they are the same phase of the same run, block or event. */
  lemma MethodNameIdentifiesPhase(p: Phase, q: Phase, e1: nat, l1: nat, r1: nat, e2: nat, l2: nat, r2: nat)
    requires MethodName(p, e1, l1, r1) == MethodName(q, e2, l2, r2)
    ensures p == q && PhaseNumber(p, e1, l1, r1) == PhaseNumber(q, e2, l2, r2)
  {
    // Names of different phases differ at position 0, 1, 3 or 5.
    MethodNameMarks(p, e1, l1, r1);
    MethodNameMarks(q, e2, l2, r2);
    assert p == q;
    match p
    case BeginRun => SameNumberedName("beginRun", r1, r2);
    case EndRun => SameNumberedName("endRun", r1, r2);
    case BeginLumi => SameNumberedName("beginLumi", l1, l2);
    case EndLumi => SameNumberedName("endLumi", l1, l2);
    case Event => SameNumberedName("event", e1, e2);
    case _ =>
  }

  /** The size stored at the previous exit, less the size outstanding on
      entry; the marker stays the marker. */
  function CorrectedBaseline(previousRecordedSize: int, sizeAtEntry: int): int {
    if previousRecordedSize != Unset then previousRecordedSize - sizeAtEntry else Unset
  }

  /** The comma-separated fields of an exit line. */
  function ReportFields(methodName: string, d: ModuleDescription, s: CounterState,
                        previousEvent: string, previousRecordedSize: int): (fields: seq<string>)
    ensures |fields| == (if previousRecordedSize != Unset then 9 else 7)
    ensures fields[0] == methodName && fields[1] == d.moduleLabel && fields[2] == d.moduleName
    ensures fields[3] == IntToString(s.currentSize) && fields[4] == IntToString(s.maximumSize)
    ensures fields[5] == IntToString(s.currentNumberOfAllocations)
    ensures fields[6] == IntToString(s.maximumNumberOfAllocations)
    ensures previousRecordedSize != Unset ==>
              fields[7] == previousEvent && fields[8] == IntToString(previousRecordedSize)
  {
    [methodName, d.moduleLabel, d.moduleName,
     IntToString(s.currentSize), IntToString(s.maximumSize),
     IntToString(s.currentNumberOfAllocations), IntToString(s.maximumNumberOfAllocations)]
    + (if previousRecordedSize != Unset then [previousEvent, IntToString(previousRecordedSize)] else [])
  }

  /** The line printed when a module leaves a phase. */
  function ReportLine(methodName: string, d: ModuleDescription, s: CounterState,
                      previousEvent: string, previousRecordedSize: int): string
  {
    ReportPrefix + Join(ReportFields(methodName, d, s, previousEvent, previousRecordedSize), ',')
  }

  predicate NoComma(s: string) { ',' !in s }

  /** The exit line is the prefix followed by exactly its fields: splitting
      the rest on ',' gives them back, provided the names hold no comma. */
  lemma ReportLineFields(methodName: string, d: ModuleDescription, s: CounterState,
                         previousEvent: string, previousRecordedSize: int)
    requires NoComma(methodName) && NoComma(d.moduleLabel) && NoComma(d.moduleName)
    requires NoComma(previousEvent)
    ensures var line := ReportLine(methodName, d, s, previousEvent, previousRecordedSize);
            StartsWith(line, ReportPrefix)
            && Split(line[|ReportPrefix|..], ',') == ReportFields(methodName, d, s, previousEvent, previousRecordedSize)
  {
    var fields := ReportFields(methodName, d, s, previousEvent, previousRecordedSize);
    forall k | 0 <= k < |fields|
      ensures ',' !in fields[k]
    {
      if 3 <= k && k != 7 {
        assert forall j :: 0 <= j < |fields[k]| ==> IsNumberChar(fields[k][j]);
      }
    }
    SplitJoin(fields, ',');
    var line := ReportLine(methodName, d, s, previousEvent, previousRecordedSize);
    assert line[|ReportPrefix|..] == Join(fields, ',');
  }

  /** The marker is compared after correction, so a difference of exactly
      -1 is indistinguishable from "no sample" and the exit line then lacks
      the trailing fields. */
  lemma CorrectedBaselineCanLookUnset()
    ensures CorrectedBaseline(100, 101) == Unset
    ensures |ReportFields("event2", ModuleDescription("a", "A"), CounterState(false, 101, 101, 1, 1), "event1",
                          CorrectedBaseline(100, 101))| == 7
  {
  }

  function EnablingInMethodLine(moduleLabel: string, methodName: string): string {
    "Enabling MemCounter for module \"" + moduleLabel + "\" in method " + methodName + "."
  }

  function EnablingOfTypeLine(d: ModuleDescription): string {
    "Enabling MemCounter for module \"" + d.moduleLabel + "\" of type \"" + d.moduleName + "\"."
  }

  function NoPointerLine(moduleLabel: string): string {
    "Couldn't get a pointer for a new IMemoryAnalyser, so module \"" + moduleLabel + "\" will not be analysed."
  }

  function NotEnabledLine(moduleLabel: string): string {
    "MemCounter not enabled for module \"" + moduleLabel + "\"."
  }

  const AllModulesLine: string :=
    "MemoryCounter: the parameter \"modulesToAnalyse\" has not been set, so MemoryCounter will analyse all modules"

  /** The four lines written to standard error when the counting library is
      not preloaded. */
  const MissingSymbolLines: seq<string> := [
    " ***",
    " *** MemoryCounter: couldn't get the symbol in the analysing library. Are you running under intrusiveMemoryAnalyser? MemoryCounter will not function without it.",
    " ***                See https://github.com/mark-grimes/MemCounter for details on how to get intrusiveMemoryAnalyser installed.",
    " ***"]

  /** The service. `out` and `err` are the lines written to standard output
      and standard error; `hooksRegistered` records whether the factory symbol
      was found, without which no hook runs. */
  class MemoryCounterService {
    var hooksRegistered: bool
    var memoryCounters: map<string, ModuleDetails>
    var eventNumber: nat
    var lumiNumber: nat
    var runNumber: nat
    var modulesToAnalyse: seq<string>
    var verbose: bool
    var out: seq<string>
    var err: seq<string>
    ghost var Repr: set<MemoryCounter>

    ghost predicate Valid()
      reads this, Repr
    {
      && (forall l :: l in memoryCounters ==> memoryCounters[l].counter in Repr)
      && (forall c :: c in Repr ==> c.Valid())
      && (forall l, m :: l in memoryCounters && m in memoryCounters && l != m ==>
            memoryCounters[l].counter != memoryCounters[m].counter)
      && eventNumber >= 1 && lumiNumber >= 1 && runNumber >= 1
      && (!hooksRegistered ==> memoryCounters == map[])
    }

    /** The counter a hook for `moduleLabel` may touch. */
    function CounterOf(moduleLabel: string): set<MemoryCounter>
      reads this
    {
      if moduleLabel in memoryCounters then {memoryCounters[moduleLabel].counter} else {}
    }

    /** `symbolFound` says whether the factory symbol was found; the options
        are the `modulesToAnalyse` and `verbose` parameters when set. */
    constructor (symbolFound: bool, modulesToAnalyseParameter: Option<seq<string>>, verboseParameter: Option<bool>)
      ensures Valid() && Repr == {}
      ensures hooksRegistered == symbolFound && memoryCounters == map[]
      ensures eventNumber == 1 && lumiNumber == 1 && runNumber == 1
      ensures modulesToAnalyse == (if symbolFound then modulesToAnalyseParameter.GetOr([]) else [])
      ensures verbose == (symbolFound && verboseParameter == Some(true))
      ensures out == (if symbolFound && modulesToAnalyseParameter.None? then [AllModulesLine] else [])
      ensures err == (if symbolFound then [] else MissingSymbolLines)
    {
      hooksRegistered := symbolFound;
      memoryCounters := map[];
      eventNumber, lumiNumber, runNumber := 1, 1, 1;
      modulesToAnalyse := [];
      verbose := false;
      out, err := [], [];
      Repr := {};
      if symbolFound {
        if modulesToAnalyseParameter.Some? {
          modulesToAnalyse := modulesToAnalyseParameter.value;
        } else {
          out := out + [AllModulesLine];
        }
        if verboseParameter.Some? {
          verbose := verboseParameter.value;
        }
      } else {
        err := MissingSymbolLines;
      }
    }

    /** The pre-construction hook. `created` is what the counter factory
        returns if it is called (null when it fails); a counter it returns is
        not already in the table. */
    method PreModuleConstruction(d: ModuleDescription, created: MemoryCounter?)
      requires Valid()
      requires created != null ==> created !in Repr && created.Valid()
      modifies this`memoryCounters, this`out, this`Repr, if created != null then {created} else {}
      ensures Valid()
      ensures !hooksRegistered ==> memoryCounters == old(memoryCounters) && out == old(out)
      ensures hooksRegistered && !Admitted(modulesToAnalyse, d.moduleLabel) ==>
                memoryCounters == old(memoryCounters) && out == old(out) + [NotEnabledLine(d.moduleLabel)]
      ensures hooksRegistered && Admitted(modulesToAnalyse, d.moduleLabel) && created == null ==>
                memoryCounters == old(memoryCounters) && out == old(out) + [NoPointerLine(d.moduleLabel)]
      ensures hooksRegistered && Admitted(modulesToAnalyse, d.moduleLabel) && created != null ==>
                && memoryCounters == (if d.moduleLabel in old(memoryCounters) then old(memoryCounters)
                                      else old(memoryCounters)[d.moduleLabel := NewDetails(created)])
                && out == old(out) + (if verbose then [EnablingOfTypeLine(d)] else [])
                && created.State() == WithEnabled(MaximumReset(old(created.State())), true)
    {
      if !hooksRegistered {
        return;
      }
      if Admitted(modulesToAnalyse, d.moduleLabel) {
        if created != null {
          AddCounter(d, created);
        } else {
          out := out + [NoPointerLine(d.moduleLabel)];
        }
      } else {
        out := out + [NotEnabledLine(d.moduleLabel)];
      }
    }

    /** Records a new counter for an admitted module, unless the label
        already has one, then resets and enables it either way. */
    method AddCounter(d: ModuleDescription, created: MemoryCounter)
      requires Valid() && hooksRegistered && created !in Repr && created.Valid()
      modifies this`memoryCounters, this`out, this`Repr, created
      ensures Valid()
      ensures memoryCounters == (if d.moduleLabel in old(memoryCounters) then old(memoryCounters)
                                 else old(memoryCounters)[d.moduleLabel := NewDetails(created)])
      ensures out == old(out) + (if verbose then [EnablingOfTypeLine(d)] else [])
      ensures created.State() == WithEnabled(MaximumReset(old(created.State())), true)
    {
      if d.moduleLabel !in memoryCounters {
        forall l | l in memoryCounters
          ensures memoryCounters[l].counter != created
        {
          assert memoryCounters[l].counter in Repr;
        }
        memoryCounters := memoryCounters[d.moduleLabel := NewDetails(created)];
        Repr := Repr + {created};
      }
      if verbose {
        out := out + [EnablingOfTypeLine(d)];
      }
      ghost var others := Repr - {created};
      label registered:
      created.ResetMaximum();
      created.Enable();
      forall c | c in others
        ensures c.Valid()
      {
        assert old@registered(c.Valid());
        assert c.State() == old@registered(c.State());
      }
    }

    /** The pre hook of every phase but construction. */
    method EnableMemoryCounter(d: ModuleDescription, phase: Phase)
      requires Valid() && phase != Construction
      modifies this`memoryCounters, this`out, CounterOf(d.moduleLabel)
      ensures Valid()
      ensures d.moduleLabel !in old(memoryCounters) ==> memoryCounters == old(memoryCounters) && out == old(out)
      ensures d.moduleLabel in old(memoryCounters) ==>
                var e := old(memoryCounters[d.moduleLabel]);
                && e.counter.State() == WithEnabled(MaximumReset(old(e.counter.State())), true)
                && memoryCounters == old(memoryCounters)[d.moduleLabel :=
                     e.(previousRecordedSize := CorrectedBaseline(e.previousRecordedSize, old(e.counter.currentSize)))]
                && out == old(out) + (if verbose then
                     [EnablingInMethodLine(d.moduleLabel, MethodName(phase, eventNumber, lumiNumber, runNumber))] else [])
    {
      if d.moduleLabel in memoryCounters {
        var methodName := MethodName(phase, eventNumber, lumiNumber, runNumber);
        var e := memoryCounters[d.moduleLabel];
        e.counter.ResetMaximum();
        var baseline := CorrectedBaseline(e.previousRecordedSize, e.counter.currentSize);
        e.counter.Enable();
        memoryCounters := memoryCounters[d.moduleLabel := e.(previousRecordedSize := baseline)];
        if verbose {
          out := out + [EnablingInMethodLine(d.moduleLabel, methodName)];
        }
      }
    }

    /** The post hook of every phase. */
    method DisableMemoryCounterAndPrint(d: ModuleDescription, phase: Phase)
      requires Valid()
      modifies this`memoryCounters, this`out, CounterOf(d.moduleLabel)
      ensures Valid()
      ensures d.moduleLabel !in old(memoryCounters) ==> memoryCounters == old(memoryCounters) && out == old(out)
      ensures d.moduleLabel in old(memoryCounters) ==>
                var e := old(memoryCounters[d.moduleLabel]);
                var methodName := MethodName(phase, eventNumber, lumiNumber, runNumber);
                && e.counter.State() == WithEnabled(old(e.counter.State()), false)
                && out == old(out) + [ReportLine(methodName, d, e.counter.State(), e.previousEvent, e.previousRecordedSize)]
                && memoryCounters == old(memoryCounters)[d.moduleLabel :=
                     e.(previousRecordedSize := e.counter.currentSize, previousEvent := methodName)]
    {
      if d.moduleLabel in memoryCounters {
        var methodName := MethodName(phase, eventNumber, lumiNumber, runNumber);
        var e := memoryCounters[d.moduleLabel];
        e.counter.Disable();
        out := out + [ReportLine(methodName, d, e.counter.State(), e.previousEvent, e.previousRecordedSize)];
        memoryCounters := memoryCounters[d.moduleLabel :=
                            e.(previousRecordedSize := e.counter.currentSize, previousEvent := methodName)];
      }
    }

    /** A module leaves a phase, the counting library records `changes`
        while the module is outside its phases, and the module enters phase
        `next` and leaves it again. The second exit line carries the first
        exit's method name and the size at the first exit less the size on
        re-entry, which is exactly what the module's counted blocks released
        in between; a difference of -1, or a first size of -1, is taken for
        "no sample" and the pair is left out. */
    method ExitThenReenter(d: ModuleDescription, first: Phase, changes: seq<Change>, next: Phase)
      requires Valid() && next != Construction && d.moduleLabel in memoryCounters
      modifies this`memoryCounters, this`out, CounterOf(d.moduleLabel)
      ensures Valid()
      ensures var e := old(memoryCounters[d.moduleLabel]);
              var firstName := MethodName(first, eventNumber, lumiNumber, runNumber);
              var nextName := MethodName(next, eventNumber, lumiNumber, runNumber);
              var atExit := WithEnabled(old(e.counter.State()), false);
              var atEntry := Applied(atExit, changes);
              var baseline := CorrectedBaseline(atExit.currentSize, atEntry.currentSize);
              && atExit.currentSize - atEntry.currentSize == CountedFreed(changes)
              && e.counter.State() == MaximumReset(atEntry)
              && out == old(out) + [ReportLine(firstName, d, atExit, e.previousEvent, e.previousRecordedSize)]
                        + (if verbose then [EnablingInMethodLine(d.moduleLabel, nextName)] else [])
                        + [ReportLine(nextName, d, e.counter.State(), firstName, baseline)]
              && memoryCounters == old(memoryCounters)[d.moduleLabel :=
                   e.(previousRecordedSize := atEntry.currentSize, previousEvent := nextName)]
              && var fields := ReportFields(nextName, d, e.counter.State(), firstName, baseline);
                 if atExit.currentSize != Unset && atExit.currentSize - atEntry.currentSize != Unset
                 then |fields| == 9 && fields[7] == firstName
                      && fields[8] == IntToString(atExit.currentSize - atEntry.currentSize)
                 else |fields| == 7
    {
      ghost var e := memoryCounters[d.moduleLabel];
      ghost var atExit := WithEnabled(e.counter.State(), false);
      ExitAndRecord(d, first, changes, e);
      ghost var firstName := MethodName(first, eventNumber, lumiNumber, runNumber);
      ghost var atEntry := Applied(atExit, changes);
      EnterAndExit(d, next, e.(previousRecordedSize := atExit.currentSize, previousEvent := firstName), atEntry);
      assert WithEnabled(MaximumReset(atEntry), false) == MaximumReset(atEntry);
    }

    /** A tracked module, with entry `e`, leaves phase `phase`; then the
        counting library records `changes` while the counter is disabled. */
    method ExitAndRecord(d: ModuleDescription, phase: Phase, changes: seq<Change>, ghost e: ModuleDetails)
      requires Valid() && d.moduleLabel in memoryCounters && memoryCounters[d.moduleLabel] == e
      modifies this`memoryCounters, this`out, e.counter
      ensures Valid()
      ensures var name := MethodName(phase, eventNumber, lumiNumber, runNumber);
              var atExit := WithEnabled(old(e.counter.State()), false);
              && e.counter.State() == Applied(atExit, changes)
              && atExit.currentSize - e.counter.currentSize == CountedFreed(changes)
              && out == old(out) + [ReportLine(name, d, atExit, e.previousEvent, e.previousRecordedSize)]
              && memoryCounters == old(memoryCounters)[d.moduleLabel :=
                   e.(previousRecordedSize := atExit.currentSize, previousEvent := name)]
    {
      DisableMemoryCounterAndPrint(d, phase);
      DisabledCounterOnlyLosesReleases(e.counter.State(), changes);
      RecordFor(d.moduleLabel, changes);
    }

    /** A tracked module, with entry `e` and counter state `s`, enters
        phase `phase` and leaves it again. */
    method EnterAndExit(d: ModuleDescription, phase: Phase, ghost e: ModuleDetails, ghost s: CounterState)
      requires Valid() && phase != Construction
      requires d.moduleLabel in memoryCounters && memoryCounters[d.moduleLabel] == e && e.counter.State() == s
      modifies this`memoryCounters, this`out, e.counter
      ensures Valid()
      ensures var name := MethodName(phase, eventNumber, lumiNumber, runNumber);
              var baseline := CorrectedBaseline(e.previousRecordedSize, s.currentSize);
              && e.counter.State() == WithEnabled(MaximumReset(s), false)
              && out == old(out) + (if verbose then [EnablingInMethodLine(d.moduleLabel, name)] else [])
                        + [ReportLine(name, d, e.counter.State(), e.previousEvent, baseline)]
              && memoryCounters == old(memoryCounters)[d.moduleLabel :=
                   e.(previousRecordedSize := s.currentSize, previousEvent := name)]
    {
      EnableMemoryCounter(d, phase);
      DisableMemoryCounterAndPrint(d, phase);
    }

    /** The counting library records `changes` on the counter of
        `moduleLabel`; nothing else changes. */
    method RecordFor(moduleLabel: string, changes: seq<Change>)
      requires Valid() && moduleLabel in memoryCounters
      modifies CounterOf(moduleLabel)
      ensures Valid()
      ensures var c := memoryCounters[moduleLabel].counter; c.State() == Applied(old(c.State()), changes)
    {
      var counter := memoryCounters[moduleLabel].counter;
      counter.Record(changes);
      forall c | c in Repr && c != counter
        ensures c.Valid()
      {
        assert old(c.Valid());
        assert c.State() == old(c.State());
      }
    }

    /** A module is constructed, so gets a fresh entry, and leaves its
        first phase: that first exit line has no trailing pair, only the
        seven fields. */
    method ConstructedThenExit(d: ModuleDescription, created: MemoryCounter, phase: Phase)
      requires Valid() && hooksRegistered && Admitted(modulesToAnalyse, d.moduleLabel)
      requires d.moduleLabel !in memoryCounters && created !in Repr && created.Valid()
      modifies this`memoryCounters, this`out, this`Repr, created
      ensures Valid()
      ensures var name := MethodName(phase, eventNumber, lumiNumber, runNumber);
              && memoryCounters == old(memoryCounters)[d.moduleLabel :=
                   ModuleDetails(created, created.currentSize, name)]
              && out == old(out) + (if verbose then [EnablingOfTypeLine(d)] else [])
                        + [ReportLine(name, d, created.State(), "", Unset)]
              && |ReportFields(name, d, created.State(), "", Unset)| == 7
    {
      PreModuleConstruction(d, created);
      DisableMemoryCounterAndPrint(d, phase);
    }

    method PostProcessEvent()
      requires Valid()
      modifies this`eventNumber
      ensures Valid() && eventNumber == old(eventNumber) + (if hooksRegistered then 1 else 0)
    {
      if hooksRegistered {
        eventNumber := eventNumber + 1;
      }
    }

    method PostEndLumi()
      requires Valid()
      modifies this`lumiNumber
      ensures Valid() && lumiNumber == old(lumiNumber) + (if hooksRegistered then 1 else 0)
    {
      if hooksRegistered {
        lumiNumber := lumiNumber + 1;
      }
    }

    method PostEndRun()
      requires Valid()
      modifies this`runNumber
      ensures Valid() && runNumber == old(runNumber) + (if hooksRegistered then 1 else 0)
    {
      if hooksRegistered {
        runNumber := runNumber + 1;
      }
    }
  }
}

=== FILE: memory_plots.dfy ===
/** The RSS plotter (scripts/memoryPlots.py): reads the samples the RSS
    checker wrote, one per line, and groups consecutive samples of the same
    event; titles the files given on the command line. Turning a field into
    a floating-point number is Python's `float()`, an input here: a
    function giving the number or nothing when the text is not one. */
module MemoryPlots {
  import opened Wrappers
  import opened Text

  /** The event number no sample has before the first one is read. */
  const NoEvent: int := -999

  /** The load recorded for a three-field sample: none. */
  const NoLoad: real := -1.0

  /** `int(float(x))`: truncation toward zero. */
  function Truncate(x: real): (i: int)
    ensures 0.0 <= x ==> i as real <= x < i as real + 1.0
    ensures x < 0.0 ==> i as real - 1.0 < x <= i as real
  {
    if x >= 0.0 then x.Floor else -((-x).Floor)
  }

  datatype Sample = Sample(rss: int, size: int, load: real, event: int)

  datatype LineRead = Skipped | NotANumber | Read(sample: Sample)

  /** One line: three fields are rss, size and event; four are rss, size,
      load and event; any other count is skipped. */
  function ReadSample(line: string, parseFloat: string -> Option<real>): (r: LineRead)
    ensures r.Skipped? <==> |Fields(line)| != 3 && |Fields(line)| != 4
    ensures r.Read? && |Fields(line)| == 3 ==> r.sample.load == NoLoad
  {
    var fields := Fields(line);
    if |fields| == 3 then
      match (parseFloat(fields[0]), parseFloat(fields[1]), parseFloat(fields[2]))
      case (Some(rss), Some(size), Some(event)) => Read(Sample(Truncate(rss), Truncate(size), NoLoad, Truncate(event)))
      case _ => NotANumber
    else if |fields| == 4 then
      match (parseFloat(fields[0]), parseFloat(fields[1]), parseFloat(fields[2]), parseFloat(fields[3]))
      case (Some(rss), Some(size), Some(load), Some(event)) => Read(Sample(Truncate(rss), Truncate(size), load, Truncate(event)))
      case _ => NotANumber
    else Skipped
  }

  /** The samples of one run of consecutive lines with the same event. */
  datatype Group = Group(rss: seq<int>, size: seq<int>, load: seq<real>, event: int)

  datatype ParseError = ValueError | IndexError

  datatype Parsed = Parsed(groups: seq<Group>, currentEvent: int) | Failed(error: ParseError)

  /** The loads a sample contributes: its load unless it is the no-load
      mark. */
  function LoadOf(s: Sample): seq<real> {
    if s.load != NoLoad then [s.load] else []
  }

  /** One sample added: a new group when its event differs from the
      current one, otherwise appended to the last group, which must
      exist. */
  function AddSample(groups: seq<Group>, currentEvent: int, s: Sample): Parsed {
    if s.event != currentEvent then
      Parsed(groups + [Group([s.rss], [s.size], LoadOf(s), s.event)], s.event)
    else if |groups| == 0 then Failed(IndexError)
    else
      var last := groups[|groups| - 1];
      Parsed(groups[..|groups| - 1] + [last.(rss := last.rss + [s.rss], size := last.size + [s.size],
                                             load := last.load + LoadOf(s))], currentEvent)
  }

  /** `parseFile` over the lines of a file. */
  function ParseLines(lines: seq<string>, parseFloat: string -> Option<real>): Parsed
    decreases |lines|
  {
    if |lines| == 0 then Parsed([], NoEvent)
    else
      match ParseLines(lines[..|lines| - 1], parseFloat)
      case Failed(e) => Failed(e)
      case Parsed(groups, currentEvent) =>
        match ReadSample(lines[|lines| - 1], parseFloat)
        case Skipped => Parsed(groups, currentEvent)
        case NotANumber => Failed(ValueError)
        case Read(s) => AddSample(groups, currentEvent, s)
  }

  /** The readline loop. */
  method ParseFile(lines: seq<string>, parseFloat: string -> Option<real>) returns (r: Parsed)
    ensures r == ParseLines(lines, parseFloat)
  {
    var results: seq<Group> := [];
    var currentEvent := NoEvent;
    var i := 0;
    while i < |lines|
      invariant 0 <= i <= |lines|
      invariant ParseLines(lines[..i], parseFloat) == Parsed(results, currentEvent)
    {
      assert lines[..i + 1][..i] == lines[..i];
      var line := lines[i];
      i := i + 1;
      match ReadSample(line, parseFloat)
      case Skipped =>
      case NotANumber =>
        FailureStays(lines[..i], lines[i..], parseFloat);
        assert lines[..i] + lines[i..] == lines;
        return Failed(ValueError);
      case Read(s) =>
        if s.event != currentEvent {
          results := results + [Group([s.rss], [s.size], LoadOf(s), s.event)];
          currentEvent := s.event;
        } else if |results| == 0 {
          FailureStays(lines[..i], lines[i..], parseFloat);
          assert lines[..i] + lines[i..] == lines;
          return Failed(IndexError);
        } else {
          var last := results[|results| - 1];
          results := results[..|results| - 1] + [last.(rss := last.rss + [s.rss], size := last.size + [s.size],
                                                        load := last.load + LoadOf(s))];
        }
    }
    assert lines[..i] == lines;
    r := Parsed(results, currentEvent);
  }

  /** Once a line fails the file fails: the exception leaves the loop. */
  lemma {:induction false} FailureStays(lines: seq<string>, more: seq<string>, parseFloat: string -> Option<real>)
    requires ParseLines(lines, parseFloat).Failed?
    ensures ParseLines(lines + more, parseFloat) == ParseLines(lines, parseFloat)
    decreases |more|
  {
    if |more| > 0 {
      var shorter := more[..|more| - 1];
      FailureStays(lines, shorter, parseFloat);
      assert (lines + more)[..|lines + more| - 1] == lines + shorter;
    } else {
      assert lines + more == lines;
    }
  }

  // ---------------------------------------------------------------------
  // What the groups hold.
  // ---------------------------------------------------------------------

  /** The samples read from the lines, in order. */
  function Samples(lines: seq<string>, parseFloat: string -> Option<real>): seq<Sample>
    decreases |lines|
  {
    if |lines| == 0 then []
    else
      var before := Samples(lines[..|lines| - 1], parseFloat);
      match ReadSample(lines[|lines| - 1], parseFloat)
      case Read(s) => before + [s]
      case _ => before
  }

  function AllRss(groups: seq<Group>): seq<int>
    decreases |groups|
  {
    if |groups| == 0 then [] else AllRss(groups[..|groups| - 1]) + groups[|groups| - 1].rss
  }

  function AllSizes(groups: seq<Group>): seq<int>
    decreases |groups|
  {
    if |groups| == 0 then [] else AllSizes(groups[..|groups| - 1]) + groups[|groups| - 1].size
  }

  function AllLoads(groups: seq<Group>): seq<real>
    decreases |groups|
  {
    if |groups| == 0 then [] else AllLoads(groups[..|groups| - 1]) + groups[|groups| - 1].load
  }

  function SampleRss(samples: seq<Sample>): (r: seq<int>)
    ensures |r| == |samples| && forall k :: 0 <= k < |samples| ==> r[k] == samples[k].rss
  {
    seq(|samples|, k requires 0 <= k < |samples| => samples[k].rss)
  }

  function SampleSizes(samples: seq<Sample>): (r: seq<int>)
    ensures |r| == |samples| && forall k :: 0 <= k < |samples| ==> r[k] == samples[k].size
  {
    seq(|samples|, k requires 0 <= k < |samples| => samples[k].size)
  }

  function SampleLoads(samples: seq<Sample>): seq<real>
    decreases |samples|
  {
    if |samples| == 0 then [] else SampleLoads(samples[..|samples| - 1]) + LoadOf(samples[|samples| - 1])
  }

  /** Groups are maximal runs: each holds as many sizes as RSS values, at
      least one, and two neighbouring groups are of different events; the
      current event is that of the last group, or the no-event mark before
      any. */
  predicate WellGrouped(groups: seq<Group>, currentEvent: int) {
    && (forall k :: 0 <= k < |groups| ==> |groups[k].rss| == |groups[k].size| >= 1)
    && (forall k :: 0 <= k < |groups| ==> |groups[k].load| <= |groups[k].rss|)
    && (forall k :: 0 <= k < |groups| - 1 ==> groups[k].event != groups[k + 1].event)
    && (if |groups| == 0 then currentEvent == NoEvent else currentEvent == groups[|groups| - 1].event)
  }

  /** Replacing the last group changes only its share of the totals. */
  lemma LastGroupReplaced(groups: seq<Group>, g: Group)
    requires |groups| > 0
    ensures var gs := groups[..|groups| - 1] + [g];
            && AllRss(gs) == AllRss(groups[..|groups| - 1]) + g.rss
            && AllSizes(gs) == AllSizes(groups[..|groups| - 1]) + g.size
            && AllLoads(gs) == AllLoads(groups[..|groups| - 1]) + g.load
  {
    var gs := groups[..|groups| - 1] + [g];
    assert gs[..|gs| - 1] == groups[..|groups| - 1];
  }

  /** Adding a sample keeps the groups maximal runs and adds the sample's
      values at the end of the totals. */
  lemma AddSampleKeeps(groups: seq<Group>, currentEvent: int, s: Sample)
    requires WellGrouped(groups, currentEvent)
    requires AddSample(groups, currentEvent, s).Parsed?
    ensures var p := AddSample(groups, currentEvent, s);
            && WellGrouped(p.groups, p.currentEvent)
            && AllRss(p.groups) == AllRss(groups) + [s.rss]
            && AllSizes(p.groups) == AllSizes(groups) + [s.size]
            && AllLoads(p.groups) == AllLoads(groups) + LoadOf(s)
  {
    if s.event != currentEvent {
      var g := Group([s.rss], [s.size], LoadOf(s), s.event);
      assert (groups + [g])[..|groups|] == groups;
    } else {
      var last := groups[|groups| - 1];
      LastGroupReplaced(groups, last.(rss := last.rss + [s.rss], size := last.size + [s.size],
                                      load := last.load + LoadOf(s)));
      assert groups == groups[..|groups| - 1] + [last];
      LastGroupReplaced(groups, last);
    }
  }

  lemma SampleTotalsAppend(samples: seq<Sample>, s: Sample)
    ensures SampleRss(samples + [s]) == SampleRss(samples) + [s.rss]
    ensures SampleSizes(samples + [s]) == SampleSizes(samples) + [s.size]
    ensures SampleLoads(samples + [s]) == SampleLoads(samples) + LoadOf(s)
  {
    var both := samples + [s];
    assert both[..|both| - 1] == samples;
  }

  /** A file read without an exception is cut into well-formed maximal
      runs, and the runs together hold every sample's RSS value, size and
      load (when it has one), in order. */
  lemma {:induction false} ParsedGroups(lines: seq<string>, parseFloat: string -> Option<real>)
    requires ParseLines(lines, parseFloat).Parsed?
    ensures var p := ParseLines(lines, parseFloat);
            && WellGrouped(p.groups, p.currentEvent)
            && AllRss(p.groups) == SampleRss(Samples(lines, parseFloat))
            && AllSizes(p.groups) == SampleSizes(Samples(lines, parseFloat))
            && AllLoads(p.groups) == SampleLoads(Samples(lines, parseFloat))
    decreases |lines|
  {
    if |lines| > 0 {
      var prefix := lines[..|lines| - 1];
      var before := ParseLines(prefix, parseFloat);
      ParsedGroups(prefix, parseFloat);
      match ReadSample(lines[|lines| - 1], parseFloat)
      case Skipped =>
      case NotANumber =>
      case Read(s) =>
        AddSampleKeeps(before.groups, before.currentEvent, s);
        SampleTotalsAppend(Samples(prefix, parseFloat), s);
    }
  }

  /** A first sample carrying the no-event mark opens no group, and adding
      it to the last group fails: there is none. */
  lemma FirstSampleWithoutEvent(lines: seq<string>, parseFloat: string -> Option<real>)
    requires |lines| > 0
    requires Samples(lines[..|lines| - 1], parseFloat) == []
    requires ParseLines(lines[..|lines| - 1], parseFloat).Parsed?
    requires ReadSample(lines[|lines| - 1], parseFloat).Read?
    requires ReadSample(lines[|lines| - 1], parseFloat).sample.event == NoEvent
    ensures ParseLines(lines, parseFloat) == Failed(IndexError)
  {
    var prefix := lines[..|lines| - 1];
    ParsedGroups(prefix, parseFloat);
  }

  // ---------------------------------------------------------------------
  // Titles from the command line.
  // ---------------------------------------------------------------------

  datatype TitleState = TitleState(inputFilenames: map<string, string>, nextArgumentIsTitle: bool, title: string)

  const FirstTitle: TitleState := TitleState(map[], false, "1")

  /** One argument: a title after `-t`, the `-t` itself, or a file stored
      under the current title, after which the title is the next number. */
  function TitleStep(st: TitleState, argument: string): TitleState {
    if st.nextArgumentIsTitle then st.(title := argument, nextArgumentIsTitle := false)
    else if argument == "-t" then st.(nextArgumentIsTitle := true)
    else
      var files := st.inputFilenames[st.title := argument];
      st.(inputFilenames := files, title := NatToString(|files| + 1))
  }

  function Titles(arguments: seq<string>): TitleState
    decreases |arguments|
  {
    if |arguments| == 0 then FirstTitle
    else TitleStep(Titles(arguments[..|arguments| - 1]), arguments[|arguments| - 1])
  }

  /** The files to plot: from the command line when it names any, else the
      script's own list, which is not part of this model (`None`). */
  function InputFilenames(argv: seq<string>): Option<map<string, string>> {
    if |argv| > 1 then Some(Titles(argv[1..]).inputFilenames) else None
  }

  /** The argument loop. */
  method AssignTitles(argv: seq<string>) returns (r: Option<map<string, string>>)
    ensures r == InputFilenames(argv)
  {
    if |argv| <= 1 {
      return None;
    }
    var arguments := argv[1..];
    var inputFilenames: map<string, string> := map[];
    var nextArgumentIsTitle := false;
    var title := "1";
    var index := 1;
    while index < |argv|
      invariant 1 <= index <= |argv|
      invariant Titles(arguments[..index - 1]) == TitleState(inputFilenames, nextArgumentIsTitle, title)
    {
      assert arguments[..index][..index - 1] == arguments[..index - 1];
      if nextArgumentIsTitle {
        title := argv[index];
        nextArgumentIsTitle := false;
      } else if argv[index] == "-t" {
        nextArgumentIsTitle := true;
      } else {
        inputFilenames := inputFilenames[title := argv[index]];
        title := NatToString(|inputFilenames| + 1);
      }
      index := index + 1;
    }
    assert arguments[..index - 1] == arguments;
    r := Some(inputFilenames);
  }

  /** `files` holds the arguments under "1", "2", … in order, and nothing
      else. */
  predicate Numbered(files: map<string, string>, arguments: seq<string>) {
    && |files| == |arguments|
    && HoldsInOrder(files, arguments)
    && OnlyNumbers(files, |arguments|)
  }

  predicate HoldsInOrder(files: map<string, string>, arguments: seq<string>) {
    forall k :: 1 <= k <= |arguments| ==> NatToString(k) in files && files[NatToString(k)] == arguments[k - 1]
  }

  predicate OnlyNumbers(files: map<string, string>, n: nat) {
    forall key :: key in files ==> exists k :: 1 <= k <= n && key == NatToString(k)
  }

  lemma NextNumberIsFree(files: map<string, string>, n: nat)
    requires OnlyNumbers(files, n)
    ensures NatToString(n + 1) !in files
  {
    if NatToString(n + 1) in files {
      var k :| 1 <= k <= n && NatToString(n + 1) == NatToString(k);
      NatToStringInjective(n + 1, k);
    }
  }

  lemma NumberedStep(files: map<string, string>, arguments: seq<string>, a: string)
    requires Numbered(files, arguments)
    ensures Numbered(files[NatToString(|arguments| + 1) := a], arguments + [a])
  {
    var key := NatToString(|arguments| + 1);
    NextNumberIsFree(files, |arguments|);
    assert files[key := a].Keys == files.Keys + {key};
    HoldsInOrderStep(files, arguments, a);
    OnlyNumbersStep(files, |arguments|, a);
  }

  lemma HoldsInOrderStep(files: map<string, string>, arguments: seq<string>, a: string)
    requires HoldsInOrder(files, arguments)
    ensures HoldsInOrder(files[NatToString(|arguments| + 1) := a], arguments + [a])
  {
    var n := |arguments| + 1;
    var after := files[NatToString(n) := a];
    var more := arguments + [a];
    forall k | 1 <= k <= |more|
      ensures NatToString(k) in after && after[NatToString(k)] == more[k - 1]
    {
      if k < n {
        NatToStringInjective(n, k);
        assert more[k - 1] == arguments[k - 1];
      }
    }
  }

  lemma OnlyNumbersStep(files: map<string, string>, n: nat, a: string)
    requires OnlyNumbers(files, n)
    ensures OnlyNumbers(files[NatToString(n + 1) := a], n + 1)
  {
    var after := files[NatToString(n + 1) := a];
    forall x | x in after
      ensures exists k :: 1 <= k <= n + 1 && x == NatToString(k)
    {
      if x != NatToString(n + 1) {
        var k :| 1 <= k <= n && x == NatToString(k);
      }
    }
  }

  /** Without `-t`, the files are numbered from 1 in the order given, each
      under its own number. */
  lemma {:induction false} UntitledFilesAreNumbered(arguments: seq<string>)
    requires "-t" !in arguments
    ensures var st := Titles(arguments);
            && !st.nextArgumentIsTitle
            && st.title == NatToString(|arguments| + 1)
            && Numbered(st.inputFilenames, arguments)
    decreases |arguments|
  {
    if |arguments| > 0 {
      var prefix := arguments[..|arguments| - 1];
      var last := arguments[|arguments| - 1];
      assert "-t" !in prefix && last != "-t" by {
        assert arguments == prefix + [last];
      }
      UntitledFilesAreNumbered(prefix);
      var before := Titles(prefix);
      NumberedStep(before.inputFilenames, prefix, last);
      var files := before.inputFilenames[NatToString(|prefix| + 1) := last];
      assert |files| == |arguments|;
      assert Titles(arguments) == TitleState(files, false, NatToString(|files| + 1));
    }
  }

  /** A title can be reused: `-t 2 a b` stores `a` under "2", and then the
      next number is "2" again, so `b` replaces it. */
  lemma RepeatedTitleReplaces()
    ensures Titles(["-t", "2", "a", "b"]).inputFilenames == map["2" := "b"]
  {
    assert ["-t"][..0] == [];
    assert Titles(["-t"]) == TitleState(map[], true, "1");
    assert ["-t", "2"][..1] == ["-t"];
    assert Titles(["-t", "2"]) == TitleState(map[], false, "2");
    assert ["-t", "2", "a"][..2] == ["-t", "2"];
    assert |map["2" := "a"]| == 1;
    assert NatToString(2) == "2";
    assert Titles(["-t", "2", "a"]) == TitleState(map["2" := "a"], false, "2");
    assert ["-t", "2", "a", "b"][..3] == ["-t", "2", "a"];
  }
}

=== FILE: module_memory_plots.dfy ===
/** The per-module plots script (scripts/moduleMemoryPlots.py run as a
    program). Its ranking, selection and layout functions are the same as
    those of scripts/JobInfoPlot.py and are modelled once, in JobInfoPlot;
    what is its own is the program: one argument, the log read into a job
    record (an exception while reading is reported and whatever was read
    so far is plotted), then four plots of the 25 largest modules. */
module ModuleMemoryPlots {
  import opened Wrappers
  import opened JobInfo
  import opened JobInfoPlot

  /** The modules of a job as the plotting functions see them. */
  function SeriesOfJob(modules: map<string, ModuleInfo>): (r: map<string, Series>)
    ensures r.Keys == modules.Keys
    ensures forall k :: k in r ==> r[k].name == modules[k].name && r[k].steps == modules[k].steps
  {
    map k | k in modules :: SeriesOf(modules[k])
  }

  datatype ModulePlots = ModulePlots(peak: seq<Histogram>, retained: seq<Histogram>,
                                     productSize: seq<Histogram>, retainedExcludingProduct: seq<Histogram>)

  datatype Outcome = Usage | NoMemoryStep | Plotted(plots: ModulePlots)

  const NumberOfModulesToPlot := 25

  /** The program. `order` is the iteration order of the module dict the
      reader ends with. */
  method Run(argc: int, lines: seq<string>, order: seq<string>) returns (r: Outcome)
    requires IsEnumeration(order, ParseLines(EmptyJob, lines).after.modules)
    ensures argc != 2 <==> r == Usage
    ensures r.NoMemoryStep? <==>
              argc == 2 && exists k :: 0 <= k < |order| &&
                             |ParseLines(EmptyJob, lines).after.modules[order[k]].steps| == 0
    ensures r.Plotted? ==>
              && |r.plots.peak| <= NumberOfModulesToPlot && |r.plots.retained| <= NumberOfModulesToPlot
              && |r.plots.productSize| <= NumberOfModulesToPlot
              && |r.plots.retainedExcludingProduct| <= NumberOfModulesToPlot
  {
    if argc != 2 {
      return Usage;
    }
    var results := new JobInfoReader();
    var raised := results.ParseFile(lines);
    var modules := SeriesOfJob(results.modules);
    var steps := results.steps;
    var n := Some(NumberOfModulesToPlot);
    var peak := CreatePlotForMaximumModules(modules, order, steps, Peak, "Peak memory", n, None, "");
    if peak.None? {
      return NoMemoryStep;
    }
    var retained := CreatePlotForMaximumModules(modules, order, steps, Held, "Retained memory", n, None, "");
    var product := CreatePlotForMaximumModules(modules, order, steps, ProductSize, "Product size", n, None, "");
    var excluding := CreatePlotForMaximumModules(modules, order, steps, HeldLessProduct,
                                                 "Retained memory excluding product", n, None, "");
    r := Plotted(ModulePlots(peak.value, retained.value, product.value, excluding.value));
  }
}

=== FILE: module_timer.dfy ===
/** The module timer (plugins/ModuleTimer.cc): every pre hook stamps the
    process clock, every post hook prints the time since that stamp, and
    whole events are timed separately. Clock readings are inputs: triples of
    integer ticks of real (wall), user and system time. */
module ModuleTimer {
  import opened Text
  import opened Framework

  const TimerPrefix: string := " *MODULETIMER* "

  /** A reading of the process clock, or a difference of two. */
  datatype CpuTime = CpuTime(wall: int, user: int, system: int)

  /** The clock's epoch, the value of a stamp never taken. */
  const Epoch: CpuTime := CpuTime(0, 0, 0)

  /** The time from `start` to `now`, per component. */
  function Elapsed(now: CpuTime, start: CpuTime): (d: CpuTime)
    ensures d.wall + start.wall == now.wall
    ensures d.user + start.user == now.user
    ensures d.system + start.system == now.system
  {
    CpuTime(now.wall - start.wall, now.user - start.user, now.system - start.system)
  }

  function TimerFields(step: string, moduleLabel: string, moduleName: string, taken: CpuTime): seq<string> {
    [step, moduleLabel, moduleName, IntToString(taken.wall), IntToString(taken.user), IntToString(taken.system)]
  }

  /** The line a post hook prints. */
  function TimerLine(step: string, moduleLabel: string, moduleName: string, taken: CpuTime): string {
    TimerPrefix + Join(TimerFields(step, moduleLabel, moduleName, taken), ',')
  }

  /** The timer line is the prefix followed by exactly six fields, the
      last three being the printed times, provided the names hold no comma. */
  lemma TimerLineFields(step: string, moduleLabel: string, moduleName: string, taken: CpuTime)
    requires ',' !in step && ',' !in moduleLabel && ',' !in moduleName
    ensures var line := TimerLine(step, moduleLabel, moduleName, taken);
            StartsWith(line, TimerPrefix)
            && Split(line[|TimerPrefix|..], ',') == TimerFields(step, moduleLabel, moduleName, taken)
  {
    var fields := TimerFields(step, moduleLabel, moduleName, taken);
    forall k | 3 <= k < 6
      ensures ',' !in fields[k]
    {
      assert forall j :: 0 <= j < |fields[k]| ==> IsNumberChar(fields[k][j]);
    }
    SplitJoin(fields, ',');
    var line := TimerLine(step, moduleLabel, moduleName, taken);
    assert line[|TimerPrefix|..] == Join(fields, ',');
  }

  class ModuleTimerService {
    var eventNumber: nat
    var moduleStartTime: CpuTime
    var eventStartTime: CpuTime
    var out: seq<string>

    constructor ()
      ensures eventNumber == 1 && moduleStartTime == Epoch && eventStartTime == Epoch && out == []
    {
      eventNumber := 1;
      moduleStartTime := Epoch;
      eventStartTime := Epoch;
      out := [];
    }

    /** Every pre-module hook, whatever the phase: one shared stamp. */
    method PreModule(d: ModuleDescription, phase: Phase, now: CpuTime)
      modifies this`moduleStartTime
      ensures moduleStartTime == now
    {
      moduleStartTime := now;
    }

    /** Every post-module hook: the time since the last module stamp. */
    method PostModule(d: ModuleDescription, phase: Phase, now: CpuTime)
      modifies this`out
      ensures out == old(out) + [TimerLine(ExitLabel(phase, eventNumber), d.moduleLabel, d.moduleName,
                                           Elapsed(now, moduleStartTime))]
    {
      var timeTaken := Elapsed(now, moduleStartTime);
      out := out + [TimerLine(ExitLabel(phase, eventNumber), d.moduleLabel, d.moduleName, timeTaken)];
    }

    method PreProcessEvent(now: CpuTime)
      modifies this`eventStartTime
      ensures eventStartTime == now
    {
      eventStartTime := now;
    }

    /** The whole event's time, reported under the pseudo-module
        EVENT/EVENT; then the next event begins. */
    method PostProcessEvent(now: CpuTime)
      modifies this`out, this`eventNumber
      ensures out == old(out) + [TimerLine("event" + NatToString(old(eventNumber)), "EVENT", "EVENT",
                                           Elapsed(now, eventStartTime))]
      ensures eventNumber == old(eventNumber) + 1
    {
      var timeTaken := Elapsed(now, eventStartTime);
      out := out + [TimerLine("event" + NatToString(eventNumber), "EVENT", "EVENT", timeTaken)];
      eventNumber := eventNumber + 1;
    }
  }
}

=== FILE: possible_memory_leaks.dfy ===
/** The leak finder (scripts/possibleMemoryLeaks.py): the per-class records
    are ranked by how steeply their memory grows from event to event. Only
    classes with at least two event steps are ranked. The least-squares
    slope is floating-point work done by a numerical library; here it is an
    input, a function from a class record to its slope. */
module PossibleMemoryLeaks {
  import opened Text
  import opened JobInfo
  import opened JobInfoPlot

  /** `stepName[:5]=="event"`. */
  predicate IsEventStep(stepName: string) {
    StartsWith(stepName, "event")
  }

  /** The steps of a record that are events. */
  function EventSteps(s: Series): (events: set<string>)
    ensures events <= s.steps.Keys
    ensures forall k :: k in events <==> k in s.steps && IsEventStep(k)
  {
    set k | k in s.steps && IsEventStep(k)
  }

  /** A record takes part in the ranking when it has two event steps or
      more. */
  predicate IsRanked(s: Series) {
    |EventSteps(s)| > 1
  }

  /** The value plotted and fed to the slope: retained memory less the
      product, zero for steps without a product. */
  const RetainedFunctor: Measure := RetainedExcludingProduct

  /** The names in `order` whose records take part. */
  function Candidates(classes: map<string, Series>, order: seq<string>): (r: seq<string>)
    requires forall k :: 0 <= k < |order| ==> order[k] in classes
    ensures forall x :: x in r <==> x in order && IsRanked(classes[x])
    decreases |order|
  {
    if |order| == 0 then []
    else
      var rest := Candidates(classes, order[..|order| - 1]);
      var last := order[|order| - 1];
      if IsRanked(classes[last]) then rest + [last] else rest
  }

  /** The pairs of each candidate and its slope, in order. */
  function Slopes(classes: map<string, Series>, order: seq<string>, slope: Series -> real): (r: seq<Ranked>)
    requires forall k :: 0 <= k < |order| ==> order[k] in classes
    ensures Names(r) == Candidates(classes, order)
    ensures forall k :: 0 <= k < |r| ==> r[k].name in classes && r[k].score == slope(classes[r[k].name])
    decreases |order|
  {
    if |order| == 0 then []
    else
      var rest := Slopes(classes, order[..|order| - 1], slope);
      var last := order[|order| - 1];
      if IsRanked(classes[last]) then
        NamesAppend(rest, Ranked(last, slope(classes[last])));
        rest + [Ranked(last, slope(classes[last]))]
      else rest
  }

  /** `orderModulesByRetainedSlope`: the loop collecting the pairs. */
  method OrderModulesByRetainedSlope(classes: map<string, Series>, order: seq<string>, slope: Series -> real)
    returns (names: seq<string>)
    requires IsEnumeration(order, classes)
    ensures multiset(names) == multiset(Candidates(classes, order))
    ensures forall x :: x in names ==> x in classes
    ensures forall x :: x in names <==> x in classes && IsRanked(classes[x])
    ensures forall i, j :: 0 <= i < j < |names| ==> slope(classes[names[i]]) >= slope(classes[names[j]])
  {
    var maximaForModules: seq<Ranked> := [];
    var i := 0;
    while i < |order|
      invariant 0 <= i <= |order|
      invariant maximaForModules == Slopes(classes, order[..i], slope)
    {
      assert order[..i + 1][..i] == order[..i];
      var record := classes[order[i]];
      var eventSteps := EventSteps(record);
      if |eventSteps| > 1 {
        maximaForModules := maximaForModules + [Ranked(order[i], slope(record))];
      }
      i := i + 1;
    }
    assert order[..i] == order;
    RankingOfSlopes(maximaForModules, classes, order, slope);
    names := Names(RankDescending(maximaForModules));
  }

  lemma RankingOfSlopes(maxima: seq<Ranked>, classes: map<string, Series>, order: seq<string>, slope: Series -> real)
    requires forall k :: 0 <= k < |order| ==> order[k] in classes
    requires maxima == Slopes(classes, order, slope)
    ensures var names := Names(RankDescending(maxima));
            && multiset(names) == multiset(Candidates(classes, order))
            && (forall x :: x in names ==> x in Candidates(classes, order))
            && (forall x :: x in Candidates(classes, order) ==> x in names)
            && (forall x :: x in names ==> x in classes)
            && (forall i, j :: 0 <= i < j < |names| ==> slope(classes[names[i]]) >= slope(classes[names[j]]))
  {
    var ranked := RankDescending(maxima);
    RankDescendingSorts(maxima);
    RankDescendingKeepsNames(maxima);
    ScoresAreSlopes(ranked, maxima, classes, slope);
    var names := Names(ranked);
    forall x
      ensures x in names <==> x in Candidates(classes, order)
    {
      assert x in names <==> x in multiset(names);
    }
  }

  lemma ScoresAreSlopes(ranked: seq<Ranked>, maxima: seq<Ranked>, classes: map<string, Series>, slope: Series -> real)
    requires multiset(ranked) == multiset(maxima)
    requires forall k :: 0 <= k < |maxima| ==> maxima[k].name in classes && maxima[k].score == slope(classes[maxima[k].name])
    ensures forall k :: 0 <= k < |ranked| ==> ranked[k].name in classes && ranked[k].score == slope(classes[ranked[k].name])
  {
    forall k | 0 <= k < |ranked|
      ensures ranked[k].name in classes && ranked[k].score == slope(classes[ranked[k].name])
    {
      assert ranked[k] in multiset(maxima);
      var j :| 0 <= j < |maxima| && maxima[j] == ranked[k];
    }
  }

  /** The script plots the first 25 of the ranking. */
  const NumberToPlot := 25

  /** `modulesToPlot[:25]`. */
  function ToPlot(ranking: seq<string>): (r: seq<string>)
    ensures |r| <= NumberToPlot && |r| <= |ranking| && r == ranking[..|r|]
    ensures |ranking| >= NumberToPlot ==> |r| == NumberToPlot
    ensures |ranking| < NumberToPlot ==> r == ranking
  {
    SliceTo(ranking, NumberToPlot)
  }
}

=== FILE: round_trip.dfy ===
/** The services and the log reader agree on the log format: every line the
    memory-counter engine or the module timer prints is read back by the
    log reader without an exception, and the reader's record holds the
    numbers that were printed. */
module RoundTrip {
  import opened Text
  import opened Framework
  import opened MemCounter
  import opened JobInfo
  import MemoryCounterService
  import ModuleTimer

  /** The prefixes the reader looks for are the ones the services print,
      and neither is a prefix of a line carrying the other. */
  lemma PrefixesAgree(line: string)
    ensures JobInfo.MemoryPrefix == MemoryCounterService.ReportPrefix
    ensures JobInfo.TimerPrefix == ModuleTimer.TimerPrefix
    ensures StartsWith(line, JobInfo.MemoryPrefix) ==> !StartsWith(line, JobInfo.TimerPrefix)
  {
    // The two prefixes differ in their fourth character.
    if StartsWith(line, JobInfo.MemoryPrefix) && |line| >= |JobInfo.TimerPrefix| {
      assert line[..|JobInfo.MemoryPrefix|][3] == 'E';
      assert line[..|JobInfo.TimerPrefix|][3] == 'E';
    }
  }

  /** An exit line of the engine is read as a memory step of the module it
      names: the step is recorded under the method name with the printed
      sizes and allocation counts, and a trailing pair sets the product
      size of the step it names. For the nine-field form the reader must
      already hold that earlier step, as it does when the engine's previous
      exit line of the module was read before. */
  lemma MemoryReportIsRead(s: JobState, methodName: string, d: ModuleDescription, c: CounterState,
                           previousEvent: string, previousRecordedSize: int)
    requires JobInvariant(s)
    requires ',' !in methodName && ',' !in d.moduleLabel && ',' !in d.moduleName && ',' !in previousEvent
    requires d.moduleLabel in s.modules ==> s.modules[d.moduleLabel].moduleType == d.moduleName
    requires previousRecordedSize != MemoryCounterService.Unset ==>
               d.moduleLabel in s.modules && previousEvent in s.modules[d.moduleLabel].steps
    ensures var r := AfterLine(s, MemoryCounterService.ReportLine(methodName, d, c, previousEvent, previousRecordedSize));
            && r.raised.None?
            && r.after.containsMemory && methodName in r.after.steps
            && d.moduleLabel in r.after.modules
            && var steps := r.after.modules[d.moduleLabel].steps;
               && methodName in steps
               && steps[methodName].heldMemory == c.currentSize
               && steps[methodName].peakMemory == c.maximumSize
               && steps[methodName].heldAllocation == IntToString(c.currentNumberOfAllocations)
               && steps[methodName].peakAllocation == IntToString(c.maximumNumberOfAllocations)
               && (previousRecordedSize == MemoryCounterService.Unset ==> steps[methodName].productSize == 0)
               && (previousRecordedSize != MemoryCounterService.Unset ==>
                     previousEvent in steps && steps[previousEvent].productSize == previousRecordedSize)
  {
    var line := MemoryCounterService.ReportLine(methodName, d, c, previousEvent, previousRecordedSize);
    var fields := MemoryCounterService.ReportFields(methodName, d, c, previousEvent, previousRecordedSize);
    MemoryCounterService.ReportLineFields(methodName, d, c, previousEvent, previousRecordedSize);
    PrefixesAgree(line);
    assert Classify(line) == MemoryLine(fields);
    ParseIntOfIntToString(c.currentSize);
    ParseIntOfIntToString(c.maximumSize);
    if previousRecordedSize != MemoryCounterService.Unset {
      ParseIntOfIntToString(previousRecordedSize);
    }
    var flagged := s.(containsMemory := true);
    var listed := Listed(flagged, methodName, d.moduleLabel);
    match CurrentModule(listed, fields)
    case Ok(m) =>
      assert m.name == d.moduleLabel && m.moduleType == d.moduleName;
      assert CheckColumns(m, fields, 7).None?;
      var taken := AddMemoryStep(m, fields);
      assert AfterLine(s, line) == Step(listed.(modules := listed.modules[d.moduleLabel := taken.after]), taken.raised);
  }

  /** A module-timer line is read as a time step of the module it names,
      holding the printed times. */
  lemma TimerLineIsRead(s: JobState, step: string, d: ModuleDescription, taken: ModuleTimer.CpuTime)
    requires JobInvariant(s)
    requires ',' !in step && ',' !in d.moduleLabel && ',' !in d.moduleName
    requires d.moduleLabel in s.modules ==> s.modules[d.moduleLabel].moduleType == d.moduleName
    ensures var r := AfterLine(s, ModuleTimer.TimerLine(step, d.moduleLabel, d.moduleName, taken));
            && r.raised.None?
            && r.after.containsTime && step in r.after.steps
            && d.moduleLabel in r.after.modules
            && var m := r.after.modules[d.moduleLabel];
               step in m.timeSteps && m.timeSteps[step] == TimeLog(taken.wall, taken.user, taken.system)
  {
    var line := ModuleTimer.TimerLine(step, d.moduleLabel, d.moduleName, taken);
    var fields := ModuleTimer.TimerFields(step, d.moduleLabel, d.moduleName, taken);
    ModuleTimer.TimerLineFields(step, d.moduleLabel, d.moduleName, taken);
    PrefixesAgree(line);
    assert Classify(line) == TimeLine(fields);
    ParseIntOfIntToString(taken.wall);
    ParseIntOfIntToString(taken.user);
    ParseIntOfIntToString(taken.system);
  }
}

=== FILE: single_module_plots.dfy ===
/** The single-module comparison script (scripts/singleModuleMemoryPlots.py):
    one module, picked with `-c`, is plotted from several pickled jobs. The
    command line gives the file names, each optionally preceded by `-t` and
    its title; an untitled file is titled after its name, and a title
    already in use gets the smallest free numeric suffix, so no file
    replaces another. Loading a pickled job is I/O: it is an input here, a
    function from a file name to the job record or to nothing when loading
    fails. */
module SingleModulePlots {
  import opened Wrappers
  import opened Text
  import opened JobInfo
  import opened JobInfoPlot

  // ---------------------------------------------------------------------
  // Titles.
  // ---------------------------------------------------------------------

  /** The last `/`-separated piece of the path, without a trailing ".log",
      then without a leading "output_". */
  function DefaultTitle(path: string): (title: string)
    ensures '/' !in title
  {
    var parts := Split(path, '/');
    var name := parts[|parts| - 1];
    var trimmed := if EndsWith(name, ".log") then name[..|name| - 4] else name;
    assert forall c :: c in trimmed ==> c in name;
    var title := if StartsWith(trimmed, "output_") then trimmed[7..] else trimmed;
    assert forall c :: c in title ==> c in trimmed;
    title
  }

  /** A bare file name without the two affixes is its own title. */
  lemma DefaultTitleOfPlainName(path: string)
    requires '/' !in path && !EndsWith(path, ".log") && !StartsWith(path, "output_")
    ensures DefaultTitle(path) == path
  {
    SplitWithoutSeparator(path, '/');
  }

  /** The piece after the last separator. */
  lemma {:induction false} LastPiece(dir: string, name: string)
    requires '/' !in name
    ensures var parts := Split(dir + "/" + name, '/');
            |parts| >= 2 && parts[|parts| - 1] == name
    decreases |dir|
  {
    var s := dir + "/" + name;
    if |dir| == 0 {
      assert s == [] + ['/'] + name;
      SplitAfterPiece([], name, '/');
      SplitWithoutSeparator(name, '/');
    } else {
      assert s[1..] == dir[1..] + "/" + name;
      LastPiece(dir[1..], name);
    }
  }

  /** A log written as `output_<name>.log` in any directory is titled
      `<name>`. */
  lemma DefaultTitleStripsAffixes(dir: string, name: string)
    requires '/' !in name
    ensures DefaultTitle(dir + "/" + ("output_" + name + ".log")) == name
  {
    var file := "output_" + name + ".log";
    assert '/' !in file by {
      assert forall i :: 0 <= i < |file| ==> file[i] == if i < 7 then "output_"[i]
                                                      else if i < 7 + |name| then name[i - 7]
                                                      else ".log"[i - 7 - |name|];
    }
    LastPiece(dir, file);
    assert EndsWith(file, ".log");
    var trimmed := file[..|file| - 4];
    assert trimmed == "output_" + name;
    assert StartsWith(trimmed, "output_");
    assert trimmed[7..] == name;
  }

  /** The suffixed titles `title_1` … `title_n`. */
  function Suffixed(title: string, n: nat): set<string>
    decreases n
  {
    if n == 0 then {} else Suffixed(title, n - 1) + {WithSuffix(title, n)}
  }

  lemma {:induction false} SuffixedMembers(title: string, n: nat, x: string)
    ensures x in Suffixed(title, n) <==> exists j :: 1 <= j <= n && x == WithSuffix(title, j)
    decreases n
  {
    if n > 0 {
      SuffixedMembers(title, n - 1, x);
    }
  }

  lemma {:induction false} SuffixedSize(title: string, n: nat)
    ensures |Suffixed(title, n)| == n
    decreases n
  {
    if n > 0 {
      SuffixedSize(title, n - 1);
      SuffixedMembers(title, n - 1, WithSuffix(title, n));
      if WithSuffix(title, n) in Suffixed(title, n - 1) {
        var j :| 1 <= j <= n - 1 && WithSuffix(title, n) == WithSuffix(title, j);
        WithSuffixInjective(title, j, n);
      }
    }
  }

  /** Only as many suffixed titles as there are keys can be in use. */
  lemma SuffixesInUseBound(title: string, keys: set<string>, n: nat)
    requires forall j :: 1 <= j <= n ==> WithSuffix(title, j) in keys
    ensures n <= |keys|
  {
    var used := Suffixed(title, n);
    forall x | x in used
      ensures x in keys
    {
      SuffixedMembers(title, n, x);
    }
    SuffixedSize(title, n);
    assert keys == used + (keys - used);
  }

  /** The smallest suffix from `k` on that is not in use. */
  function FreeSuffix(title: string, keys: set<string>, k: nat): (r: nat)
    requires 1 <= k
    requires forall j :: 1 <= j < k ==> WithSuffix(title, j) in keys
    ensures r >= k && WithSuffix(title, r) !in keys
    ensures forall j :: 1 <= j < r ==> WithSuffix(title, j) in keys
    decreases |keys| + 1 - k
  {
    if WithSuffix(title, k) !in keys then k
    else
      SuffixesInUseBound(title, keys, k);
      FreeSuffix(title, keys, k + 1)
  }

  /** The title a file is stored under: the wanted title when it is free,
      otherwise the wanted title with the smallest numeric suffix from 1 on
      that is free. */
  function UniqueTitle(title: string, keys: set<string>): (r: string)
    ensures r !in keys
    ensures title !in keys ==> r == title
    ensures title in keys ==>
              exists k: nat :: 1 <= k && r == WithSuffix(title, k) &&
                               forall j :: 1 <= j < k ==> WithSuffix(title, j) in keys
  {
    if title !in keys then title else WithSuffix(title, FreeSuffix(title, keys, 1))
  }

  /** The suffix search loop. */
  method FindUniqueTitle(title: string, keys: set<string>) returns (r: string)
    ensures r == UniqueTitle(title, keys)
  {
    if title !in keys {
      return title;
    }
    var suffix := 1;
    while WithSuffix(title, suffix) in keys
      invariant 1 <= suffix
      invariant forall j :: 1 <= j < suffix ==> WithSuffix(title, j) in keys
      invariant FreeSuffix(title, keys, 1) == FreeSuffix(title, keys, suffix)
      decreases |keys| + 1 - suffix
    {
      SuffixesInUseBound(title, keys, suffix);
      suffix := suffix + 1;
    }
    r := WithSuffix(title, suffix);
  }

  // ---------------------------------------------------------------------
  // The command line.
  // ---------------------------------------------------------------------

  datatype ScanState = ScanState(collection: string, nextTitle: string, inputFilenames: map<string, string>)

  const Start: ScanState := ScanState("", "", map[])

  datatype ArgError = CollectionNeedsArgument | OneCollectionOnly | TitleNeedsArgument | NoCollection

  datatype ScanResult = Scanned(state: ScanState) | Refused(error: ArgError)

  /** A file argument: stored under its title, or its default title, made
      unique; the title is used up. */
  function AddFile(st: ScanState, filename: string): ScanState {
    var title := if st.nextTitle == "" then DefaultTitle(filename) else st.nextTitle;
    var key := UniqueTitle(title, st.inputFilenames.Keys);
    st.(inputFilenames := st.inputFilenames[key := filename], nextTitle := "")
  }

  /** Every file gets an entry of its own: the table grows by exactly one
      entry, holding the file, and no earlier entry changes. */
  lemma AddFileAddsOneEntry(st: ScanState, filename: string)
    ensures var after := AddFile(st, filename).inputFilenames;
            && |after| == |st.inputFilenames| + 1
            && filename in after.Values
            && forall k :: k in st.inputFilenames ==> k in after && after[k] == st.inputFilenames[k]
    ensures AddFile(st, filename).collection == st.collection && AddFile(st, filename).nextTitle == ""
  {
    var title := if st.nextTitle == "" then DefaultTitle(filename) else st.nextTitle;
    var key := UniqueTitle(title, st.inputFilenames.Keys);
    var after := AddFile(st, filename).inputFilenames;
    assert after.Keys == st.inputFilenames.Keys + {key};
    assert after[key] == filename;
  }

  /** The scan from `index` on. The scan starts at the first element of
      the argument vector, the program's own name, which is therefore read
      as a file. */
  function ScanFrom(argv: seq<string>, index: nat, st: ScanState): ScanResult
    decreases |argv| - index
  {
    if index >= |argv| then Scanned(st)
    else if argv[index] == "-c" then
      if index + 1 >= |argv| then Refused(CollectionNeedsArgument)
      else if st.collection != "" then Refused(OneCollectionOnly)
      else ScanFrom(argv, index + 2, st.(collection := argv[index + 1]))
    else if argv[index] == "-t" then
      if index + 1 >= |argv| then Refused(TitleNeedsArgument)
      else ScanFrom(argv, index + 2, st.(nextTitle := argv[index + 1]))
    else ScanFrom(argv, index + 1, AddFile(st, argv[index]))
  }

  /** The command line as the script reads it: a missing collection is an
      error once the whole line is read. */
  function Arguments(argv: seq<string>): ScanResult {
    var r := ScanFrom(argv, 0, Start);
    if r.Scanned? && r.state.collection == "" then Refused(NoCollection) else r
  }

  /** Entries are never replaced while the scan goes on. */
  lemma {:induction false} ScanKeepsEntries(argv: seq<string>, index: nat, st: ScanState)
    requires ScanFrom(argv, index, st).Scanned?
    ensures var r := ScanFrom(argv, index, st).state.inputFilenames;
            forall k :: k in st.inputFilenames ==> k in r && r[k] == st.inputFilenames[k]
    decreases |argv| - index
  {
    if index < |argv| {
      if argv[index] == "-c" {
        ScanKeepsEntries(argv, index + 2, st.(collection := argv[index + 1]));
      } else if argv[index] == "-t" {
        ScanKeepsEntries(argv, index + 2, st.(nextTitle := argv[index + 1]));
      } else {
        AddFileAddsOneEntry(st, argv[index]);
        ScanKeepsEntries(argv, index + 1, AddFile(st, argv[index]));
      }
    }
  }

  /** The program's own name is stored as an input file. */
  lemma ProgramNameIsAFile(argv: seq<string>)
    requires |argv| > 0 && argv[0] != "-c" && argv[0] != "-t"
    requires Arguments(argv).Scanned?
    ensures argv[0] in Arguments(argv).state.inputFilenames.Values
  {
    var first := AddFile(Start, argv[0]);
    AddFileAddsOneEntry(Start, argv[0]);
    ScanKeepsEntries(argv, 1, first);
    var key :| key in first.inputFilenames && first.inputFilenames[key] == argv[0];
    assert Arguments(argv).state.inputFilenames[key] == argv[0];
  }

  /** The argument loop. */
  method ScanArguments(argv: seq<string>) returns (r: ScanResult)
    ensures r == Arguments(argv)
  {
    var inputFilenames: map<string, string> := map[];
    var collection := "";
    var nextTitle := "";
    var index := 0;
    while index < |argv|
      invariant 0 <= index <= |argv| + 1
      invariant ScanFrom(argv, 0, Start) == ScanFrom(argv, index, ScanState(collection, nextTitle, inputFilenames))
      decreases |argv| - index
    {
      if argv[index] == "-c" {
        if index + 1 >= |argv| {
          return Refused(CollectionNeedsArgument);
        }
        if collection != "" {
          return Refused(OneCollectionOnly);
        }
        index := index + 1;
        collection := argv[index];
      } else if argv[index] == "-t" {
        if index + 1 >= |argv| {
          return Refused(TitleNeedsArgument);
        }
        index := index + 1;
        nextTitle := argv[index];
      } else {
        if nextTitle == "" {
          nextTitle := DefaultTitle(argv[index]);
        }
        nextTitle := FindUniqueTitle(nextTitle, inputFilenames.Keys);
        inputFilenames := inputFilenames[nextTitle := argv[index]];
        nextTitle := "";
      }
      index := index + 1;
    }
    if collection == "" {
      return Refused(NoCollection);
    }
    r := Scanned(ScanState(collection, nextTitle, inputFilenames));
  }

  // ---------------------------------------------------------------------
  // Collecting the module from each job.
  // ---------------------------------------------------------------------

  /** The file under `title` loads and its job has the collection. */
  predicate Loads(inputFilenames: map<string, string>, title: string, collection: string,
                  load: string -> Option<JobState>)
    requires title in inputFilenames
  {
    load(inputFilenames[title]).Some? && collection in load(inputFilenames[title]).value.modules
  }

  /** The records gathered from the titles in `titles`, in that order, and
      the job steps of the first one that loaded. A file that does not load
      or lacks the collection is reported and skipped. */
  function Accumulated(inputFilenames: map<string, string>, titles: seq<string>, collection: string,
                       load: string -> Option<JobState>): (map<string, Series>, Option<seq<string>>)
    requires forall k :: 0 <= k < |titles| ==> titles[k] in inputFilenames
    decreases |titles|
  {
    if |titles| == 0 then (map[], None)
    else
      var before := Accumulated(inputFilenames, titles[..|titles| - 1], collection, load);
      var title := titles[|titles| - 1];
      if Loads(inputFilenames, title, collection, load) then
        var job := load(inputFilenames[title]).value;
        (before.0[title := Series(title, job.modules[collection].steps)],
         if before.1.None? then Some(job.steps) else before.1)
      else before
  }

  /** There is a record for a title exactly when its file loads with the
      collection; it is that module's steps renamed to the title. The job
      steps are those of the first title that loaded. */
  lemma {:induction false} AccumulatedHolds(inputFilenames: map<string, string>, titles: seq<string>,
                                            collection: string, load: string -> Option<JobState>)
    requires forall k :: 0 <= k < |titles| ==> titles[k] in inputFilenames
    ensures var r := Accumulated(inputFilenames, titles, collection, load);
            && (forall t :: t in r.0 <==> t in titles && Loads(inputFilenames, t, collection, load))
            && (forall t :: t in r.0 ==>
                  r.0[t] == Series(t, load(inputFilenames[t]).value.modules[collection].steps))
            && (r.1.None? <==> forall k :: 0 <= k < |titles| ==> !Loads(inputFilenames, titles[k], collection, load))
            && (r.1.Some? ==>
                  exists k :: 0 <= k < |titles| && Loads(inputFilenames, titles[k], collection, load)
                              && r.1.value == load(inputFilenames[titles[k]]).value.steps
                              && forall j :: 0 <= j < k ==> !Loads(inputFilenames, titles[j], collection, load))
    decreases |titles|
  {
    if |titles| > 0 {
      var prefix := titles[..|titles| - 1];
      AccumulatedHolds(inputFilenames, prefix, collection, load);
      var before := Accumulated(inputFilenames, prefix, collection, load);
      var title := titles[|titles| - 1];
      assert forall k :: 0 <= k < |prefix| ==> prefix[k] == titles[k];
      assert forall t :: t in titles <==> t in prefix || t == title;
      if before.1.None? && Loads(inputFilenames, title, collection, load) {
        assert forall j :: 0 <= j < |titles| - 1 ==> !Loads(inputFilenames, titles[j], collection, load);
      }
    }
  }

  /** The loading loop over the title dict, in its iteration order. */
  method Accumulate(inputFilenames: map<string, string>, titleOrder: seq<string>, collection: string,
                    load: string -> Option<JobState>)
    returns (modules: map<string, Series>, steps: Option<seq<string>>)
    requires IsEnumeration(titleOrder, inputFilenames)
    ensures (modules, steps) == Accumulated(inputFilenames, titleOrder, collection, load)
  {
    modules := map[];
    steps := None;
    var i := 0;
    while i < |titleOrder|
      invariant 0 <= i <= |titleOrder|
      invariant (modules, steps) == Accumulated(inputFilenames, titleOrder[..i], collection, load)
    {
      assert titleOrder[..i + 1][..i] == titleOrder[..i];
      var title := titleOrder[i];
      var filename := inputFilenames[title];
      var results := load(filename);
      if results.Some? && collection in results.value.modules {
        modules := modules[title := Series(title, results.value.modules[collection].steps)];
        if steps.None? {
          steps := Some(results.value.steps);
        }
      }
      i := i + 1;
    }
    assert titleOrder[..i] == titleOrder;
  }
}

=== FILE: text.dfy ===
/** Text handling shared by the services and the log readers: decimal
    printing of integers (as `operator<<`, `std::to_string` and Python's
    `str` print them), parsing them back, splitting on one separator
    character (Python's `str.split(',')` and `boost::split` with one
    separator) and splitting on runs of whitespace (Python's `str.split()`). */
module Text {
  import opened Wrappers

  predicate IsDigit(c: char) { '0' <= c <= '9' }

  predicate AllDigits(s: string) { forall i :: 0 <= i < |s| ==> IsDigit(s[i]) }

  function DigitChar(d: nat): (c: char)
    requires d < 10
    ensures IsDigit(c)
  {
    (48 + d) as char
  }

  function DigitValue(c: char): (d: nat)
    requires IsDigit(c)
    ensures d < 10 && DigitChar(d) == c
  {
    c as int - 48
  }

  /** Decimal text of a natural number, without leading zeros. */
  function NatToString(n: nat): (s: string)
    ensures |s| >= 1 && AllDigits(s)
    ensures s[0] == '0' ==> n == 0
    decreases n
  {
    if n < 10 then [DigitChar(n)] else NatToString(n / 10) + [DigitChar(n % 10)]
  }

  /** The value of a string of decimal digits. */
  function DigitsValue(s: string): nat
    requires AllDigits(s)
  {
    if |s| == 0 then 0 else DigitsValue(s[..|s| - 1]) * 10 + DigitValue(s[|s| - 1])
  }

  lemma {:induction false} DigitsValueOfNatToString(n: nat)
    ensures DigitsValue(NatToString(n)) == n
    decreases n
  {
    if n >= 10 {
      var s := NatToString(n);
      DigitsValueOfNatToString(n / 10);
      assert s[..|s| - 1] == NatToString(n / 10);
    }
  }

  /** Distinct numbers print as distinct texts. */
  lemma NatToStringInjective(a: nat, b: nat)
    ensures NatToString(a) == NatToString(b) ==> a == b
  {
    DigitsValueOfNatToString(a);
    DigitsValueOfNatToString(b);
  }

  /** `base + "_" + str(n)`. */
  function WithSuffix(base: string, n: nat): string {
    base + "_" + NatToString(n)
  }

  /** Distinct numbers make distinct suffixed names. */
  lemma WithSuffixInjective(base: string, i: nat, j: nat)
    requires i != j
    ensures WithSuffix(base, i) != WithSuffix(base, j)
  {
    if WithSuffix(base, i) == WithSuffix(base, j) {
      var n := |base| + 1;
      assert WithSuffix(base, i)[n..] == NatToString(i);
      assert WithSuffix(base, j)[n..] == NatToString(j);
      NatToStringInjective(i, j);
    }
  }

  /** Characters that can occur in a printed integer. */
  predicate IsNumberChar(c: char) { IsDigit(c) || c == '-' }

  /** Decimal text of an integer, with a leading '-' when negative. */
  function IntToString(i: int): (s: string)
    ensures |s| >= 1 && forall k :: 0 <= k < |s| ==> IsNumberChar(s[k])
    ensures (s[0] == '-') <==> i < 0
  {
    if i < 0 then "-" + NatToString(-i) else NatToString(i)
  }

  function ParseNat(s: string): (r: Option<nat>)
    ensures r.Some? <==> |s| > 0 && AllDigits(s)
  {
    if |s| > 0 && AllDigits(s) then Some(DigitsValue(s)) else None
  }

  /** An integer literal: an optional sign followed by at least one decimal
      digit and nothing else. This is the subset of what Python's `float()`
      and `int()` accept that the C++ services print. */
  function ParseInt(s: string): (r: Option<int>)
  {
    if |s| > 0 && (s[0] == '-' || s[0] == '+') then
      match ParseNat(s[1..])
      case None => None
      case Some(n) => var v: int := if s[0] == '-' then 0 - (n as int) else n; Some(v)
    else
      match ParseNat(s)
      case None => None
      case Some(n) => var v: int := n; Some(v)
  }

  /** Every printed integer parses back to itself. */
  lemma ParseIntOfIntToString(i: int)
    ensures ParseInt(IntToString(i)) == Some(i)
  {
    if i < 0 {
      var s := IntToString(i);
      assert s[1..] == NatToString(-i);
      DigitsValueOfNatToString(-i);
    } else {
      DigitsValueOfNatToString(i);
    }
  }

  predicate StartsWith(s: string, prefix: string) {
    |prefix| <= |s| && s[..|prefix|] == prefix
  }

  predicate EndsWith(s: string, suffix: string) {
    |suffix| <= |s| && s[|s| - |suffix|..] == suffix
  }

  predicate Distinct<T(==)>(s: seq<T>) {
    forall i, j :: 0 <= i < j < |s| ==> s[i] != s[j]
  }

  // ---------------------------------------------------------------------
  // Splitting on one separator character and joining with it.
  // ---------------------------------------------------------------------

  /** The pieces between separators, empty ones included: there is always
      one more piece than there are separators. */
  function Split(s: string, sep: char): (parts: seq<string>)
    ensures |parts| >= 1
    ensures forall k :: 0 <= k < |parts| ==> sep !in parts[k]
    decreases |s|
  {
    if |s| == 0 then [""]
    else
      var rest := Split(s[1..], sep);
      if s[0] == sep then [""] + rest
      else [[s[0]] + rest[0]] + rest[1..]
  }

  function Join(parts: seq<string>, sep: char): string
    requires |parts| >= 1
    decreases |parts|
  {
    if |parts| == 1 then parts[0] else parts[0] + [sep] + Join(parts[1..], sep)
  }

  lemma {:induction false} SplitWithoutSeparator(p: string, sep: char)
    requires sep !in p
    ensures Split(p, sep) == [p]
    decreases |p|
  {
    if |p| > 0 {
      assert sep !in p[1..];
      SplitWithoutSeparator(p[1..], sep);
      assert [p[0]] + p[1..] == p;
    }
  }

  /** Text free of the separator stays in the first piece. */
  lemma {:induction false} SplitFirstPieceAfter(p: string, rest: string, sep: char)
    requires sep !in p
    ensures Split(p + rest, sep)[0] == p + Split(rest, sep)[0]
    decreases |p|
  {
    if |p| > 0 {
      SplitFirstPieceAfter(p[1..], rest, sep);
      assert (p + rest)[1..] == p[1..] + rest;
      assert [p[0]] + (p[1..] + Split(rest, sep)[0]) == p + Split(rest, sep)[0];
    } else {
      assert p + rest == rest;
    }
  }

  lemma {:induction false} SplitAfterPiece(p: string, t: string, sep: char)
    requires sep !in p
    ensures Split(p + [sep] + t, sep) == [p] + Split(t, sep)
    decreases |p|
  {
    var s := p + [sep] + t;
    if |p| == 0 {
      assert s[1..] == t;
    } else {
      assert s[1..] == p[1..] + [sep] + t;
      assert sep !in p[1..];
      SplitAfterPiece(p[1..], t, sep);
      assert [p[0]] + p[1..] == p;
    }
  }

  /** Splitting what was joined gives the pieces back, provided no piece
      contains the separator. */
  lemma {:induction false} SplitJoin(parts: seq<string>, sep: char)
    requires |parts| >= 1
    requires forall k :: 0 <= k < |parts| ==> sep !in parts[k]
    ensures Split(Join(parts, sep), sep) == parts
    decreases |parts|
  {
    if |parts| == 1 {
      SplitWithoutSeparator(parts[0], sep);
    } else {
      SplitJoin(parts[1..], sep);
      SplitAfterPiece(parts[0], Join(parts[1..], sep), sep);
      assert [parts[0]] + parts[1..] == parts;
    }
  }

  /** Joining the pieces restores the text. */
  lemma {:induction false} JoinSplit(s: string, sep: char)
    ensures Join(Split(s, sep), sep) == s
    decreases |s|
  {
    if |s| > 0 {
      JoinSplit(s[1..], sep);
      var rest := Split(s[1..], sep);
      if s[0] != sep {
        if |rest| > 1 {
          assert rest[1..][1..] == rest[2..];
          assert ([[s[0]] + rest[0]] + rest[1..])[1..] == rest[1..];
        }
        assert [s[0]] + s[1..] == s;
      } else {
        assert ([""] + rest)[1..] == rest;
      }
    }
  }

  // ---------------------------------------------------------------------
  // Splitting on runs of whitespace.
  // ---------------------------------------------------------------------

  /** ASCII whitespace: space, tab, newline, vertical tab, form feed, carriage return. */
  predicate IsSpace(c: char) { c == ' ' || 9 <= c as int <= 13 }

  predicate NoSpace(s: string) { forall i :: 0 <= i < |s| ==> !IsSpace(s[i]) }

  /** The longest prefix without whitespace. */
  function LeadingWord(s: string): (w: string)
    ensures |w| <= |s| && w == s[..|w|] && NoSpace(w)
    ensures |w| < |s| ==> IsSpace(s[|w|])
    decreases |s|
  {
    if |s| == 0 || IsSpace(s[0]) then "" else [s[0]] + LeadingWord(s[1..])
  }

  /** The maximal runs of non-whitespace characters, in order. */
  function Fields(s: string): (r: seq<string>)
    ensures forall k :: 0 <= k < |r| ==> |r[k]| > 0 && NoSpace(r[k])
    decreases |s|
  {
    if |s| == 0 then []
    else if IsSpace(s[0]) then Fields(s[1..])
    else
      var w := LeadingWord(s);
      [w] + Fields(s[|w|..])
  }

  /** The text with every whitespace character removed. */
  function Squeezed(s: string): string
    decreases |s|
  {
    if |s| == 0 then "" else (if IsSpace(s[0]) then "" else [s[0]]) + Squeezed(s[1..])
  }

  function Concat(pieces: seq<string>): string
    decreases |pieces|
  {
    if |pieces| == 0 then "" else pieces[0] + Concat(pieces[1..])
  }

  /** `w` occurs in `s` at `i` as a whole word: whitespace or an end of
      the text on both sides. */
  predicate IsRunAt(s: string, i: int, w: string) {
    && 0 <= i && i + |w| <= |s| && s[i..i + |w|] == w
    && (i == 0 || IsSpace(s[i - 1]))
    && (i + |w| == |s| || IsSpace(s[i + |w|]))
  }

  function Shifted(xs: seq<int>, d: int): (r: seq<int>)
    ensures |r| == |xs| && forall k :: 0 <= k < |xs| ==> r[k] == xs[k] + d
  {
    seq(|xs|, k requires 0 <= k < |xs| => xs[k] + d)
  }

  /** Where each piece of `Fields(s)` starts in `s`. */
  function FieldStarts(s: string): seq<int>
    decreases |s|
  {
    if |s| == 0 then []
    else if IsSpace(s[0]) then Shifted(FieldStarts(s[1..]), 1)
    else
      var w := LeadingWord(s);
      [0] + Shifted(FieldStarts(s[|w|..]), |w|)
  }

  lemma {:induction false} SqueezedWord(w: string, t: string)
    requires NoSpace(w)
    ensures Squeezed(w + t) == w + Squeezed(t)
    decreases |w|
  {
    if |w| > 0 {
      assert !IsSpace((w + t)[0]);
      assert (w + t)[1..] == w[1..] + t;
      assert Squeezed(w + t) == [w[0]] + Squeezed(w[1..] + t);
      SqueezedWord(w[1..], t);
      assert [w[0]] + (w[1..] + Squeezed(t)) == ([w[0]] + w[1..]) + Squeezed(t);
      assert w == [w[0]] + w[1..];
    } else {
      assert w + t == t;
    }
  }

  /** Runs found in a suffix of `s` are runs of `s`, provided a run at the
      start of the suffix follows whitespace. */
  lemma RunsShift(s: string, d: nat, r: seq<string>, st: seq<int>)
    requires d <= |s| && |st| == |r|
    requires forall k :: 0 <= k < |r| ==> IsRunAt(s[d..], st[k], r[k])
    requires forall k :: 0 <= k < |r| && st[k] == 0 && d > 0 ==> IsSpace(s[d - 1])
    ensures forall k :: 0 <= k < |r| ==> IsRunAt(s, st[k] + d, r[k])
  {
    forall k | 0 <= k < |r|
      ensures IsRunAt(s, st[k] + d, r[k])
    {
      assert s[st[k] + d..st[k] + d + |r[k]|] == s[d..][st[k]..st[k] + |r[k]|];
      if st[k] > 0 {
        assert s[st[k] + d - 1] == s[d..][st[k] - 1];
      }
      if st[k] + |r[k]| < |s[d..]| {
        assert s[st[k] + d + |r[k]|] == s[d..][st[k] + |r[k]|];
      }
    }
  }

  /** `r` are the whole words of `s` in order, starting at `st`. */
  predicate WordsAt(s: string, r: seq<string>, st: seq<int>) {
    && |st| == |r|
    && (forall k :: 0 <= k < |r| ==> |r[k]| > 0 && IsRunAt(s, st[k], r[k]))
    && (forall k :: 0 <= k < |r| - 1 ==> st[k] + |r[k]| < st[k + 1])
  }

  /** The pieces are the whole words of the text in order, each separated
      from the next by whitespace: what Python's `str.split()` returns. */
  lemma {:induction false} FieldsAreMaximalRuns(s: string)
    ensures WordsAt(s, Fields(s), FieldStarts(s))
    decreases |s|
  {
    if |s| == 0 {
    } else if IsSpace(s[0]) {
      FieldsAreMaximalRuns(s[1..]);
      WordsAfterSpace(s);
    } else {
      FieldsAreMaximalRuns(s[|LeadingWord(s)|..]);
      WordsAfterWord(s);
    }
  }

  lemma WordsAfterSpace(s: string)
    requires |s| > 0 && IsSpace(s[0])
    requires WordsAt(s[1..], Fields(s[1..]), FieldStarts(s[1..]))
    ensures WordsAt(s, Fields(s), FieldStarts(s))
  {
    RunsShift(s, 1, Fields(s[1..]), FieldStarts(s[1..]));
  }

  lemma WordsAfterWord(s: string)
    requires |s| > 0 && !IsSpace(s[0])
    requires WordsAt(s[|LeadingWord(s)|..], Fields(s[|LeadingWord(s)|..]), FieldStarts(s[|LeadingWord(s)|..]))
    ensures WordsAt(s, Fields(s), FieldStarts(s))
  {
    var w := LeadingWord(s);
    var t := s[|w|..];
    assert Fields(s) == [w] + Fields(t);
    assert FieldStarts(s) == [0] + Shifted(FieldStarts(t), |w|);
    WordThenRuns(s, w, Fields(t), FieldStarts(t));
  }

  /** A word at the start of `s`, followed by the whole words of the rest. */
  lemma WordThenRuns(s: string, w: string, r: seq<string>, st: seq<int>)
    requires |w| > 0 && w == LeadingWord(s)
    requires WordsAt(s[|w|..], r, st)
    requires forall k :: 0 <= k < |r| ==> NoSpace(r[k])
    ensures WordsAt(s, [w] + r, [0] + Shifted(st, |w|))
  {
    NoRunAtWordEnd(s, w, r, st);
    WordThenRunsAt(s, w, r, st);
    WordThenRunsOrdered(w, r, st);
  }

  lemma WordThenRunsAt(s: string, w: string, r: seq<string>, st: seq<int>)
    requires |w| > 0 && w == LeadingWord(s)
    requires WordsAt(s[|w|..], r, st)
    requires forall k :: 0 <= k < |r| ==> st[k] != 0
    ensures forall k :: 0 <= k < |r| + 1 ==>
              |([w] + r)[k]| > 0 && IsRunAt(s, ([0] + Shifted(st, |w|))[k], ([w] + r)[k])
  {
    RunsShift(s, |w|, r, st);
    assert IsRunAt(s, 0, w);
    var all, starts := [w] + r, [0] + Shifted(st, |w|);
    forall k | 0 <= k < |all|
      ensures |all[k]| > 0 && IsRunAt(s, starts[k], all[k])
    {
      if k > 0 {
        assert all[k] == r[k - 1] && starts[k] == st[k - 1] + |w|;
      }
    }
  }

  lemma WordThenRunsOrdered(w: string, r: seq<string>, st: seq<int>)
    requires |st| == |r|
    requires forall k :: 0 <= k < |r| ==> 0 < st[k]
    requires forall k :: 0 <= k < |r| - 1 ==> st[k] + |r[k]| < st[k + 1]
    ensures forall k :: 0 <= k < |r| ==>
              ([0] + Shifted(st, |w|))[k] + |([w] + r)[k]| < ([0] + Shifted(st, |w|))[k + 1]
  {
    var all, starts := [w] + r, [0] + Shifted(st, |w|);
    forall k | 0 <= k < |r|
      ensures starts[k] + |all[k]| < starts[k + 1]
    {
      if k > 0 {
        assert all[k] == r[k - 1] && starts[k] == st[k - 1] + |w| && starts[k + 1] == st[k] + |w|;
      }
    }
  }

  /** No word of the rest starts right where the leading word ends. */
  lemma NoRunAtWordEnd(s: string, w: string, r: seq<string>, st: seq<int>)
    requires w == LeadingWord(s)
    requires WordsAt(s[|w|..], r, st)
    requires forall k :: 0 <= k < |r| ==> NoSpace(r[k])
    ensures forall k :: 0 <= k < |r| ==> 0 < st[k]
  {
    var t := s[|w|..];
    forall k | 0 <= k < |r|
      ensures 0 < st[k]
    {
      if st[k] == 0 {
        assert false;
      }
    }
  }

  /** Together the pieces hold every non-whitespace character, in order. */
  lemma {:induction false} FieldsCover(s: string)
    ensures Concat(Fields(s)) == Squeezed(s)
    decreases |s|
  {
    if |s| > 0 {
      if IsSpace(s[0]) {
        FieldsCover(s[1..]);
      } else {
        var w := LeadingWord(s);
        FieldsCover(s[|w|..]);
        assert s == w + s[|w|..];
        SqueezedWord(w, s[|w|..]);
      }
    }
  }

  /** Each character equal to `from` replaced by `to`, as Python's
      `str.replace` does for one-character arguments. */
  function ReplaceChar(s: string, from: char, to: char): (r: string)
    ensures |r| == |s|
    ensures forall i :: 0 <= i < |s| ==> r[i] == (if s[i] == from then to else s[i])
  {
    seq(|s|, i requires 0 <= i < |s| => if s[i] == from then to else s[i])
  }
}

=== FILE: wrappers.dfy ===
/** Optional values, used for configuration parameters that may be absent,
    factory results that may be null and parses that may fail. */
module Wrappers {

  datatype Option<+T> = None | Some(value: T) {
    function GetOr(default: T): T {
      match this
      case Some(v) => v
      case None => default
    }
  }
}
